=== FILE: README.md ===
# HelloWorldKMP core, modelled in Dafny

This project models the logic underneath the HelloWorldKMP Kotlin Multiplatform demo app. That logic sits below the Compose screens, the navigation and the Koin wiring. Clocks, random choices and the collaborators a class receives become parameters. Every operation is then a pure function, and its contract states what the Kotlin code promises.

The parts modelled, one Dafny module each (files in brackets):

- **Kotlin string and number behaviour the core relies on** (`text.dfy`, `decimal.dfy`, `optional.dfy`):
  - `trim`, `isBlank`, ASCII `lowercase`/`uppercase`, `contains`, `replace` and `equals(ignoreCase = true)`
  - `Int`/`Long` `toString()` and `String.toInt()`
  - nullable values (`Option`) and thrown build errors (`Result`)
- **The data layer** (`data_result.dfy`, `hello_model.dfy`, `login_mappers.dfy`, `hello_data_sources.dfy`, `hello_repository.dfy`):
  - the `DataResult` variants the code matches on
  - the Hello DTO/domain mappers and the User and Token mappers, with their round trips
  - the simulated network data source and the JSON-backed mock data source
  - `HelloRepositoryImpl`, which converts successes and passes errors through
- **Use cases** (`hello_use_cases.dfy`, `legacy_hello_use_cases.dfy`, `hello_flows.dfy`):
  - the shared `PostHelloMessageUseCase`, `GetHelloMessageUseCase` and `GetRandomGreetingUseCase`: input cleaning, length limits, and classification of every `DataResult` into a user-facing outcome
  - the older post and get use cases of the `feature` tree
  - the periodic greeting flow (period 5) and the two-value session flow
- **Presentation mappers** (`hello_presentation_mappers.dfy`): `msg_<timestamp>` ids, `HH:MM` zero padding, and upper-cased language codes.
- **MVI view models** (`mvi.dfy`, `login_view_model.dfy`, `hello_screen_view_model.dfy`, `legacy_hello_view_model.dfy`, `cart_view_model.dfy`):
  - The base `MVIViewModel` is a state plus an append-only effect log, with `setState`/`setEffect` and a fold over events.
  - Each view model's `handleEvents` is a transition over that pair.
  - Invariants proved over every reachable state:
    - Login: the button is enabled exactly when both fields are non-blank.
    - Hello screen: it never stays loading, and a shown error was the last error announced.
    - Cart: the screen only ever works on `default_cart`.
  - The two Hello view model iterations move in lockstep.
- **The in-memory cart repository** (`cart_store.dfy`): a map of carts with append, remove-by-id and a recomputed total. Other carts are provably untouched.
- **The in-memory feature flags** (`feature_flags.dfy`): lookup with defaults, right-biased update, and change-only observation.
- **The config build script's value resolution** (`build_config.dfy`): lines 31-70 of `config/build.gradle.kts`, covering the environment fallback, prefixed properties with defaults, port and build-type validation, and `API_BASE_URL`.
- **End-to-end compositions** (`hello_pipeline.dfy`): each use case running over the repository over each data source.

The class `DataResult` is not part of this model. Its variants come from the way the repositories, data sources and use cases construct and match them:

- `Client`: `Database`, `Mapping`, `UnexpectedError`
- `Network`: `ConnectionError`, `HttpError(code)`, `UnknownError`

Where the two copies of a component differ between the `feature/` tree and the `shared/` tree, both are modelled. The older Hello view model calls the use cases with the shared tree's API, so it is composed with the shared use cases.

## Model

| member | source | states |
|---|---|---|
| Text.IsWhitespace | shared/features/hello/hello_domain/src/commonMain/kotlin/com/gpcasiapac/gpchelloworldkmp/feature/hello/domain/usecase/GetHelloMessageUseCase.kt:11 | a character is whitespace exactly when it is one of the code points Kotlin's `Char.isWhitespace` accepts on the JVM: tab to carriage return, the four separators and space, and the Unicode space separators |
| Text.IsBlank | shared/features/hello/hello_domain/src/commonMain/kotlin/com/gpcasiapac/gpchelloworldkmp/feature/hello/domain/usecase/PostHelloMessageUseCase.kt:27 | `isBlank` holds exactly when every character is whitespace; `TrimEmptyIffBlank` ties it to `trim` |
| Text.Trim | shared/features/hello/hello_domain/src/commonMain/kotlin/com/gpcasiapac/gpchelloworldkmp/feature/hello/domain/usecase/GetHelloMessageUseCase.kt:11 | the result is an infix of the input; everything cut from either side is whitespace; the result neither starts nor ends with whitespace |
| Text.TrimEmptyIffBlank | shared/features/hello/hello_domain/src/commonMain/kotlin/com/gpcasiapac/gpchelloworldkmp/feature/hello/domain/usecase/PostHelloMessageUseCase.kt:12-13 | trimming gives the empty string exactly when the input is blank, so "empty after trim" is the `isBlank` test |
| Text.TrimmedBlankIsEmpty | shared/features/hello/hello_domain/src/commonMain/kotlin/com/gpcasiapac/gpchelloworldkmp/feature/hello/domain/usecase/PostHelloMessageUseCase.kt:12-13 | a trimmed string is blank only when it is empty |
| Text.TrimFixed | feature/hello/hello_domain/src/commonMain/kotlin/com/gpcasiapac/gpchelloworldkmp/feature/hello/domain/usecase/GetHelloMessageUseCase.kt:11 | a string that neither starts nor ends with whitespace is its own trim |
| Text.TrimIdempotent | feature/hello/hello_domain/src/commonMain/kotlin/com/gpcasiapac/gpchelloworldkmp/feature/hello/domain/usecase/GetHelloMessageUseCase.kt:11 | trimming twice is the same as trimming once |
| Text.Lower | feature/hello/hello_data/src/commonMain/kotlin/com/gpcasiapac/gpchelloworldkmp/feature/hello/data/datasource/HelloNetworkDataSourceImpl.kt:20-24 | `lowercase()` keeps the length, leaves no upper-case ASCII letter and changes characters only in case |
| Text.Upper | feature/hello/hello_presentation/src/commonMain/kotlin/com/gpcasiapac/gpchelloworldkmp/feature/hello/presentation/mapper/HelloMessageMappers.kt:18-22 | `uppercase()` keeps the length, leaves no lower-case ASCII letter and changes characters only in case |
| Text.EqualsIgnoreCase | config/build.gradle.kts:54 | equal length and equal characters once upper-cased |
| Text.EqualsIgnoreCaseProperties | config/build.gradle.kts:54 | case-insensitive equality is reflexive, symmetric and transitive, and identifies a string with its upper- and lower-cased forms |
| Text.Contains | feature/hello/hello_data/src/commonMain/kotlin/com/gpcasiapac/gpchelloworldkmp/feature/hello/data/datasource/HelloNetworkDataSourceImpl.kt:84 | `contains` holds exactly when the pattern occurs at some index |
| Text.ReplaceAll | feature/hello/hello_data/src/commonMain/kotlin/com/gpcasiapac/gpchelloworldkmp/feature/hello/data/datasource/MockHelloNetworkDataSourceImpl.kt:34 | `replace` keeps the length when the replacement is as long as the pattern; `ReplaceAbsent`, `ReplaceLeading` and `ReplaceAfterLiteral` state how occurrences are found and replaced |
| Text.ReplaceAbsent | feature/hello/hello_data/src/commonMain/kotlin/com/gpcasiapac/gpchelloworldkmp/feature/hello/data/datasource/MockHelloNetworkDataSourceImpl.kt:34 | `replace` leaves text without an occurrence of the pattern unchanged |
| Text.ReplaceBySelf | feature/hello/hello_data/src/commonMain/kotlin/com/gpcasiapac/gpchelloworldkmp/feature/hello/data/datasource/MockHelloNetworkDataSourceImpl.kt:34 | replacing a pattern by itself is the identity |
| Text.ReplaceCanFormPattern | feature/hello/hello_data/src/commonMain/kotlin/com/gpcasiapac/gpchelloworldkmp/feature/hello/data/datasource/MockHelloNetworkDataSourceImpl.kt:34 | `replace` makes one pass: "aabb" with "ab" replaced by "a" is "aab", which contains the pattern again although "a" does not |
| Text.ReplaceLeading | feature/hello/hello_data/src/commonMain/kotlin/com/gpcasiapac/gpchelloworldkmp/feature/hello/data/datasource/MockHelloNetworkDataSourceImpl.kt:34 | an occurrence of the pattern at the head becomes the replacement and the scan continues after it |
| Text.ReplaceAfterLiteral | feature/hello/hello_data/src/commonMain/kotlin/com/gpcasiapac/gpchelloworldkmp/feature/hello/data/datasource/MockHelloNetworkDataSourceImpl.kt:34 | text that cannot start an occurrence passes through replacement unchanged |
| Decimal.NatToString | shared/features/hello/hello_presentation/src/commonMain/kotlin/com/gpcasiapac/gpchelloworldkmp/feature/hello/presentation/mapper/HelloMessageStateMappers.kt:12 | the decimal text of a non-negative number is digits only, has no leading zero and reads back as the number |
| Decimal.ParseSigned | config/build.gradle.kts:52 | text parses exactly when, after an optional `+` or `-`, it is one or more ASCII digits; the value is those digits read in decimal, negated after a `-` |
| Decimal.ParseInt | config/build.gradle.kts:52 | `toInt()` succeeds exactly for signed ASCII-digit text whose value fits in 32 bits, and yields that value |
| Decimal.IntToString | shared/features/hello/hello_presentation/src/commonMain/kotlin/com/gpcasiapac/gpchelloworldkmp/feature/hello/presentation/mapper/HelloMessageStateMappers.kt:12 | `toString()` prints a non-negative number as its `NatToString` digits and a negative one as '-' followed by the digits of its magnitude; the text is canonical (no '+', no leading zero, no "-0") and reads back as the number |
| Decimal.CanonicalIsIntToString | shared/features/hello/hello_presentation/src/commonMain/kotlin/com/gpcasiapac/gpchelloworldkmp/feature/hello/presentation/mapper/HelloMessageStateMappers.kt:12 | canonical text is the only spelling: any canonical text that reads as n is exactly `toString()` of n |
| Decimal.NatToStringUnique | shared/features/hello/hello_presentation/src/commonMain/kotlin/com/gpcasiapac/gpchelloworldkmp/feature/hello/presentation/mapper/HelloMessageStateMappers.kt:12 | digits without a leading zero are exactly what `NatToString` prints for their value |
| Decimal.IntToStringInjective | shared/features/hello/hello_presentation/src/commonMain/kotlin/com/gpcasiapac/gpchelloworldkmp/feature/hello/presentation/mapper/HelloMessageStateMappers.kt:12 | two numbers print the same exactly when they are equal |
| Decimal.ParseIntRoundTrip | config/build.gradle.kts:52 | `toInt()` reads back every 32-bit number printed by `toString()` |
| DataResults.DataResult.Map | shared/features/hello/hello_data/src/commonMain/kotlin/com/gpcasiapac/gpchelloworldkmp/feature/hello/data/repository/HelloRepositoryImpl.kt:15-27 | a success is converted, an error is passed through unchanged, and success is kept exactly |
| DataResults.ErrorGroupsPartition | feature/hello/hello_domain/src/commonMain/kotlin/com/gpcasiapac/gpchelloworldkmp/feature/hello/domain/usecase/PostHelloMessageUseCase.kt:24-29 | every data error is in exactly one of the Client and Network groups, so matching on the two groups is exhaustive |
| HelloModel.ToDomain | feature/hello/hello_data/src/commonMain/kotlin/com/gpcasiapac/gpchelloworldkmp/feature/hello/data/mapper/HelloMessageMapper.kt:6-12 | `toDomain` takes the text from `message` and copies timestamp and language |
| HelloModel.ToDto | shared/features/hello/hello_data/src/commonMain/kotlin/com/gpcasiapac/gpchelloworldkmp/feature/hello/data/mapper/HelloMessageMappers.kt:6-12 | `toDto` is a right inverse of `toDomain`: converting back gives the same domain message |
| HelloModel.DtoRoundTrip | feature/hello/hello_data/src/commonMain/kotlin/com/gpcasiapac/gpchelloworldkmp/feature/hello/data/mapper/HelloMessageMapper.kt:6-12 | `toDto(toDomain(d)) == d` for every transfer object |
| HelloModel.MappersInjective | shared/features/hello/hello_data/src/commonMain/kotlin/com/gpcasiapac/gpchelloworldkmp/feature/hello/data/mapper/HelloMessageMappers.kt:6-12 | neither mapper conflates two distinct values |
| LoginMappers.UserToDomain | shared/features/login/login_data/src/commonMain/kotlin/com/gpcasiapac/gpchelloworldkmp/feature/login/data/mapper/UserMappers.kt:6-17 | `UserDto.toDomain` copies all eight fields one for one |
| LoginMappers.UserToDto | shared/features/login/login_data/src/commonMain/kotlin/com/gpcasiapac/gpchelloworldkmp/feature/login/data/mapper/UserMappers.kt:19-30 | `User.toDto` is undone by `toDomain`: `toDomain(toDto(u)) == u` |
| LoginMappers.UserDtoRoundTrip | shared/features/login/login_data/src/commonMain/kotlin/com/gpcasiapac/gpchelloworldkmp/feature/login/data/mapper/UserMappers.kt:6-30 | `toDto(toDomain(d)) == d` for every user transfer object |
| LoginMappers.TokenToDomain | feature/login/login_data/src/commonMain/kotlin/com/gpcasiapac/gpchelloworldkmp/feature/login/data/mapper/TokenMappers.kt:6-15 | `TokenDto.toDomain` copies all six fields one for one |
| LoginMappers.TokenToDto | feature/login/login_data/src/commonMain/kotlin/com/gpcasiapac/gpchelloworldkmp/feature/login/data/mapper/TokenMappers.kt:17-26 | `Token.toDto` is undone by `toDomain`: `toDomain(toDto(t)) == t` |
| LoginMappers.TokenDtoRoundTrip | feature/login/login_data/src/commonMain/kotlin/com/gpcasiapac/gpchelloworldkmp/feature/login/data/mapper/TokenMappers.kt:6-26 | `toDto(toDomain(d)) == d` for every token transfer object |
| HelloNetworkSource.Greeting | feature/hello/hello_data/src/commonMain/kotlin/com/gpcasiapac/gpchelloworldkmp/feature/hello/data/datasource/HelloNetworkDataSourceImpl.kt:26-31 | the greeting is "¡Hola, <name>! ¡Bienvenido a KMP!" for es, "Bonjour, <name>! Bienvenue à KMP!" for fr, "Hallo, <name>! Willkommen bei KMP!" for de and "Hello, <name>! Welcome to KMP!" for every other language; every one embeds the name |
| HelloNetworkSource.GreetingInjective | feature/hello/hello_data/src/commonMain/kotlin/com/gpcasiapac/gpchelloworldkmp/feature/hello/data/datasource/HelloNetworkDataSourceImpl.kt:26-31 | within one language, two names give the same greeting exactly when they are equal |
| HelloNetworkSource.GreetingsDifferByLanguage | feature/hello/hello_data/src/commonMain/kotlin/com/gpcasiapac/gpchelloworldkmp/feature/hello/data/datasource/HelloNetworkDataSourceImpl.kt:26-31 | for the same name, the es, fr, de and English greetings are pairwise different |
| HelloNetworkSource.GetHelloMessageDto | feature/hello/hello_data/src/commonMain/kotlin/com/gpcasiapac/gpchelloworldkmp/feature/hello/data/datasource/HelloNetworkDataSourceImpl.kt:20-38 | the request fails with the connection error exactly when the name lower-cases to "error"; otherwise the text is the language's own template around the name (es, fr and de each have one, every other language gets the English one), and reports the requested language and the current time |
| HelloNetworkSource.GetRandomGreetingDto | feature/hello/hello_data/src/commonMain/kotlin/com/gpcasiapac/gpchelloworldkmp/feature/hello/data/datasource/HelloNetworkDataSourceImpl.kt:52-59 | a random greeting always succeeds, is one of the eight listed words followed by " from KMP!", is in English and is not blank |
| HelloNetworkSource.PostHelloMessage | feature/hello/hello_data/src/commonMain/kotlin/com/gpcasiapac/gpchelloworldkmp/feature/hello/data/datasource/HelloNetworkDataSourceImpl.kt:76-96 | fewer than 3 characters is HTTP 400; otherwise "servererror" in any case is HTTP 500; a post succeeds exactly when neither applies and then echoes the message with only the timestamp replaced |
| MockHelloSource.FindLanguage | feature/hello/hello_data/src/commonMain/kotlin/com/gpcasiapac/gpchelloworldkmp/feature/hello/data/datasource/MockHelloNetworkDataSourceImpl.kt:30-31 | `find` returns the index of the first template in the language, or nothing when no template has it |
| MockHelloSource.SelectTemplate | feature/hello/hello_data/src/commonMain/kotlin/com/gpcasiapac/gpchelloworldkmp/feature/hello/data/datasource/MockHelloNetworkDataSourceImpl.kt:30-32 | the chosen template is one of the list: in the requested language when there is one, else the first English template when there is one, else the first |
| MockHelloSource.SelectsFirstMatch | feature/hello/hello_data/src/commonMain/kotlin/com/gpcasiapac/gpchelloworldkmp/feature/hello/data/datasource/MockHelloNetworkDataSourceImpl.kt:30-31 | when the language occurs, the first template in that language is selected |
| MockHelloSource.SelectsFirstEnglish | feature/hello/hello_data/src/commonMain/kotlin/com/gpcasiapac/gpchelloworldkmp/feature/hello/data/datasource/MockHelloNetworkDataSourceImpl.kt:30-32 | when the language does not occur, the first English template is selected |
| MockHelloSource.GetHelloMessageDto | feature/hello/hello_data/src/commonMain/kotlin/com/gpcasiapac/gpchelloworldkmp/feature/hello/data/datasource/MockHelloNetworkDataSourceImpl.kt:30-42 | the mock always succeeds, substitutes the name for every "{name}" of the selected template and reports the requested language even after a fallback |
| MockHelloSource.SinglePlaceholder | feature/hello/hello_data/src/commonMain/kotlin/com/gpcasiapac/gpchelloworldkmp/feature/hello/data/datasource/MockHelloNetworkDataSourceImpl.kt:34 | a template with one placeholder yields the name between its two halves |
| MockHelloSource.GetRandomGreetingDto | feature/hello/hello_data/src/commonMain/kotlin/com/gpcasiapac/gpchelloworldkmp/feature/hello/data/datasource/MockHelloNetworkDataSourceImpl.kt:51-59 | a mock random greeting is an element of the configured list verbatim, in English |
| MockHelloSource.PostHelloMessage | feature/hello/hello_data/src/commonMain/kotlin/com/gpcasiapac/gpchelloworldkmp/feature/hello/data/datasource/MockHelloNetworkDataSourceImpl.kt:62-70 | a mock post always succeeds and changes only the timestamp |
| HelloRepository.FetchHelloMessage | shared/features/hello/hello_data/src/commonMain/kotlin/com/gpcasiapac/gpchelloworldkmp/feature/hello/data/repository/HelloRepositoryImpl.kt:14-27 | the repository succeeds exactly when the data source does, converting the DTO with `toDomain`; an error is passed through unchanged |
| HelloRepository.FetchRandomGreeting | shared/features/hello/hello_data/src/commonMain/kotlin/com/gpcasiapac/gpchelloworldkmp/feature/hello/data/repository/HelloRepositoryImpl.kt:30-43 | the same conversion and pass-through for the random greeting |
| HelloRepository.PostHelloMessage | shared/features/hello/hello_data/src/commonMain/kotlin/com/gpcasiapac/gpchelloworldkmp/feature/hello/data/repository/HelloRepositoryImpl.kt:46-61 | the data source receives exactly `toDto(message)`; its reply is converted on success and passed through on error |
| HelloRepository.PostThroughEchoingSource | shared/features/hello/hello_data/src/commonMain/kotlin/com/gpcasiapac/gpchelloworldkmp/feature/hello/data/repository/HelloRepositoryImpl.kt:46-61 | posting through a source that echoes with a new timestamp returns the message with that timestamp |
| PostHelloMessageUseCase.Validate | shared/features/hello/hello_domain/src/commonMain/kotlin/com/gpcasiapac/gpchelloworldkmp/feature/hello/domain/usecase/PostHelloMessageUseCase.kt:12-22 | empty after trimming is `EmptyMessage`; over 500 trimmed characters is `MessageTooLong`; otherwise the message goes on with only its text trimmed |
| PostHelloMessageUseCase.Classify | shared/features/hello/hello_domain/src/commonMain/kotlin/com/gpcasiapac/gpchelloworldkmp/feature/hello/domain/usecase/PostHelloMessageUseCase.kt:24-52 | each outcome holds exactly for its replies: `Success` for a non-blank success carrying it unchanged; `MessagePostFailed` for a blank success, `Database` or `Mapping`; `EmptyMessage` for HTTP 400; `MessageTooLong` for HTTP 413; `ServiceUnavailable` for everything else |
| PostHelloMessageUseCase.Invoke | shared/features/hello/hello_domain/src/commonMain/kotlin/com/gpcasiapac/gpchelloworldkmp/feature/hello/domain/usecase/PostHelloMessageUseCase.kt:10-53 | the repository is only called with a trimmed message of 1 to 500 characters, and its reply is then classified; a returned success never has blank text |
| GetHelloMessageUseCase.CleanName | shared/features/hello/hello_domain/src/commonMain/kotlin/com/gpcasiapac/gpchelloworldkmp/feature/hello/domain/usecase/GetHelloMessageUseCase.kt:11 | the cleaned name is the trimmed name, or "World" when that is empty; it is never empty and has no whitespace at either end |
| GetHelloMessageUseCase.CleanNameIdempotent | shared/features/hello/hello_domain/src/commonMain/kotlin/com/gpcasiapac/gpchelloworldkmp/feature/hello/domain/usecase/GetHelloMessageUseCase.kt:11 | cleaning a cleaned name changes nothing |
| GetHelloMessageUseCase.Validate | shared/features/hello/hello_domain/src/commonMain/kotlin/com/gpcasiapac/gpchelloworldkmp/feature/hello/domain/usecase/GetHelloMessageUseCase.kt:11-16 | a cleaned name over 100 characters is `InvalidName`; otherwise the cleaned name goes on |
| GetHelloMessageUseCase.Classify | shared/features/hello/hello_domain/src/commonMain/kotlin/com/gpcasiapac/gpchelloworldkmp/feature/hello/domain/usecase/GetHelloMessageUseCase.kt:18-46 | each outcome holds exactly for its replies: `Success` for a non-blank success carrying it unchanged; `MessageGenerationFailed` for a blank one; `MessageUnavailable` for `Database`, `Mapping` or HTTP 404; `InvalidName` for HTTP 400; `ServiceUnavailable` for everything else |
| GetHelloMessageUseCase.Invoke | shared/features/hello/hello_domain/src/commonMain/kotlin/com/gpcasiapac/gpchelloworldkmp/feature/hello/domain/usecase/GetHelloMessageUseCase.kt:10-47 | the repository is asked with the cleaned name and the default language "en" only when the name is short enough; a returned success never has blank text |
| GetRandomGreetingUseCase.Invoke | shared/features/hello/hello_domain/src/commonMain/kotlin/com/gpcasiapac/gpchelloworldkmp/feature/hello/domain/usecase/GetRandomGreetingUseCase.kt:10-39 | each outcome holds exactly for its replies: `Success` for a non-blank success; `EmptyGreeting` for a blank one; `GreetingUnavailable` for `Database` or `Mapping`; `NoGreetingsFound` for HTTP 404; `ServiceUnavailable` for everything else |
| LegacyPostHelloMessageUseCase.Message | feature/hello/hello_domain/src/commonMain/kotlin/com/gpcasiapac/gpchelloworldkmp/feature/hello/domain/usecase/PostHelloMessageUseCase.kt:38 | a `Validation` outcome's message is the text it was built with |
| LegacyPostHelloMessageUseCase.Validate | feature/hello/hello_domain/src/commonMain/kotlin/com/gpcasiapac/gpchelloworldkmp/feature/hello/domain/usecase/PostHelloMessageUseCase.kt:12-20 | empty after trimming is rejected with "Message cannot be empty"; otherwise the message goes on with only its text trimmed |
| LegacyPostHelloMessageUseCase.Classify | feature/hello/hello_domain/src/commonMain/kotlin/com/gpcasiapac/gpchelloworldkmp/feature/hello/domain/usecase/PostHelloMessageUseCase.kt:21-29 | a success is returned unchanged with no blank check; the outcome is `ClientError` exactly for Client errors and `NetworkError` exactly for Network errors |
| LegacyPostHelloMessageUseCase.Invoke | feature/hello/hello_domain/src/commonMain/kotlin/com/gpcasiapac/gpchelloworldkmp/feature/hello/domain/usecase/PostHelloMessageUseCase.kt:10-31 | a message empty after trimming never reaches the repository; any other message is sent trimmed and the reply classified |
| LegacyGetHelloMessageUseCase.Invoke | feature/hello/hello_domain/src/commonMain/kotlin/com/gpcasiapac/gpchelloworldkmp/feature/hello/domain/usecase/GetHelloMessageUseCase.kt:10-13 | the repository gets the trimmed name, or "World" for a blank one, and its result is returned as it is |
| LegacyGetHelloMessageUseCase.ForwardedNameIsClean | feature/hello/hello_domain/src/commonMain/kotlin/com/gpcasiapac/gpchelloworldkmp/feature/hello/domain/usecase/GetHelloMessageUseCase.kt:11 | the forwarded name is never empty, has no whitespace at either end and is already clean |
| PeriodicGreetings.Emission | shared/features/hello/hello_domain/src/commonMain/kotlin/com/gpcasiapac/gpchelloworldkmp/feature/hello/domain/usecase/ObservePeriodicGreetingsUseCase.kt:33-35 | the n-th emission has text `greetings[n mod 5]`, language "en" and the current time |
| PeriodicGreetings.Emissions | shared/features/hello/hello_domain/src/commonMain/kotlin/com/gpcasiapac/gpchelloworldkmp/feature/hello/domain/usecase/ObservePeriodicGreetingsUseCase.kt:23-41 | the flow emits one message per tick, the i-th being emission i |
| PeriodicGreetings.Periodic | shared/features/hello/hello_domain/src/commonMain/kotlin/com/gpcasiapac/gpchelloworldkmp/feature/hello/domain/usecase/ObservePeriodicGreetingsUseCase.kt:33 | the texts repeat with period 5, and consecutive emissions differ |
| PeriodicGreetings.FiveInARowCoverAll | shared/features/hello/hello_domain/src/commonMain/kotlin/com/gpcasiapac/gpchelloworldkmp/feature/hello/domain/usecase/ObservePeriodicGreetingsUseCase.kt:15-21 | any five consecutive emissions show all five greetings |
| PeriodicGreetings.FirstEmission | shared/features/hello/hello_domain/src/commonMain/kotlin/com/gpcasiapac/gpchelloworldkmp/feature/hello/domain/usecase/ObservePeriodicGreetingsUseCase.kt:16 | the first emission is "Welcome to Hello World KMP!" in English |
| SessionFlow.Emissions | feature/hello/hello_domain/src/commonMain/kotlin/com/gpcasiapac/gpchelloworldkmp/feature/hello/domain/usecase/GetSessionIdsFlowUseCase.kt:15-34 | exactly two sessions are emitted: the default one, then the authenticated "user_123" session |
| SessionFlow.FirstReady | feature/hello/hello_presentation/src/commonMain/kotlin/com/gpcasiapac/gpchelloworldkmp/feature/hello/presentation/hello_screen/HelloViewModel.kt:35-38 | waiting for readiness resolves at the first ready session the state flow holds, and stays unresolved exactly while none of the values so far is ready |
| SessionFlow.ReadyOnSecondEmission | feature/hello/hello_domain/src/commonMain/kotlin/com/gpcasiapac/gpchelloworldkmp/feature/hello/domain/usecase/GetSessionIdsFlowUseCase.kt:15-34 | readiness rejects the first session and accepts the second, so waiting ends on the second emission |
| HelloPresentationMappers.MessageId | shared/features/hello/hello_presentation/src/commonMain/kotlin/com/gpcasiapac/gpchelloworldkmp/feature/hello/presentation/mapper/HelloMessageStateMappers.kt:12 | a message id is "msg_" followed by the canonical decimal text of the timestamp (by `CanonicalIsIntToString`, exactly `toString()` of it) |
| HelloPresentationMappers.MessageIdInjective | shared/features/hello/hello_presentation/src/commonMain/kotlin/com/gpcasiapac/gpchelloworldkmp/feature/hello/presentation/mapper/HelloMessageStateMappers.kt:12 | distinct timestamps give distinct message ids |
| HelloPresentationMappers.ToParams | shared/features/hello/hello_presentation/src/commonMain/kotlin/com/gpcasiapac/gpchelloworldkmp/feature/hello/presentation/mapper/HelloMessageStateMappers.kt:7-15 | `toParams` copies text, language and formatted time, sets the message id and is never from the current user |
| HelloPresentationMappers.Pad2 | feature/hello/hello_presentation/src/commonMain/kotlin/com/gpcasiapac/gpchelloworldkmp/feature/hello/presentation/mapper/HelloMessageMappers.kt:16 | a number below 100 padded to two characters is two digits reading back as the number |
| HelloPresentationMappers.Pad2AgreesWithToString | feature/hello/hello_presentation/src/commonMain/kotlin/com/gpcasiapac/gpchelloworldkmp/feature/hello/presentation/mapper/HelloMessageMappers.kt:16 | the padding is `toString()` with a '0' in front exactly for one-digit numbers |
| HelloPresentationMappers.FormatTime | feature/hello/hello_presentation/src/commonMain/kotlin/com/gpcasiapac/gpchelloworldkmp/feature/hello/presentation/mapper/HelloMessageMappers.kt:16 | the formatted time is five characters, with the hour in digits, ':' and the minute in digits |
| HelloPresentationMappers.FormatTimeInjective | feature/hello/hello_presentation/src/commonMain/kotlin/com/gpcasiapac/gpchelloworldkmp/feature/hello/presentation/mapper/HelloMessageMappers.kt:16 | different times of day format differently |
| HelloPresentationMappers.ToMessageState | feature/hello/hello_presentation/src/commonMain/kotlin/com/gpcasiapac/gpchelloworldkmp/feature/hello/presentation/mapper/HelloMessageMappers.kt:13-23 | `toMessageState` keeps the text, upper-cases the language and formats the time |
| HelloPresentationMappers.ToDetailedParams | feature/hello/hello_presentation/src/commonMain/kotlin/com/gpcasiapac/gpchelloworldkmp/feature/hello/presentation/mapper/HelloMessageMappers.kt:26-34 | `toDetailedParams` copies the three fields, sets the "msg_" id and is never from the current user |
| HelloPresentationMappers.MessageToDetailedParams | feature/hello/hello_presentation/src/commonMain/kotlin/com/gpcasiapac/gpchelloworldkmp/feature/hello/presentation/mapper/HelloMessageMappers.kt:38-40 | a message's detailed params are those of its message state with its own timestamp |
| HelloPresentationMappers.ToSimpleState | feature/hello/hello_presentation/src/commonMain/kotlin/com/gpcasiapac/gpchelloworldkmp/feature/hello/presentation/mapper/HelloMessageMappers.kt:44-46 | `toSimpleState` keeps the text, upper-cases the language and formats the time as `HH:MM`: field for field what `toMessageState` gives |
| HelloPresentationMappers.ToSimpleParams | feature/hello/hello_presentation/src/commonMain/kotlin/com/gpcasiapac/gpchelloworldkmp/feature/hello/presentation/mapper/HelloMessageMappers.kt:50-56 | `toSimpleParams` is the text, upper-cased language and formatted time |
| HelloPresentationMappers.ParamsAgree | shared/features/hello/hello_presentation/src/commonMain/kotlin/com/gpcasiapac/gpchelloworldkmp/feature/hello/presentation/mapper/HelloMessageStateMappers.kt:7-15 | the shared `toParams` and the feature `toDetailedParams` agree field for field |
| HelloPresentationMappers.UpperIdempotent | feature/hello/hello_presentation/src/commonMain/kotlin/com/gpcasiapac/gpchelloworldkmp/feature/hello/presentation/mapper/HelloMessageMappers.kt:18-22 | upper-casing an already upper-cased language changes nothing |
| Mvi.Create | common/common_presentation/src/commonMain/kotlin/com/gpcasiapac/gpchelloworldkmp/common/presentation/MVIViewModel.kt:22 | a view model starts in its initial state with no effects |
| Mvi.SetState | common/common_presentation/src/commonMain/kotlin/com/gpcasiapac/gpchelloworldkmp/common/presentation/MVIViewModel.kt:65-68 | `setState` replaces the state by the reducer's result and touches nothing else |
| Mvi.SetEffect | common/common_presentation/src/commonMain/kotlin/com/gpcasiapac/gpchelloworldkmp/common/presentation/MVIViewModel.kt:73-78 | `setEffect` appends exactly one effect at the end and keeps the state |
| Mvi.SetStateCompose | common/common_presentation/src/commonMain/kotlin/com/gpcasiapac/gpchelloworldkmp/common/presentation/MVIViewModel.kt:65-68 | two `setState` calls are one with the composed reducer |
| Mvi.SetStateSetEffectCommute | common/common_presentation/src/commonMain/kotlin/com/gpcasiapac/gpchelloworldkmp/common/presentation/MVIViewModel.kt:65-78 | setting the state and queueing an effect commute |
| Mvi.Run | common/common_presentation/src/commonMain/kotlin/com/gpcasiapac/gpchelloworldkmp/common/presentation/MVIViewModel.kt:56-60 | the events are handled one at a time, in order; `RunAppend`, `RunPreserves` and `RunExtendsEffects` state what follows |
| Mvi.RunAppend | common/common_presentation/src/commonMain/kotlin/com/gpcasiapac/gpchelloworldkmp/common/presentation/MVIViewModel.kt:56-60 | handling a sequence of events is handling its parts one after the other, and one event is one `handleEvents` call |
| Mvi.RunPreserves | common/common_presentation/src/commonMain/kotlin/com/gpcasiapac/gpchelloworldkmp/common/presentation/MVIViewModel.kt:56-60 | a property every handled event preserves holds after any sequence of events |
| Mvi.RunExtendsEffects | common/common_presentation/src/commonMain/kotlin/com/gpcasiapac/gpchelloworldkmp/common/presentation/MVIViewModel.kt:73-78 | effects are only ever appended: the log before a run is a prefix of the log after it |
| LoginViewModel.Initial | shared/features/login/login_impl/src/commonMain/kotlin/com/gpcasiapac/gpchelloworldkmp/feature/login/presentation/login_screen/LoginViewModel.kt:14-17 | the initial state has empty credentials, is not loading, has login disabled and no error |
| LoginViewModel.OnUpdateUsername | shared/features/login/login_impl/src/commonMain/kotlin/com/gpcasiapac/gpchelloworldkmp/feature/login/presentation/login_screen/LoginViewModel.kt:54-64 | the username is set, the password and loading flag stay, the error is cleared, and login is enabled exactly when both fields are non-blank |
| LoginViewModel.OnUpdatePassword | shared/features/login/login_impl/src/commonMain/kotlin/com/gpcasiapac/gpchelloworldkmp/feature/login/presentation/login_screen/LoginViewModel.kt:66-76 | the password is set, the username and loading flag stay, the error is cleared, and login is enabled exactly when both fields are non-blank |
| LoginViewModel.BeginLogin | shared/features/login/login_impl/src/commonMain/kotlin/com/gpcasiapac/gpchelloworldkmp/feature/login/presentation/login_screen/LoginViewModel.kt:82-87 | a login starts with loading set and the error cleared, and nothing else changed |
| LoginViewModel.FinishLogin | shared/features/login/login_impl/src/commonMain/kotlin/com/gpcasiapac/gpchelloworldkmp/feature/login/presentation/login_screen/LoginViewModel.kt:90-108 | loading ends; success clears the error and emits the toast then the navigation; failure stores the service's message and shows the same message |
| LoginViewModel.OnLogin | shared/features/login/login_impl/src/commonMain/kotlin/com/gpcasiapac/gpchelloworldkmp/feature/login/presentation/login_screen/LoginViewModel.kt:78-109 | the service is asked with the current credentials, which stay untouched, and its reply is shown as above |
| LoginViewModel.OnClearError | shared/features/login/login_impl/src/commonMain/kotlin/com/gpcasiapac/gpchelloworldkmp/feature/login/presentation/login_screen/LoginViewModel.kt:111-113 | clearing the error changes only the error |
| LoginViewModel.Handle | shared/features/login/login_impl/src/commonMain/kotlin/com/gpcasiapac/gpchelloworldkmp/feature/login/presentation/login_screen/LoginViewModel.kt:33-52 | every event keeps the enabled-flag invariant and only appends effects |
| LoginViewModel.ReachableStatesEnabledMatch | shared/features/login/login_impl/src/commonMain/kotlin/com/gpcasiapac/gpchelloworldkmp/feature/login/presentation/login_screen/LoginViewModel.kt:54-76 | in every state reachable from the initial one, login is enabled exactly when both fields are non-blank |
| LoginViewModel.SuccessfulLoginEffects | shared/features/login/login_impl/src/commonMain/kotlin/com/gpcasiapac/gpchelloworldkmp/feature/login/presentation/login_screen/LoginViewModel.kt:38-43 | a successful login emits exactly a toast followed by a navigation home |
| HelloScreenViewModel.Initial | feature/hello/hello_presentation/src/commonMain/kotlin/com/gpcasiapac/gpchelloworldkmp/feature/hello/presentation/hello_screen/HelloViewModel.kt:28-33 | the screen starts with an empty name, no message, not loading and no error |
| HelloScreenViewModel.OnReadinessFailed | feature/hello/hello_presentation/src/commonMain/kotlin/com/gpcasiapac/gpchelloworldkmp/feature/hello/presentation/hello_screen/HelloViewModel.kt:40-42 | a readiness failure sets only the "Session not ready" error |
| HelloScreenViewModel.OnUpdateName | feature/hello/hello_presentation/src/commonMain/kotlin/com/gpcasiapac/gpchelloworldkmp/feature/hello/presentation/hello_screen/HelloViewModel.kt:103-105 | the name is set and the error cleared; message and loading flag stay |
| HelloScreenViewModel.BeginLoading | feature/hello/hello_presentation/src/commonMain/kotlin/com/gpcasiapac/gpchelloworldkmp/feature/hello/presentation/hello_screen/HelloViewModel.kt:111 | a generate action starts with loading set and the error cleared |
| HelloScreenViewModel.Succeed | feature/hello/hello_presentation/src/commonMain/kotlin/com/gpcasiapac/gpchelloworldkmp/feature/hello/presentation/hello_screen/HelloViewModel.kt:114-122 | a success replaces the message state, ends loading, clears the error and emits one toast |
| HelloScreenViewModel.Fail | feature/hello/hello_presentation/src/commonMain/kotlin/com/gpcasiapac/gpchelloworldkmp/feature/hello/presentation/hello_screen/HelloViewModel.kt:124-131 | an error ends loading, sets the error, keeps the message and emits the same text as an error effect |
| HelloScreenViewModel.OnGenerateMessage | feature/hello/hello_presentation/src/commonMain/kotlin/com/gpcasiapac/gpchelloworldkmp/feature/hello/presentation/hello_screen/HelloViewModel.kt:107-134 | the use case is asked with the current name; success shows its message with the generated toast; failure keeps the old message and shows the use case's error text in state and effect |
| HelloScreenViewModel.OnGenerateRandomGreeting | feature/hello/hello_presentation/src/commonMain/kotlin/com/gpcasiapac/gpchelloworldkmp/feature/hello/presentation/hello_screen/HelloViewModel.kt:136-163 | the same transitions for the random greeting, with its own toast |
| HelloScreenViewModel.OnClearMessage | feature/hello/hello_presentation/src/commonMain/kotlin/com/gpcasiapac/gpchelloworldkmp/feature/hello/presentation/hello_screen/HelloViewModel.kt:165-167 | clearing nulls the message and the error and keeps the name and loading flag |
| HelloScreenViewModel.OnPeriodicGreeting | feature/hello/hello_presentation/src/commonMain/kotlin/com/gpcasiapac/gpchelloworldkmp/feature/hello/presentation/hello_screen/HelloViewModel.kt:92-99 | each periodic greeting replaces the message, clears the error and emits "New greeting received!" |
| HelloScreenViewModel.Step | feature/hello/hello_presentation/src/commonMain/kotlin/com/gpcasiapac/gpchelloworldkmp/feature/hello/presentation/hello_screen/HelloViewModel.kt:58-87 | every event or periodic greeting keeps the screen consistent (not loading; a shown error is the last error effect) and only appends effects |
| HelloScreenViewModel.ReachableScreensConsistent | feature/hello/hello_presentation/src/commonMain/kotlin/com/gpcasiapac/gpchelloworldkmp/feature/hello/presentation/hello_screen/HelloViewModel.kt:58-99 | however events and periodic greetings interleave, a reachable screen is never stuck loading and any error shown was the last error announced |
| LegacyHelloViewModel.Initial | feature/hello/hello_presentation/src/commonMain/kotlin/com/gpcasiapac/gpchelloworldkmp/feature/hello/presentation/HelloViewModel.kt:25 | the older screen starts as `HelloState()`: empty name, no message, not loading, no error |
| LegacyHelloViewModel.OnReadinessFailed | feature/hello/hello_presentation/src/commonMain/kotlin/com/gpcasiapac/gpchelloworldkmp/feature/hello/presentation/HelloViewModel.kt:27-34 | a readiness failure sets only the "Session not ready" error |
| LegacyHelloViewModel.OnUpdateName | feature/hello/hello_presentation/src/commonMain/kotlin/com/gpcasiapac/gpchelloworldkmp/feature/hello/presentation/HelloViewModel.kt:99-101 | the name is set and the error cleared |
| LegacyHelloViewModel.BeginLoading | feature/hello/hello_presentation/src/commonMain/kotlin/com/gpcasiapac/gpchelloworldkmp/feature/hello/presentation/HelloViewModel.kt:103-107 | both generate actions start with loading set and the error cleared |
| LegacyHelloViewModel.Succeed | feature/hello/hello_presentation/src/commonMain/kotlin/com/gpcasiapac/gpchelloworldkmp/feature/hello/presentation/HelloViewModel.kt:48-57 | a success stores the domain message, ends loading, clears the error and emits a toast |
| LegacyHelloViewModel.Fail | feature/hello/hello_presentation/src/commonMain/kotlin/com/gpcasiapac/gpchelloworldkmp/feature/hello/presentation/HelloViewModel.kt:58-66 | an error ends loading, sets the error, keeps the old message and emits the same text |
| LegacyHelloViewModel.OnGenerateMessage | feature/hello/hello_presentation/src/commonMain/kotlin/com/gpcasiapac/gpchelloworldkmp/feature/hello/presentation/HelloViewModel.kt:103-117 | the use case is asked with the current name, and its answer is shown as above |
| LegacyHelloViewModel.OnGenerateRandomGreeting | feature/hello/hello_presentation/src/commonMain/kotlin/com/gpcasiapac/gpchelloworldkmp/feature/hello/presentation/HelloViewModel.kt:119-133 | the same for the random greeting with its own toast |
| LegacyHelloViewModel.OnClearMessage | feature/hello/hello_presentation/src/commonMain/kotlin/com/gpcasiapac/gpchelloworldkmp/feature/hello/presentation/HelloViewModel.kt:135-137 | clearing nulls the message and the error only |
| LegacyHelloViewModel.Project | feature/hello/hello_presentation/src/commonMain/kotlin/com/gpcasiapac/gpchelloworldkmp/feature/hello/presentation/HelloViewModel.kt:42-97 | the older state maps onto the newer screen state field for field, with a message present exactly when one was |
| LegacyHelloViewModel.ProjectAppend | feature/hello/hello_presentation/src/commonMain/kotlin/com/gpcasiapac/gpchelloworldkmp/feature/hello/presentation/HelloViewModel.kt:42-97 | projecting commutes with emitting one effect |
| LegacyHelloViewModel.Handle | feature/hello/hello_presentation/src/commonMain/kotlin/com/gpcasiapac/gpchelloworldkmp/feature/hello/presentation/HelloViewModel.kt:42-97 | `handleEvents`: only `UpdateName` changes the name; a generate event ends loading and emits exactly one effect, `UpdateName` and `ClearMessage` none; an emitted error effect carries the error the state now shows, and a toast comes with no error; `StepsAgree` and `RunsAgree` relate it to the newer screen |
| LegacyHelloViewModel.StepsAgree | feature/hello/hello_presentation/src/commonMain/kotlin/com/gpcasiapac/gpchelloworldkmp/feature/hello/presentation/HelloViewModel.kt:42-97 | on every event the older view model, projected, takes the same step as the newer one |
| LegacyHelloViewModel.RunsAgree | feature/hello/hello_presentation/src/commonMain/kotlin/com/gpcasiapac/gpchelloworldkmp/feature/hello/presentation/HelloViewModel.kt:42-97 | after any sequence of events the two iterations still agree |
| LegacyHelloViewModel.InitialsAgree | feature/hello/hello_presentation/src/commonMain/kotlin/com/gpcasiapac/gpchelloworldkmp/feature/hello/presentation/HelloViewModel.kt:25 | the two iterations start in corresponding states |
| CartStore.SumAppend | app/pos/pos_features/cart/cart_impl/src/commonMain/kotlin/com/gpcasiapac/gpchelloworldkmp/app/pos/features/cart/impl/data/InMemoryCartRepository.kt:27 | the total of two item lists joined is the sum of their totals |
| CartStore.Without | app/pos/pos_features/cart/cart_impl/src/commonMain/kotlin/com/gpcasiapac/gpchelloworldkmp/app/pos/features/cart/impl/data/InMemoryCartRepository.kt:36 | removal keeps exactly the items with another id, so no item with the id is left |
| CartStore.WithoutAppend | app/pos/pos_features/cart/cart_impl/src/commonMain/kotlin/com/gpcasiapac/gpchelloworldkmp/app/pos/features/cart/impl/data/InMemoryCartRepository.kt:36 | removal distributes over joined lists, so the survivors keep their order |
| CartStore.WithoutAbsent | app/pos/pos_features/cart/cart_impl/src/commonMain/kotlin/com/gpcasiapac/gpchelloworldkmp/app/pos/features/cart/impl/data/InMemoryCartRepository.kt:36 | removing an id no item carries changes nothing |
| CartStore.WithoutIdempotent | app/pos/pos_features/cart/cart_impl/src/commonMain/kotlin/com/gpcasiapac/gpchelloworldkmp/app/pos/features/cart/impl/data/InMemoryCartRepository.kt:36 | removing the same id twice is removing it once |
| CartStore.GetOrCreate | app/pos/pos_features/cart/cart_impl/src/commonMain/kotlin/com/gpcasiapac/gpchelloworldkmp/app/pos/features/cart/impl/data/InMemoryCartRepository.kt:15-19 | a known cart is returned untouched; an unknown id gets a new empty cart with total 0, stored under that id; no other cart changes |
| CartStore.Replace | app/pos/pos_features/cart/cart_impl/src/commonMain/kotlin/com/gpcasiapac/gpchelloworldkmp/app/pos/features/cart/impl/data/InMemoryCartRepository.kt:24-30 | the cart stored under the id keeps its own id and gets the new list with their sum as its total; `Success` carries exactly that stored cart; no other cart changes, and a well-formed store stays well formed |
| CartStore.AddItem | app/pos/pos_features/cart/cart_impl/src/commonMain/kotlin/com/gpcasiapac/gpchelloworldkmp/app/pos/features/cart/impl/data/InMemoryCartRepository.kt:21-31 | the item is appended after the existing ones; the total is the sum of the prices; the cart id is kept; other carts are unchanged; `Success` carries the stored cart |
| CartStore.RemoveItem | app/pos/pos_features/cart/cart_impl/src/commonMain/kotlin/com/gpcasiapac/gpchelloworldkmp/app/pos/features/cart/impl/data/InMemoryCartRepository.kt:33-43 | the list loses exactly the items with that id; the total is the sum of the prices; the cart id is kept; other carts are unchanged; `Success` carries the stored cart |
| CartStore.AddRaisesTotal | app/pos/pos_features/cart/cart_impl/src/commonMain/kotlin/com/gpcasiapac/gpchelloworldkmp/app/pos/features/cart/impl/data/InMemoryCartRepository.kt:21-31 | after an add the total is the old total plus the new price |
| CartStore.AddThenRemove | app/pos/pos_features/cart/cart_impl/src/commonMain/kotlin/com/gpcasiapac/gpchelloworldkmp/app/pos/features/cart/impl/data/InMemoryCartRepository.kt:21-43 | adding an item and then removing its id leaves the list removing that id alone would leave |
| CartStore.RemoveAbsentKeepsItems | app/pos/pos_features/cart/cart_impl/src/commonMain/kotlin/com/gpcasiapac/gpchelloworldkmp/app/pos/features/cart/impl/data/InMemoryCartRepository.kt:33-43 | removing an id absent from a stored cart leaves the whole store as it was |
| CartViewModel.Initial | app/pos/pos_features/cart/cart_impl/src/commonMain/kotlin/com/gpcasiapac/gpchelloworldkmp/app/pos/features/cart/impl/CartViewModel.kt:25-26 | the screen starts on "default_cart" with no cart, not loading and no error |
| CartViewModel.OnCartObserved | app/pos/pos_features/cart/cart_impl/src/commonMain/kotlin/com/gpcasiapac/gpchelloworldkmp/app/pos/features/cart/impl/CartViewModel.kt:32-33 | each observed cart replaces the shown cart and clears loading and error |
| CartViewModel.SampleItem | app/pos/pos_features/cart/cart_impl/src/commonMain/kotlin/com/gpcasiapac/gpchelloworldkmp/app/pos/features/cart/impl/CartViewModel.kt:53-57 | a sample item has a four-digit id that reads back as the drawn number, the description "Item " followed by the id, and the drawn price of 5.00 up to 50.00 |
| CartViewModel.AddSampleRaisesTotal | app/pos/pos_features/cart/cart_impl/src/commonMain/kotlin/com/gpcasiapac/gpchelloworldkmp/app/pos/features/cart/impl/CartViewModel.kt:52-60 | adding the sample item raises the cart's total by the drawn price, so the total strictly grows |
| CartViewModel.SampleIdLength | app/pos/pos_features/cart/cart_impl/src/commonMain/kotlin/com/gpcasiapac/gpchelloworldkmp/app/pos/features/cart/impl/CartViewModel.kt:53-54 | every number from 1000 to 9998 prints as four characters |
| CartViewModel.OnAddSampleItem | app/pos/pos_features/cart/cart_impl/src/commonMain/kotlin/com/gpcasiapac/gpchelloworldkmp/app/pos/features/cart/impl/CartViewModel.kt:52-61 | a failed add emits "Failed to add item"; a successful add emits nothing; the state is not touched directly |
| CartViewModel.OnRemoveItem | app/pos/pos_features/cart/cart_impl/src/commonMain/kotlin/com/gpcasiapac/gpchelloworldkmp/app/pos/features/cart/impl/CartViewModel.kt:64-70 | a failed remove emits "Failed to remove item"; a successful one emits nothing; the state is not touched directly |
| CartViewModel.OrderIdAsWritten | app/pos/pos_features/cart/cart_impl/src/commonMain/kotlin/com/gpcasiapac/gpchelloworldkmp/app/pos/features/cart/impl/CartViewModel.kt:74 | the order id as written starts "ORD-" but carries no number after it |
| CartViewModel.OrderIdAsWrittenIgnoresClock | app/pos/pos_features/cart/cart_impl/src/commonMain/kotlin/com/gpcasiapac/gpchelloworldkmp/app/pos/features/cart/impl/CartViewModel.kt:74 | two checkouts at different times get the same id as written, but different corrected ids |
| CartViewModel.OrderId | app/pos/pos_features/cart/cart_impl/src/commonMain/kotlin/com/gpcasiapac/gpchelloworldkmp/app/pos/features/cart/impl/CartViewModel.kt:74 | the corrected order id is "ORD-" followed by the canonical decimal text of the clock value |
| CartViewModel.OrderIdDistinguishesTimes | app/pos/pos_features/cart/cart_impl/src/commonMain/kotlin/com/gpcasiapac/gpchelloworldkmp/app/pos/features/cart/impl/CartViewModel.kt:74 | corrected order ids are equal exactly when the times are |
| CartViewModel.OnCheckoutClicked | app/pos/pos_features/cart/cart_impl/src/commonMain/kotlin/com/gpcasiapac/gpchelloworldkmp/app/pos/features/cart/impl/CartViewModel.kt:73-76 | checkout emits exactly one navigation, carrying the corrected order id `OrderId(now)`, whatever the cart holds, and keeps the state |
| CartViewModel.OnClearError | app/pos/pos_features/cart/cart_impl/src/commonMain/kotlin/com/gpcasiapac/gpchelloworldkmp/app/pos/features/cart/impl/CartViewModel.kt:78 | clearing the error changes only the error |
| CartViewModel.Step | app/pos/pos_features/cart/cart_impl/src/commonMain/kotlin/com/gpcasiapac/gpchelloworldkmp/app/pos/features/cart/impl/CartViewModel.kt:52-78 | with the in-memory repository behind it, every event keeps the cart id, only appends effects, keeps the store well formed and leaves other carts alone |
| CartViewModel.InMemoryNeverFails | app/pos/pos_features/cart/cart_impl/src/commonMain/kotlin/com/gpcasiapac/gpchelloworldkmp/app/pos/features/cart/impl/data/InMemoryCartRepository.kt:21-43 | with the in-memory repository, add and remove never show an error, and the screen shows the stored cart |
| CartViewModel.CartIdFixed | app/pos/pos_features/cart/cart_impl/src/commonMain/kotlin/com/gpcasiapac/gpchelloworldkmp/app/pos/features/cart/impl/CartViewModel.kt:21-26 | after any sequence of events the screen still works on "default_cart" and no other cart has changed |
| FeatureFlags.EmptyReadsDefault | config/src/commonMain/kotlin/com/gpcasiapac/gpchelloworldkmp/config/featureflags/InMemoryFeatureFlags.kt:13-14 | a fresh store reads every key as its default |
| FeatureFlags.Get | config/src/commonMain/kotlin/com/gpcasiapac/gpchelloworldkmp/config/featureflags/InMemoryFeatureFlags.kt:17 | `get` returns the stored value, or the default when the name is absent or stored as null |
| FeatureFlags.IsEnabled | config/src/commonMain/kotlin/com/gpcasiapac/gpchelloworldkmp/config/featureflags/FeatureFlags.kt:20 | a flag is enabled exactly when it is stored as true, or is absent or stored as null while its default is true |
| FeatureFlags.Update | config/src/commonMain/kotlin/com/gpcasiapac/gpchelloworldkmp/config/featureflags/InMemoryFeatureFlags.kt:23 | `update` merges right-biased: new keys win and all other keys keep their entries |
| FeatureFlags.Set | config/src/commonMain/kotlin/com/gpcasiapac/gpchelloworldkmp/config/featureflags/InMemoryFeatureFlags.kt:24 | `set` changes the entry for its key only |
| FeatureFlags.SetIsSingletonUpdate | config/src/commonMain/kotlin/com/gpcasiapac/gpchelloworldkmp/config/featureflags/InMemoryFeatureFlags.kt:23-24 | `set` is an `update` with a one-entry map |
| FeatureFlags.GetAfterSet | config/src/commonMain/kotlin/com/gpcasiapac/gpchelloworldkmp/config/featureflags/InMemoryFeatureFlags.kt:17-24 | after `set`, its key reads the new value (or the default for null) and every other key reads as before |
| FeatureFlags.GetAfterUpdate | config/src/commonMain/kotlin/com/gpcasiapac/gpchelloworldkmp/config/featureflags/InMemoryFeatureFlags.kt:17-23 | after `update`, keys in the new map read their new value and all others read as before |
| FeatureFlags.Distinct | config/src/commonMain/kotlin/com/gpcasiapac/gpchelloworldkmp/config/featureflags/InMemoryFeatureFlags.kt:20-21 | dropping repeats yields values from the input with no two neighbours equal, keeping the first and last value |
| FeatureFlags.RunLengths | config/src/commonMain/kotlin/com/gpcasiapac/gpchelloworldkmp/config/featureflags/InMemoryFeatureFlags.kt:20-21 | every kept value stands for a positive number of consecutive input values |
| FeatureFlags.DistinctExpands | config/src/commonMain/kotlin/com/gpcasiapac/gpchelloworldkmp/config/featureflags/InMemoryFeatureFlags.kt:20-21 | order is kept: repeating each kept value over its run gives back the input exactly |
| FeatureFlags.DistinctUnique | config/src/commonMain/kotlin/com/gpcasiapac/gpchelloworldkmp/config/featureflags/InMemoryFeatureFlags.kt:20-21 | conversely, any sequence without neighbouring repeats whose runs give back the input is the result of dropping repeats |
| FeatureFlags.Values | config/src/commonMain/kotlin/com/gpcasiapac/gpchelloworldkmp/config/featureflags/InMemoryFeatureFlags.kt:17-21 | observing a key reads each snapshot with `get`, in snapshot order |
| FeatureFlags.Observe | config/src/commonMain/kotlin/com/gpcasiapac/gpchelloworldkmp/config/featureflags/InMemoryFeatureFlags.kt:20-21 | the observed values never repeat a neighbour and end with the latest snapshot's value |
| FeatureFlags.ObserveFollowsSnapshots | config/src/commonMain/kotlin/com/gpcasiapac/gpchelloworldkmp/config/featureflags/InMemoryFeatureFlags.kt:17-21 | the observed values, each repeated over its run of snapshots, are exactly the snapshots' values in order |
| BuildConfig.Property | config/build.gradle.kts:41 | a property lookup finds exactly the keys present, with their values |
| BuildConfig.Environment | config/build.gradle.kts:41 | the environment is the system property, else `default.environment`, else "mock" |
| BuildConfig.ResolvePort | config/build.gradle.kts:52 | an absent port is 8080; a port that parses as an `Int` is that number; any other port text fails the build |
| BuildConfig.ToBoolean | config/build.gradle.kts:54 | the mock flag is true exactly for "true" in any letter case |
| BuildConfig.ToBooleanCases | config/build.gradle.kts:54 | that test is Kotlin's `equals("true", ignoreCase = true)` |
| BuildConfig.ApiBaseUrl | config/build.gradle.kts:57 | the URL is protocol, "://", host, ":", the port's canonical decimal text and "/api", and the port reads back from it |
| BuildConfig.DebugFlag | config/build.gradle.kts:59-63 | "debug" gives true, "release" gives false, and any other build type fails the build |
| BuildConfig.Resolve | config/build.gradle.kts:31-70 | a missing file fails; then a bad port fails before a bad build type does; otherwise every field is its environment-prefixed property or its default |
| BuildConfig.AllDefaults | config/build.gradle.kts:41-57 | an empty file and no system property give "mock", debug, localhost, 8080, "http://localhost:8080/api" and no mock data |
| BuildConfig.DefaultUrl | config/build.gradle.kts:57 | the default parts assemble to "http://localhost:8080/api" |
| BuildConfig.DefaultPortText | config/build.gradle.kts:52 | the default port prints as "8080" |
| BuildConfig.SystemPropertyWins | config/build.gradle.kts:41 | the system property overrides any file setting of the environment |
| HelloPipeline.PostOverNetwork | shared/features/hello/hello_domain/src/commonMain/kotlin/com/gpcasiapac/gpchelloworldkmp/feature/hello/domain/usecase/PostHelloMessageUseCase.kt:10-53 | over the network stack, a post shorter than 3 trimmed characters is reported as an empty message, one over 500 as too long, one containing "servererror" as unavailable, and any other post succeeds with its trimmed text and the new timestamp |
| HelloPipeline.NetworkFetch | shared/features/hello/hello_data/src/commonMain/kotlin/com/gpcasiapac/gpchelloworldkmp/feature/hello/data/repository/HelloRepositoryImpl.kt:14-27 | the repository over the network source fails with the connection error for the name "error" in any case, and otherwise answers the English greeting embedding the name |
| HelloPipeline.GreetOverNetwork | shared/features/hello/hello_domain/src/commonMain/kotlin/com/gpcasiapac/gpchelloworldkmp/feature/hello/domain/usecase/GetHelloMessageUseCase.kt:10-47 | over the network stack, a greeting request is refused for a long name, unavailable for "error", and otherwise the English greeting of the cleaned name |
| HelloPipeline.RandomOverNetwork | shared/features/hello/hello_domain/src/commonMain/kotlin/com/gpcasiapac/gpchelloworldkmp/feature/hello/domain/usecase/GetRandomGreetingUseCase.kt:10-39 | over the network stack, a random greeting always succeeds with the drawn word |
| HelloPipeline.PostOverMock | shared/features/hello/hello_domain/src/commonMain/kotlin/com/gpcasiapac/gpchelloworldkmp/feature/hello/domain/usecase/PostHelloMessageUseCase.kt:10-53 | over the mock stack, only the use case's own limits refuse a post |
| HelloPipeline.ShortPostsDiffer | feature/hello/hello_data/src/commonMain/kotlin/com/gpcasiapac/gpchelloworldkmp/feature/hello/data/datasource/HelloNetworkDataSourceImpl.kt:76-81 | the two stacks disagree on a two-character post: the network one reports it as an empty message, the mock one accepts it |

## Left out

- Compose screens, navigation, Koin wiring, entry points and the rest of the Gradle build are not modelled. They render, route or wire things and hold no logic of their own.
- Coroutines, channels, `StateFlow`, `collect`, `delay` and `viewModelScope.launch` are left out. Each handler is one atomic step that appends to an effect log, so interleavings inside a suspended handler are not modelled.
- `currentState` and the published `uiState` are one field, because the base class keeps them equal.
- The default `onStart` has no member, because it leaves state and effects unchanged.
- `setEvent` is `Mvi.Run` applied to one event. The channel that delivers effects in order is the effect log.
- `System.currentTimeMillis` and `Random` are parameters: `now`, `pick`, and the cart's `Draw`.
- Time-zone conversion with kotlinx-datetime is left out. The presentation mappers take the hour and minute as inputs.
- Cart prices and totals are `Double` in the source. They are integer cents here, and nothing is claimed about floating-point rounding.
- JSON resource loading, the Ktor client and reading `config.properties` are I/O. The mock configuration and the properties map are parameters, and a missing file is `None`.
- The `catch` branches are left out: `UnknownError`, `Client.Mapping` from a failed conversion, and `UnexpectedError`. They are reachable only through exceptions from foreign code, and the modelled mappers are total.
- Text.IsWhitespace follows `Char.isWhitespace`. `lowercase`/`uppercase` map ASCII letters only, and lengths count Dafny characters rather than UTF-16 units.
- Decimal.ParseInt: accepts ASCII digits only. On the JVM, `toInt()` reads digits with `Character.digit` and so also accepts other Unicode decimal digits, which this model rejects.
- Text.ReplaceAll requires a non-empty pattern. The only pattern the core uses is "{name}".
- The `DataResult` class, the `User`/`Token` classes and the `HelloMessageState` class are not part of this model. Their variants and fields are inferred from the code that uses them.
- `toState()` of the newer Hello screen is not part of this model, so it is a parameter (`Collaborators.toState`).
- `HelloRepository.Over`, `HelloPipeline.NetworkSource` and `HelloPipeline.MockSource` only package the operations above into the records the use cases receive, so they have no row of their own.
- Thin delegations are not modelled: IsLoggedInUseCase, GetCurrentUserUseCase, LoginServiceImpl, the Add/Remove/ObserveCart use cases, the feature-tree GetRandomGreetingUseCase, CheckoutViewModel and LoginResultMappers. They forward a call and state nothing of their own.
- The feature-tree `HelloRepositoryImpl` is not modelled, because it calls data-source methods the shown interface does not have. `HelloStateMapper.kt` is not modelled either, because it builds a params type with the wrong number of fields.
- SessionFlow.FirstReady: `None` means the wait has not resolved yet. The shown source never calls `handleReadinessFailed`; the base class that would call it is not part of this model. The view models' `OnReadinessFailed` steps model that handler as written, and when it is triggered is an assumption.
- HelloScreenViewModel.Step: a use-case answer is fixed for the step (`Collaborators`), and the readiness wait happens before any event. `OnReadinessFailed` therefore sits outside the consistency invariant: it sets an error without an error effect.
- PeriodicGreetings.Emission: the index is a `nat`. The source's `Int` index would wrap after 2^31 emissions, and that wrap is not modelled.
- FeatureFlags.Observe: `distinctUntilChanged` is modelled on the sequence of store snapshots. Conflation of fast updates by the flow is not modelled.
- CartViewModel.OnCheckoutClicked: the handler emits the corrected order id (`OrderId`), not the constant text the source builds (see "## Findings"). `OrderIdAsWritten` and `OrderIdAsWrittenIgnoresClock` keep the as-written behaviour.
- CartViewModel.Step: inherits the corrected order id from `OnCheckoutClicked`. `Load` and `refresh` do nothing. Observing the repository is the observation step taken right after each change.
- MockHelloSource.SelectTemplate and MockHelloSource.GetRandomGreetingDto require non-empty lists, because `first()` and `random()` throw otherwise.
- BuildConfig.Resolve: the `error(...)` calls become `Err` values, and property files are flat string maps.
- The Kotlin `as T` cast in `FeatureFlags.get` is not modelled. Every flag is read at its own value type.

## Findings

| source | as written | input that shows it | evidently intended | confidence | as-written member | corrected member |
|---|---|---|---|---|---|---|
| app/pos/pos_features/cart/cart_impl/src/commonMain/kotlin/com/gpcasiapac/gpchelloworldkmp/app/pos/features/cart/impl/CartViewModel.kt:74 | the order id is the string template `"ORD-${'$'}{System.currentTimeMillis()}"`, whose escaped dollar sign makes it the constant text `ORD-${System.currentTimeMillis()}` | checkouts at clock values 0 and 1 get the same order id | "ORD-" followed by the current time in milliseconds, so that different checkouts get different ids | medium, not executed | CartViewModel.OrderIdAsWrittenIgnoresClock | CartViewModel.OrderIdDistinguishesTimes |

`HelloPipeline.ShortPostsDiffer` records one more behaviour worth knowing, not claimed as a bug. A post of one or two characters passes the use case's own checks, but the network data source answers it with HTTP 400. The use case reports that answer as "Message cannot be empty".

=== FILE: build_config.dfy ===
/**
 * How the config module's build script resolves the generated `BuildConfig`
 * fields from the properties file and the `environment` system property.
 * Reading the file is left to the caller: it passes the loaded properties,
 * or `None` when the file does not exist.
 */
module BuildConfig {
  import opened Optional
  import opened Text
  import opened Decimal

  type Properties = map<string, string>

  /** The build stops with one of these; each is a `GradleException` or the `NumberFormatException` of `toInt`. */
  datatype ConfigError = ConfigFileNotFound | InvalidPort(text: string) | InvalidBuildType(buildType: string)

  /** The generated fields ENVIRONMENT, DEBUG, HOST, PORT, API_BASE_URL and USE_MOCK_DATA. */
  datatype Config = Config(environment: string, debug: bool, host: string, port: Int32, apiBaseUrl: string, useMockData: bool)

  const DefaultEnvironment := "mock"
  const DefaultBuildType := "debug"
  const DefaultHost := "localhost"
  const DefaultPort := 8080
  const DefaultProtocol := "http"

  /** `getProperty(key)`: `None` when the key is absent. */
  function Property(props: Properties, key: string): (r: Option<string>)
    ensures r.Some? <==> key in props
    ensures r.Some? ==> r.value == props[key]
  {
    if key in props then Some(props[key]) else None
  }

  /** The system property, else `default.environment`, else "mock". */
  function Environment(systemProperty: Option<string>, props: Properties): (r: string)
    ensures systemProperty.Some? ==> r == systemProperty.value
    ensures systemProperty.None? && "default.environment" in props ==> r == props["default.environment"]
    ensures systemProperty.None? && "default.environment" !in props ==> r == DefaultEnvironment
  {
    systemProperty.OrElse(Property(props, "default.environment").OrElse(DefaultEnvironment))
  }

  /** `?.toInt() ?: 8080`: an absent port is 8080, a present one must be an `Int` in decimal. */
  function ResolvePort(text: Option<string>): (r: Result<Int32, ConfigError>)
    ensures text.None? ==> r == Ok(DefaultPort)
    ensures text.Some? && ParseInt(text.value).Some? ==> r == Ok(ParseInt(text.value).value)
    ensures text.Some? && ParseInt(text.value).None? ==> r == Err(InvalidPort(text.value))
  {
    match text
    case None => Ok(DefaultPort)
    case Some(t) =>
      match ParseInt(t)
      case Some(port) => Ok(port)
      case None => Err(InvalidPort(t))
  }

  /** Kotlin's `String.toBoolean()`: true exactly for "true" in any letter case. */
  function ToBoolean(s: string): (r: bool)
    ensures r <==> |s| == 4 && Lower(s) == "true"
  {
    var r := EqualsIgnoreCase(s, "true");
    assert r <==> |s| == 4 && Lower(s) == "true" by { ToBooleanCases(s); }
    r
  }

  lemma ToBooleanCases(s: string)
    ensures EqualsIgnoreCase(s, "true") <==> |s| == 4 && Lower(s) == "true"
  {
    if |s| == 4 {
      var l := Lower(s);
      if EqualsIgnoreCase(s, "true") {
        forall i | 0 <= i < 4 ensures l[i] == "true"[i] {
          assert UpperChar(l[i]) == UpperChar(s[i]) == UpperChar("true"[i]);
          assert !('A' <= l[i] <= 'Z');
        }
      }
      if l == "true" {
        forall i | 0 <= i < 4 ensures UpperChar(s[i]) == UpperChar("true"[i]) {
          assert UpperChar(l[i]) == UpperChar(s[i]);
        }
      }
    }
  }

  /** `"$protocol://$host:$port/api"`: reading the port back out of the URL gives the port. */
  function ApiBaseUrl(protocol: string, host: string, port: Int32): (r: string)
    ensures var head := protocol + "://" + host + ":";
            && |r| == |head| + |IntToString(port)| + 4
            && r[..|head|] == head
            && r[|r| - 4..] == "/api"
            && Canonical(r[|head|..|r| - 4]) && ParseInt(r[|head|..|r| - 4]) == Some(port)
  {
    var head := protocol + "://" + host + ":";
    var digits := IntToString(port);
    var r := head + digits + "/api";
    assert r[..|head|] == head;
    assert r[|head|..|r| - 4] == digits;
    assert r[|r| - 4..] == "/api";
    ParseIntRoundTrip(port);
    r
  }

  /** DEBUG: "debug" is true, "release" false, anything else stops the build. */
  function DebugFlag(buildType: string): (r: Result<bool, ConfigError>)
    ensures r.Ok? <==> buildType == "debug" || buildType == "release"
    ensures r.Ok? ==> (r.value <==> buildType == "debug")
    ensures r.Err? ==> r.error == InvalidBuildType(buildType)
  {
    if buildType == "debug" then Ok(true)
    else if buildType == "release" then Ok(false)
    else Err(InvalidBuildType(buildType))
  }

  /**
   * The whole resolution.  The build fails without the file, then on a bad
   * port (read before the build type is checked), then on a bad build type;
   * otherwise every field is its environment-prefixed property or its default.
   */
  function Resolve(file: Option<Properties>, systemProperty: Option<string>): (r: Result<Config, ConfigError>)
    ensures file.None? ==> r == Err(ConfigFileNotFound)
    ensures file.Some? ==>
              var props := file.value;
              var env := Environment(systemProperty, props);
              var portText := Property(props, env + ".port");
              var buildType := Property(props, "build.type").OrElse(DefaultBuildType);
              && (ResolvePort(portText).Err? ==> r == Err(ResolvePort(portText).error))
              && (ResolvePort(portText).Ok? && DebugFlag(buildType).Err? ==> r == Err(InvalidBuildType(buildType)))
              && (r.Ok? <==> ResolvePort(portText).Ok? && DebugFlag(buildType).Ok?)
              && (r.Ok? ==>
                    && r.value.environment == env
                    && r.value.debug == (buildType == "debug")
                    && r.value.host == Property(props, env + ".host").OrElse(DefaultHost)
                    && r.value.port == ResolvePort(portText).value
                    && r.value.apiBaseUrl == ApiBaseUrl(Property(props, env + ".protocol").OrElse(DefaultProtocol), r.value.host, r.value.port)
                    && (r.value.useMockData <==> env + ".use_mock_data" in props && ToBoolean(props[env + ".use_mock_data"])))
  {
    match file
    case None => Err(ConfigFileNotFound)
    case Some(props) =>
      var env := Environment(systemProperty, props);
      var buildType := Property(props, "build.type").OrElse(DefaultBuildType);
      var host := Property(props, env + ".host").OrElse(DefaultHost);
      match ResolvePort(Property(props, env + ".port"))
      case Err(e) => Err(e)
      case Ok(port) =>
        var protocol := Property(props, env + ".protocol").OrElse(DefaultProtocol);
        var useMockData := match Property(props, env + ".use_mock_data")
          case Some(v) => ToBoolean(v)
          case None => false;
        match DebugFlag(buildType)
        case Err(e) => Err(e)
        case Ok(debug) => Ok(Config(env, debug, host, port, ApiBaseUrl(protocol, host, port), useMockData))
  }

  /** An empty properties file and no system property give the mock environment with every default. */
  lemma AllDefaults()
    ensures Resolve(Some(map[]), None) == Ok(Config("mock", true, "localhost", 8080, "http://localhost:8080/api", false))
  {
    var props: Properties := map[];
    assert Environment(None, props) == "mock";
    assert Property(props, "build.type").OrElse(DefaultBuildType) == "debug";
    assert ResolvePort(Property(props, "mock.port")) == Ok(8080);
    DefaultUrl();
  }

  lemma DefaultUrl()
    ensures ApiBaseUrl("http", "localhost", 8080) == "http://localhost:8080/api"
  {
    LocalUrl(8080);
    DefaultPortText();
    assert "http://localhost:" + "8080" + "/api" == "http://localhost:8080/api";
  }

  lemma LocalUrl(port: Int32)
    ensures ApiBaseUrl("http", "localhost", port) == "http://localhost:" + IntToString(port) + "/api"
  {
    assert "http" + "://" + "localhost" + ":" == "http://localhost:";
  }

  lemma DefaultPortText()
    ensures IntToString(8080) == "8080"
  {
    assert NatToString(8) == "8";
    assert NatToString(80) == NatToString(8) + [DigitChar(0)];
    assert NatToString(808) == NatToString(80) + [DigitChar(8)];
    assert NatToString(8080) == NatToString(808) + [DigitChar(0)];
  }

  /** The system property wins over the file's default environment. */
  lemma SystemPropertyWins(props: Properties, env: string)
    ensures Environment(Some(env), props) == env
    ensures Resolve(Some(props), Some(env)).Ok? ==> Resolve(Some(props), Some(env)).value.environment == env
  {
  }
}

=== FILE: cart_store.dfy ===
/**
 * The point-of-sale in-memory cart repository: a map from cart id to the
 * cart currently stored under it.  Prices are whole cents.
 */
module CartStore {
  import opened DataResults

  datatype CartItem = CartItem(id: string, description: string, price: int)

  datatype Cart = Cart(id: string, cartItemList: seq<CartItem>, total: int)

  type Store = map<string, Cart>

  /** `sumOf { it.price }`. */
  function Sum(items: seq<CartItem>): int
    decreases |items|
  {
    if items == [] then 0 else items[0].price + Sum(items[1..])
  }

  lemma {:induction false} SumAppend(a: seq<CartItem>, b: seq<CartItem>)
    ensures Sum(a + b) == Sum(a) + Sum(b)
    decreases |a|
  {
    if a == [] {
      assert a + b == b;
    } else {
      assert (a + b)[1..] == a[1..] + b;
      SumAppend(a[1..], b);
    }
  }

  /** `filterNot { it.id == itemId }`: the items with another id, in their original order. */
  function Without(items: seq<CartItem>, itemId: string): (r: seq<CartItem>)
    ensures |r| <= |items|
    ensures forall x :: x in r <==> x in items && x.id != itemId
    ensures forall i :: 0 <= i < |r| ==> r[i].id != itemId
    decreases |items|
  {
    if items == [] then []
    else if items[0].id == itemId then Without(items[1..], itemId)
    else [items[0]] + Without(items[1..], itemId)
  }

  /** Removal distributes over concatenation, so the kept items stay in order. */
  lemma {:induction false} WithoutAppend(a: seq<CartItem>, b: seq<CartItem>, itemId: string)
    ensures Without(a + b, itemId) == Without(a, itemId) + Without(b, itemId)
    decreases |a|
  {
    if a == [] {
      assert a + b == b;
    } else {
      assert (a + b)[0] == a[0];
      assert (a + b)[1..] == a[1..] + b;
      WithoutAppend(a[1..], b, itemId);
    }
  }

  /** Removing an id no item carries changes nothing. */
  lemma {:induction false} WithoutAbsent(items: seq<CartItem>, itemId: string)
    requires forall i :: 0 <= i < |items| ==> items[i].id != itemId
    ensures Without(items, itemId) == items
    decreases |items|
  {
    if items != [] {
      WithoutAbsent(items[1..], itemId);
      assert items == [items[0]] + items[1..];
    }
  }

  /** Removing the same id twice is removing it once. */
  lemma WithoutIdempotent(items: seq<CartItem>, itemId: string)
    ensures Without(Without(items, itemId), itemId) == Without(items, itemId)
  {
    WithoutAbsent(Without(items, itemId), itemId);
  }

  /** Every stored cart sits under its own id and its total is the sum of its prices. */
  predicate WellFormed(store: Store) {
    forall k :: k in store ==> store[k].id == k && store[k].total == Sum(store[k].cartItemList)
  }

  /** Only the entry under `cartId` may differ. */
  predicate OthersUnchanged(before: Store, after: Store, cartId: string) {
    && after.Keys - {cartId} == before.Keys - {cartId}
    && (forall k :: k != cartId && k in before ==> k in after && after[k] == before[k])
  }

  /** `getOrCreateCart`: the stored cart, or a new empty one stored under the id. */
  function GetOrCreate(store: Store, cartId: string): (r: (Store, Cart))
    ensures cartId in r.0 && r.0[cartId] == r.1
    ensures cartId in store ==> r.0 == store && r.1 == store[cartId]
    ensures cartId !in store ==> r.1 == Cart(cartId, [], 0) && r.0 == store[cartId := r.1]
    ensures OthersUnchanged(store, r.0, cartId)
    ensures WellFormed(store) ==> WellFormed(r.0)
  {
    if cartId in store then (store, store[cartId])
    else
      var empty := Cart(cartId, [], 0);
      (store[cartId := empty], empty)
  }

  /** Stores `current` with `items` as its list and their sum as its total, and answers with it. */
  function Replace(store: Store, cartId: string, current: Cart, items: seq<CartItem>): (r: (Store, DataResult<Cart>))
    ensures cartId in r.0 && r.1 == Success(r.0[cartId])
    ensures r.0[cartId].id == current.id && r.0[cartId].cartItemList == items
    ensures r.0[cartId].total == Sum(r.0[cartId].cartItemList)
    ensures OthersUnchanged(store, r.0, cartId)
    ensures WellFormed(store) && current.id == cartId ==> WellFormed(r.0)
  {
    var updated := current.(cartItemList := items, total := Sum(items));
    (store[cartId := updated], Success(updated))
  }

  /**
   * `addItemToCart`: the item goes after every item already there (duplicate
   * ids are kept), the total is recomputed, and the answer is always a
   * success carrying the stored cart.
   */
  function AddItem(store: Store, cartId: string, item: CartItem): (r: (Store, DataResult<Cart>))
    ensures cartId in r.0 && r.1 == Success(r.0[cartId])
    ensures var before := if cartId in store then store[cartId].cartItemList else [];
            r.0[cartId].cartItemList == before + [item]
    ensures r.0[cartId].total == Sum(r.0[cartId].cartItemList)
    ensures cartId in store ==> r.0[cartId].id == store[cartId].id
    ensures cartId !in store ==> r.0[cartId].id == cartId
    ensures OthersUnchanged(store, r.0, cartId)
    ensures WellFormed(store) ==> WellFormed(r.0)
  {
    var (created, current) := GetOrCreate(store, cartId);
    Replace(created, cartId, current, current.cartItemList + [item])
  }

  /**
   * `removeItemFromCart`: every item with the given id goes, the others keep
   * their order, the total is recomputed, and the answer is always a success.
   */
  function RemoveItem(store: Store, cartId: string, itemId: string): (r: (Store, DataResult<Cart>))
    ensures cartId in r.0 && r.1 == Success(r.0[cartId])
    ensures var before := if cartId in store then store[cartId].cartItemList else [];
            r.0[cartId].cartItemList == Without(before, itemId)
    ensures r.0[cartId].total == Sum(r.0[cartId].cartItemList)
    ensures cartId in store ==> r.0[cartId].id == store[cartId].id
    ensures cartId !in store ==> r.0[cartId].id == cartId
    ensures OthersUnchanged(store, r.0, cartId)
    ensures WellFormed(store) ==> WellFormed(r.0)
  {
    var (created, current) := GetOrCreate(store, cartId);
    Replace(created, cartId, current, Without(current.cartItemList, itemId))
  }

  /** The total after an add is the old total plus the new price. */
  lemma AddRaisesTotal(store: Store, cartId: string, item: CartItem)
    requires WellFormed(store)
    ensures var before := if cartId in store then store[cartId].total else 0;
            AddItem(store, cartId, item).0[cartId].total == before + item.price
  {
    var before := if cartId in store then store[cartId].cartItemList else [];
    SumAppend(before, [item]);
    assert Sum([item]) == item.price by {
      assert [item][1..] == [];
    }
  }

  /** Adding an item and then removing its id leaves the list as removing that id alone would. */
  lemma AddThenRemove(store: Store, cartId: string, item: CartItem)
    ensures var added := AddItem(store, cartId, item).0;
            RemoveItem(added, cartId, item.id).0[cartId].cartItemList
            == RemoveItem(store, cartId, item.id).0[cartId].cartItemList
  {
    var before := if cartId in store then store[cartId].cartItemList else [];
    WithoutAppend(before, [item], item.id);
    assert Without([item], item.id) == [] by {
      assert [item][1..] == [];
    }
    assert Without(before, item.id) + [] == Without(before, item.id);
  }

  /** Removing an id that no item of a stored cart carries leaves the whole store as it was. */
  lemma RemoveAbsentKeepsItems(store: Store, cartId: string, itemId: string)
    requires cartId in store
    requires forall i :: 0 <= i < |store[cartId].cartItemList| ==> store[cartId].cartItemList[i].id != itemId
    requires WellFormed(store)
    ensures RemoveItem(store, cartId, itemId).0 == store
  {
    WithoutAbsent(store[cartId].cartItemList, itemId);
  }
}

=== FILE: cart_view_model.dfy ===
/**
 * The point-of-sale cart screen's view model.  The cart use cases are thin
 * delegations to the repository, so a handler receives the repository's
 * answer; the random sample item and the clock are parameters.
 */
module CartViewModel {
  import opened Optional
  import opened Decimal
  import opened DataResults
  import opened Mvi
  import opened CartStore

  const DefaultCartId := "default_cart"

  datatype State = State(cartId: string, cart: Option<Cart>, isLoading: bool, error: Option<string>)

  datatype Event = Load | AddSampleItem | RemoveItem(itemId: string) | CheckoutClicked | ClearError

  datatype Effect = ShowToast(message: string) | ShowError(error: string) | Checkout(orderId: string)

  type CartViewModel = ViewModel<State, Effect>

  /** `Random.nextInt(1000, 9999)`: the upper bound is exclusive. */
  type SampleNumber = n: int | 1000 <= n < 9999 witness 1000

  /** `Random.nextDouble(5.0, 50.0)` in whole cents: from 5.00 up to, but not including, 50.00. */
  type SamplePrice = p: int | 500 <= p < 5000 witness 500

  const AddFailed := "Failed to add item"
  const RemoveFailed := "Failed to remove item"

  function Initial(): (vm: CartViewModel)
    ensures vm.state == State(DefaultCartId, None, false, None) && vm.effects == []
  {
    Create(State(DefaultCartId, None, false, None))
  }

  /** Each cart the observation delivers replaces the shown cart and clears loading and the error. */
  function OnCartObserved(vm: CartViewModel, cart: Cart): (r: CartViewModel)
    ensures r.state == vm.state.(cart := Some(cart), isLoading := false, error := None)
    ensures r.effects == vm.effects
  {
    SetState(vm, (s: State) => s.(cart := Some(cart), isLoading := false, error := None))
  }

  /** The sample item: a four-digit decimal id and the description "Item <id>". */
  function SampleItem(n: SampleNumber, price: SamplePrice): (item: CartItem)
    ensures |item.id| == 4 && AllDigits(item.id) && ParseSigned(item.id) == Some(n as int)
    ensures item.description == "Item " + item.id && item.price == price
  {
    var id := IntToString(n);
    assert |id| == 4 by { SampleIdLength(n); }
    CartItem(id, "Item " + id, price)
  }

  lemma SampleIdLength(n: SampleNumber)
    ensures |IntToString(n)| == 4
  {
    var s := NatToString(n);
    var t := NatToString(n / 10);
    var u := NatToString(n / 100);
    var w := NatToString(n / 1000);
    assert |w| == 1;
    assert |u| == 2 && |t| == 3 && |s| == 4;
  }

  /** `addSampleItem` once the repository has answered: only a failure is visible, as an error effect; the state is untouched. */
  function OnAddSampleItem(vm: CartViewModel, reply: DataResult<Cart>): (r: CartViewModel)
    ensures r.state == vm.state
    ensures reply.Error? ==> r.effects == vm.effects + [ShowError(AddFailed)]
    ensures reply.Success? ==> r.effects == vm.effects
  {
    if reply.Error? then SetEffect(vm, ShowError(AddFailed)) else vm
  }

  /** `removeItem` once the repository has answered. */
  function OnRemoveItem(vm: CartViewModel, reply: DataResult<Cart>): (r: CartViewModel)
    ensures r.state == vm.state
    ensures reply.Error? ==> r.effects == vm.effects + [ShowError(RemoveFailed)]
    ensures reply.Success? ==> r.effects == vm.effects
  {
    if reply.Error? then SetEffect(vm, ShowError(RemoveFailed)) else vm
  }

  /** The order id as the source writes it: the escaped dollar sign leaves the clock call as literal text. */
  function OrderIdAsWritten(now: Int64): (r: string)
    ensures |r| > 4 && r[..4] == "ORD-" && ParseSigned(r[4..]).None?
  {
    var r := "ORD-${System.currentTimeMillis()}";
    var t := r[4..];
    assert t[0] == '$';
    assert Unsigned(t) == t && !IsDigit(t[0]);
    r
  }

  /** Two checkouts one millisecond apart get the very same order id, where the intended ids differ. */
  lemma OrderIdAsWrittenIgnoresClock()
    ensures OrderIdAsWritten(0) == OrderIdAsWritten(1)
    ensures OrderId(0) != OrderId(1)
  {
    OrderIdDistinguishesTimes(0, 1);
  }

  /** The order id evidently intended: "ORD-" followed by the clock reading in decimal. */
  function OrderId(now: Int64): (r: string)
    ensures |r| > 4 && r[..4] == "ORD-" && Canonical(r[4..]) && ParseSigned(r[4..]) == Some(now as int)
  {
    var r := "ORD-" + IntToString(now);
    assert r[4..] == IntToString(now);
    r
  }

  /** Checkouts at different times get different order ids. */
  lemma OrderIdDistinguishesTimes(a: Int64, b: Int64)
    ensures OrderId(a) == OrderId(b) <==> a == b
  {
    if OrderId(a) == OrderId(b) {
      assert OrderId(a)[4..] == OrderId(b)[4..];
    }
  }

  /** `navigateToCheckout`: one checkout navigation, whatever the cart holds; the state is untouched. */
  function OnCheckoutClicked(vm: CartViewModel, now: Int64): (r: CartViewModel)
    ensures r.state == vm.state && r.effects == vm.effects + [Checkout(OrderId(now))]
  {
    SetEffect(vm, Checkout(OrderId(now)))
  }

  function OnClearError(vm: CartViewModel): (r: CartViewModel)
    ensures r.state == vm.state.(error := None) && r.effects == vm.effects
  {
    SetState(vm, (s: State) => s.(error := None))
  }

  /** What one event needs from outside: the sample number and price, and the clock. */
  datatype Draw = Draw(sample: SampleNumber, price: SamplePrice, now: Int64)

  /** The screen together with the in-memory repository behind it. */
  datatype System = System(vm: CartViewModel, store: Store)

  /**
   * `handleEvents` against the in-memory repository.  Every change the
   * repository makes is delivered back through the observation, so the
   * screen then shows the stored cart.
   */
  function Step(sys: System, event: Event, draw: Draw): (r: System)
    ensures r.vm.state.cartId == sys.vm.state.cartId
    ensures sys.vm.effects <= r.vm.effects
    ensures WellFormed(sys.store) ==> WellFormed(r.store)
    ensures OthersUnchanged(sys.store, r.store, sys.vm.state.cartId)
  {
    var cartId := sys.vm.state.cartId;
    match event
    case Load => sys
    case AddSampleItem =>
      var (store, reply) := CartStore.AddItem(sys.store, cartId, SampleItem(draw.sample, draw.price));
      System(OnCartObserved(OnAddSampleItem(sys.vm, reply), store[cartId]), store)
    case RemoveItem(itemId) =>
      var (store, reply) := CartStore.RemoveItem(sys.store, cartId, itemId);
      System(OnCartObserved(OnRemoveItem(sys.vm, reply), store[cartId]), store)
    case CheckoutClicked => sys.(vm := OnCheckoutClicked(sys.vm, draw.now))
    case ClearError => sys.(vm := OnClearError(sys.vm))
  }

  /** With the in-memory repository, adding or removing never shows an error, and the screen shows the stored cart. */
  lemma InMemoryNeverFails(sys: System, event: Event, draw: Draw)
    requires event.AddSampleItem? || event.RemoveItem?
    ensures var r := Step(sys, event, draw);
            r.vm.effects == sys.vm.effects && r.vm.state.error == None
            && r.vm.state.cart == Some(r.store[sys.vm.state.cartId])
  {
  }

  /** Adding the sample item to a well-formed store strictly raises the cart's total, by the drawn price. */
  lemma AddSampleRaisesTotal(sys: System, draw: Draw)
    requires WellFormed(sys.store)
    ensures var cartId := sys.vm.state.cartId;
            var before := if cartId in sys.store then sys.store[cartId].total else 0;
            var r := Step(sys, AddSampleItem, draw);
            r.store[cartId].total == before + draw.price && r.store[cartId].total > before
  {
    AddRaisesTotal(sys.store, sys.vm.state.cartId, SampleItem(draw.sample, draw.price));
  }

  /** The screen only ever works on the default cart, and no other stored cart is touched. */
  lemma {:induction false} CartIdFixed(sys: System, events: seq<Event>, draws: seq<Draw>)
    requires |draws| == |events|
    requires sys.vm.state.cartId == DefaultCartId
    ensures var r := RunSystem(sys, events, draws);
            r.vm.state.cartId == DefaultCartId && OthersUnchanged(sys.store, r.store, DefaultCartId)
    decreases |events|
  {
    if events != [] {
      var next := Step(sys, events[0], draws[0]);
      CartIdFixed(next, events[1..], draws[1..]);
    }
  }

  function RunSystem(sys: System, events: seq<Event>, draws: seq<Draw>): System
    requires |draws| == |events|
    decreases |events|
  {
    if events == [] then sys else RunSystem(Step(sys, events[0], draws[0]), events[1..], draws[1..])
  }
}

=== FILE: data_result.dfy ===
/**
 * The data layer's result type. Its declaration is not part of this model; the
 * variants below are the ones the repositories, data sources and use cases
 * construct or match on.
 */
module DataResults {

  /** `DataResult.Error`: the `Client` group (local failures) and the `Network` group. */
  datatype DataError =
    | Database(message: string)
    | Mapping(message: string)
    | UnexpectedError(message: string)
    | ConnectionError(message: string)
    | HttpError(code: int, message: string)
    | UnknownError(message: string)
  {
    /** `is DataResult.Error.Client` */
    predicate IsClient() {
      Database? || Mapping? || UnexpectedError?
    }

    /** `is DataResult.Error.Network` */
    predicate IsNetwork() {
      ConnectionError? || HttpError? || UnknownError?
    }
  }

  datatype DataResult<+T> = Success(data: T) | Error(error: DataError) {

    /** Converts a success with `f` and passes an error through untouched. */
    function Map<U>(f: T -> U): (r: DataResult<U>)
      ensures Success? <==> r.Success?
      ensures Success? ==> r.data == f(data)
      ensures Error? ==> r.error == error
    {
      match this
      case Success(d) => Success(f(d))
      case Error(e) => Error(e)
    }
  }

  /** Every error is in exactly one of the two groups, so a `when` over the groups is exhaustive. */
  lemma ErrorGroupsPartition(e: DataError)
    ensures e.IsClient() != e.IsNetwork()
  {
  }
}

=== FILE: decimal.dfy ===
/**
 * Decimal text for Kotlin's integer types: `Int.toString()`/`Long.toString()`
 * and `String.toInt()`, with the 32- and 64-bit ranges written out.
 */
module Decimal {
  import opened Optional

  /** Kotlin `Int`: 32-bit two's complement. */
  type Int32 = x: int | -0x8000_0000 <= x < 0x8000_0000

  /** Kotlin `Long`: 64-bit two's complement (timestamps in milliseconds). */
  type Int64 = x: int | -0x8000_0000_0000_0000 <= x < 0x8000_0000_0000_0000

  predicate IsDigit(c: char) {
    '0' <= c <= '9'
  }

  predicate AllDigits(s: string) {
    forall i :: 0 <= i < |s| ==> IsDigit(s[i])
  }

  function DigitChar(d: nat): (c: char)
    requires d < 10
    ensures IsDigit(c) && DigitValue(c) == d
  {
    (d + 48) as char
  }

  function DigitValue(c: char): nat
    requires IsDigit(c)
  {
    c as int - '0' as int
  }

  /** The value of a run of decimal digits, most significant first. */
  function DigitsValue(s: string): nat
    requires AllDigits(s)
  {
    if s == [] then 0 else DigitsValue(s[..|s| - 1]) * 10 + DigitValue(s[|s| - 1])
  }

  /** Decimal text of a non-negative number: digits only, no leading zero. */
  function NatToString(n: nat): (r: string)
    ensures |r| >= 1 && AllDigits(r)
    ensures r[0] == '0' ==> |r| == 1
    ensures DigitsValue(r) == n
  {
    if n < 10 then
      [DigitChar(n)]
    else
      var prefix := NatToString(n / 10);
      var r := prefix + [DigitChar(n % 10)];
      assert r[..|r| - 1] == prefix;
      r
  }

  /** The text after an optional leading `+` or `-`. */
  function Unsigned(s: string): (u: string)
    ensures |s| > 0 && (s[0] == '+' || s[0] == '-') ==> u == s[1..]
    ensures |s| == 0 || (s[0] != '+' && s[0] != '-') ==> u == s
  {
    if |s| > 0 && (s[0] == '+' || s[0] == '-') then s[1..] else s
  }

  /**
   * The text `String.toInt()` accepts, read without the range check: an
   * optional `+` or `-`, then at least one ASCII digit.
   */
  function ParseSigned(s: string): (r: Option<int>)
    ensures r.Some? <==> |Unsigned(s)| > 0 && AllDigits(Unsigned(s))
    ensures r.Some? && s[0] == '-' ==> r.value == -(DigitsValue(Unsigned(s)) as int) && r.value <= 0
    ensures r.Some? && s[0] != '-' ==> r.value == DigitsValue(Unsigned(s)) && r.value >= 0
  {
    if |s| == 0 then None
    else if s[0] == '-' || s[0] == '+' then
      if |s| > 1 && AllDigits(s[1..]) then
        var magnitude: int := DigitsValue(s[1..]);
        Some(if s[0] == '-' then -magnitude else magnitude)
      else None
    else if AllDigits(s) then Some(DigitsValue(s))
    else None
  }

  /** Kotlin's `String.toInt()`: signed decimal text whose value fits in an `Int`; anything else throws. */
  function ParseInt(s: string): (r: Option<Int32>)
    ensures r.Some? <==> ParseSigned(s).Some? && -0x8000_0000 <= ParseSigned(s).value < 0x8000_0000
    ensures r.Some? ==> r.value == ParseSigned(s).value
  {
    match ParseSigned(s)
    case Some(v) => if -0x8000_0000 <= v < 0x8000_0000 then Some(v) else None
    case None => None
  }

  /**
   * The one spelling `toString()` uses: a `-` only for a negative number,
   * never a `+`, and no leading zero (so no "-0" either).
   */
  predicate Canonical(s: string) {
    var u := if |s| > 0 && s[0] == '-' then s[1..] else s;
    |u| > 0 && AllDigits(u) && (u[0] == '0' ==> |u| == 1 && s[0] != '-')
  }

  /** Kotlin's `toString()` on an `Int` or a `Long`: the canonical decimal text, which reads back as the number. */
  function IntToString(n: int): (r: string)
    ensures n >= 0 ==> r == NatToString(n)
    ensures n < 0 ==> r == "-" + NatToString(-n)
    ensures Canonical(r) && ParseSigned(r) == Some(n)
    ensures |r| > 0 && (r[0] == '-' <==> n < 0)
  {
    if n < 0 then
      var digits := NatToString(-n);
      var r := "-" + digits;
      assert r[1..] == digits;
      r
    else
      NatToString(n)
  }

  /** A run of digits without a leading zero that starts with a non-zero digit is worth at least one. */
  lemma {:induction false} LeadingNonZero(u: string)
    requires |u| > 0 && AllDigits(u) && u[0] != '0'
    ensures DigitsValue(u) >= 1
    decreases |u|
  {
    if |u| > 1 {
      LeadingNonZero(u[..|u| - 1]);
    }
  }

  /** Digits without a leading zero are exactly what `NatToString` prints for their value. */
  lemma {:induction false} NatToStringUnique(u: string)
    requires |u| > 0 && AllDigits(u) && (u[0] == '0' ==> |u| == 1)
    ensures NatToString(DigitsValue(u)) == u
    decreases |u|
  {
    if |u| > 1 {
      var p := u[..|u| - 1];
      LeadingNonZero(p);
      NatToStringUnique(p);
      var v := DigitsValue(u);
      assert v / 10 == DigitsValue(p) && v % 10 == DigitValue(u[|u| - 1]);
      assert u == p + [u[|u| - 1]];
    }
  }

  /** Every canonical text is what `toString()` prints for the number it reads as. */
  lemma CanonicalIsIntToString(s: string, n: int)
    requires Canonical(s) && ParseSigned(s) == Some(n)
    ensures s == IntToString(n)
  {
    if s[0] == '-' {
      NatToStringUnique(s[1..]);
      assert s == "-" + s[1..];
    } else {
      NatToStringUnique(s);
    }
  }

  /** Different numbers print differently. */
  lemma IntToStringInjective(a: int, b: int)
    ensures IntToString(a) == IntToString(b) <==> a == b
  {
    if IntToString(a) == IntToString(b) {
      assert ParseSigned(IntToString(a)) == Some(a);
    }
  }

  /** `toInt()` reads back every `Int` printed by `toString()`. */
  lemma ParseIntRoundTrip(n: Int32)
    ensures ParseInt(IntToString(n)) == Some(n)
  {
  }
}

=== FILE: feature_flags.dfy ===
/**
 * The in-memory feature-flag store: a map from flag name to a possibly-null
 * value, read through typed keys that carry a default.
 */
module FeatureFlags {
  import opened Optional

  /** `FlagKey<T>`: a flag's name and the value it has when nothing (or null) is stored. */
  datatype FlagKey<V> = FlagKey(name: string, default: V)

  /** The store's snapshot; `None` is a name stored with the value null. */
  type FlagStore<V> = map<string, Option<V>>

  /** `InMemoryFeatureFlags()` with no initial map: every key reads as its default. */
  lemma EmptyReadsDefault<V>(key: FlagKey<V>)
    ensures Get(map[], key) == key.default
  {
  }

  /** `get(key)`: the stored value, or the default when the name is absent or stored as null. */
  function Get<V>(store: FlagStore<V>, key: FlagKey<V>): (r: V)
    ensures key.name in store && store[key.name].Some? ==> r == store[key.name].value
    ensures key.name !in store || store[key.name].None? ==> r == key.default
  {
    if key.name in store then store[key.name].OrElse(key.default) else key.default
  }

  /** `isEnabled(key)` on a Boolean flag. */
  function IsEnabled(store: FlagStore<bool>, key: FlagKey<bool>): (r: bool)
    ensures r <==> (key.name in store && store[key.name] == Some(true))
                   || ((key.name !in store || store[key.name] == None) && key.default)
  {
    Get(store, key)
  }

  /** `update(values)`: right-biased merge. */
  function Update<V>(store: FlagStore<V>, values: FlagStore<V>): (r: FlagStore<V>)
    ensures r.Keys == store.Keys + values.Keys
    ensures forall k :: k in values ==> r[k] == values[k]
    ensures forall k :: k in store && k !in values ==> r[k] == store[k]
  {
    store + values
  }

  /** `set(name, value)`: only the entry under `name` changes. */
  function Set<V>(store: FlagStore<V>, name: string, value: Option<V>): (r: FlagStore<V>)
    ensures r.Keys == store.Keys + {name} && r[name] == value
    ensures forall k :: k in store && k != name ==> r[k] == store[k]
  {
    store[name := value]
  }

  /** Setting a flag is merging a one-entry map. */
  lemma SetIsSingletonUpdate<V>(store: FlagStore<V>, name: string, value: Option<V>)
    ensures Set(store, name, value) == Update(store, map[name := value])
  {
  }

  /** After `set`, the key reads back what was set (its default for null), and other keys read as before. */
  lemma GetAfterSet<V>(store: FlagStore<V>, key: FlagKey<V>, other: FlagKey<V>, value: Option<V>)
    requires other.name != key.name
    ensures Get(Set(store, key.name, value), key) == value.OrElse(key.default)
    ensures Get(Set(store, key.name, value), other) == Get(store, other)
  {
  }

  /** Reading after a merge: names in the merged map win, all others read as before. */
  lemma GetAfterUpdate<V>(store: FlagStore<V>, values: FlagStore<V>, key: FlagKey<V>)
    ensures key.name in values ==> Get(Update(store, values), key) == values[key.name].OrElse(key.default)
    ensures key.name !in values ==> Get(Update(store, values), key) == Get(store, key)
  {
  }

  /** No value is followed by an equal one. */
  ghost predicate NoRepeats<V>(r: seq<V>) {
    forall i, j :: 0 <= i && j == i + 1 && j < |r| ==> r[i] != r[j]
  }

  /** `distinctUntilChanged`: drops every element equal to the one before it. */
  function Distinct<V(==)>(s: seq<V>): (r: seq<V>)
    ensures |r| <= |s|
    ensures forall i :: 0 <= i < |r| ==> r[i] in s
    ensures NoRepeats(r)
    ensures |s| > 0 ==> |r| > 0 && r[|r| - 1] == s[|s| - 1] && r[0] == s[0]
    decreases |s|
  {
    if |s| <= 1 then s
    else
      var rest := Distinct(s[..|s| - 1]);
      if rest[|rest| - 1] == s[|s| - 1] then rest else rest + [s[|s| - 1]]
  }

  /** The values read back: each element of `r` repeated as often as `counts` says, in order. */
  function Expand<V>(r: seq<V>, counts: seq<nat>): (s: seq<V>)
    requires |counts| == |r|
    decreases |r|
  {
    if r == [] then []
    else Expand(r[..|r| - 1], counts[..|r| - 1]) + Repeat(r[|r| - 1], counts[|r| - 1])
  }

  /** `c` copies of `x`. */
  function Repeat<V>(x: V, c: nat): (r: seq<V>)
    ensures |r| == c
  {
    if c == 0 then [] else Repeat(x, c - 1) + [x]
  }

  /** How many consecutive input elements each element of `Distinct(s)` stands for. */
  function RunLengths<V(==)>(s: seq<V>): (counts: seq<nat>)
    ensures |counts| == |Distinct(s)|
    ensures forall k :: 0 <= k < |counts| ==> counts[k] >= 1
    decreases |s|
  {
    if |s| == 0 then [] else if |s| == 1 then [1]
    else
      var rest := RunLengths(s[..|s| - 1]);
      var d := Distinct(s[..|s| - 1]);
      if d[|d| - 1] == s[|s| - 1] then Bump(rest) else rest + [1]
  }

  /** The counts with the last one raised by one. */
  function Bump(counts: seq<nat>): (r: seq<nat>)
    requires |counts| > 0
    ensures |r| == |counts| && r[..|r| - 1] == counts[..|counts| - 1] && r[|r| - 1] == counts[|counts| - 1] + 1
  {
    var last: nat := counts[|counts| - 1] + 1;
    counts[..|counts| - 1] + [last]
  }

  /** The counts with the last one, above one, lowered by one: `Bump` undone. */
  function Unbump(counts: seq<nat>): (r: seq<nat>)
    requires |counts| > 0 && counts[|counts| - 1] > 1 && Positive(counts)
    ensures |r| == |counts| && Positive(r) && Bump(r) == counts
  {
    var m := |counts| - 1;
    var last: nat := counts[m] - 1;
    var r := counts[..m] + [last];
    assert Bump(r)[..m] == counts[..m];
    r
  }

  lemma ExpandLast<V>(r: seq<V>, counts: seq<nat>, x: V, c: nat)
    requires |counts| == |r|
    ensures Expand(r + [x], counts + [c]) == Expand(r, counts) + Repeat(x, c)
  {
    assert (r + [x])[..|r|] == r;
    assert (counts + [c])[..|r|] == counts;
  }

  /** One more repeat of the last value appends one more copy of it. */
  lemma ExpandBump<V>(r: seq<V>, counts: seq<nat>)
    requires |counts| == |r| > 0
    ensures Expand(r, Bump(counts)) == Expand(r, counts) + [r[|r| - 1]]
  {
    var m := |r| - 1;
    var b := Bump(counts);
    assert b[..m] == counts[..m];
    assert Repeat(r[m], b[m]) == Repeat(r[m], counts[m]) + [r[m]];
  }

  /** A new value seen once appends one copy of it. */
  lemma ExpandSingle<V>(r: seq<V>, counts: seq<nat>, x: V)
    requires |counts| == |r|
    ensures Expand(r + [x], counts + [1]) == Expand(r, counts) + [x]
  {
    ExpandLast(r, counts, x, 1);
    assert Repeat(x, 1) == [x];
  }

  /** Every count is at least one. */
  predicate Positive(counts: seq<nat>) {
    forall k :: 0 <= k < |counts| ==> counts[k] >= 1
  }

  /** `Distinct` and `RunLengths` of a sequence extended by one value, in terms of the shorter one's. */
  lemma DistinctSnoc<V>(init: seq<V>, x: V)
    requires |init| > 0
    ensures var d := Distinct(init);
            Distinct(init + [x]) == if d[|d| - 1] == x then d else d + [x]
  {
    assert (init + [x])[..|init|] == init;
  }

  lemma RunLengthsSnoc<V>(init: seq<V>, x: V)
    requires |init| > 0
    ensures var d := Distinct(init);
            var rest := RunLengths(init);
            RunLengths(init + [x]) == if d[|d| - 1] == x then Bump(rest) else rest + [1]
  {
    assert (init + [x])[..|init|] == init;
  }

  lemma SplitLast<V>(s: seq<V>)
    requires |s| > 0
    ensures s == s[..|s| - 1] + [s[|s| - 1]]
  {
  }

  /** Appending a value equal to the last output value extends that value's run. */
  lemma ExpandsRepeat<V>(init: seq<V>, x: V)
    requires |init| > 0
    requires Expand(Distinct(init), RunLengths(init)) == init
    requires Distinct(init)[|Distinct(init)| - 1] == x
    ensures Expand(Distinct(init + [x]), RunLengths(init + [x])) == init + [x]
  {
    var d := Distinct(init);
    var rest := RunLengths(init);
    var m := |d| - 1;
    DistinctSnoc(init, x);
    RunLengthsSnoc(init, x);
    assert Distinct(init + [x]) == d;
    assert RunLengths(init + [x]) == Bump(rest);
    ExpandBump(d, rest);
  }

  /** Appending a value different from the last output value starts a new run. */
  lemma ExpandsChange<V>(init: seq<V>, x: V)
    requires |init| > 0
    requires Expand(Distinct(init), RunLengths(init)) == init
    requires Distinct(init)[|Distinct(init)| - 1] != x
    ensures Expand(Distinct(init + [x]), RunLengths(init + [x])) == init + [x]
  {
    DistinctSnoc(init, x);
    RunLengthsSnoc(init, x);
    ExpandSingle(Distinct(init), RunLengths(init), x);
  }

  /**
   * `distinctUntilChanged` keeps order: the input is exactly the output with
   * each value repeated a positive number of times in place.
   */
  lemma {:induction false} DistinctExpands<V>(s: seq<V>)
    ensures Expand(Distinct(s), RunLengths(s)) == s
    decreases |s|
  {
    if |s| == 1 {
      assert Expand(s, [1]) == Expand([], []) + Repeat(s[0], 1);
    } else if |s| > 1 {
      var init := s[..|s| - 1];
      var x := s[|s| - 1];
      assert init + [x] == s;
      DistinctExpands(init);
      var d := Distinct(init);
      if d[|d| - 1] == x {
        ExpandsRepeat(init, x);
      } else {
        ExpandsChange(init, x);
      }
    }
  }

  /** An expansion with positive counts is empty only for no runs. */
  lemma ExpandEmpty<V>(r: seq<V>, counts: seq<nat>)
    requires |counts| == |r| && Positive(counts)
    ensures Expand(r, counts) == [] <==> r == []
  {
    if r != [] {
      var m := |r| - 1;
      assert |Repeat(r[m], counts[m])| == counts[m] >= 1;
    }
  }

  /** The last run of an expansion with positive counts ends the expanded sequence. */
  lemma ExpandSplit<V>(r: seq<V>, counts: seq<nat>)
    requires |counts| == |r| > 0 && counts[|r| - 1] == 1
    ensures Expand(r, counts) == Expand(r[..|r| - 1], counts[..|r| - 1]) + [r[|r| - 1]]
  {
    var m := |r| - 1;
    assert Repeat(r[m], 1) == [r[m]];
  }

  /** Repeating the last distinct value adds nothing. */
  lemma UniqueLonger<V>(init: seq<V>, r: seq<V>, x: V)
    requires init != [] && Distinct(init) == r && r[|r| - 1] == x
    ensures Distinct(init + [x]) == r
  {
    DistinctSnoc(init, x);
  }

  /** A value different from the last distinct one is added. */
  lemma UniqueNewRun<V>(init: seq<V>, front: seq<V>, x: V)
    requires Distinct(init) == front && (init == [] <==> front == [])
    requires front == [] || front[|front| - 1] != x
    ensures Distinct(init + [x]) == front + [x]
  {
    if init == [] {
      assert init + [x] == [x];
    } else {
      DistinctSnoc(init, x);
    }
  }

  /**
   * Conversely, a sequence without neighbouring repeats that expands to `s`
   * with positive counts is `Distinct(s)`: nothing else fits the description.
   */
  lemma {:induction false} DistinctUnique<V>(s: seq<V>, r: seq<V>, counts: seq<nat>)
    requires |counts| == |r| && Positive(counts) && NoRepeats(r)
    requires Expand(r, counts) == s
    ensures Distinct(s) == r
    decreases |s|, 1
  {
    if r != [] {
      if counts[|r| - 1] > 1 {
        UniqueLastRunLonger(s, r, counts);
      } else {
        UniqueLastRunSingle(s, r, counts);
      }
    }
  }

  /** The step of `DistinctUnique` when the last run is longer than one. */
  lemma {:induction false} UniqueLastRunLonger<V>(s: seq<V>, r: seq<V>, counts: seq<nat>)
    requires |counts| == |r| > 0 && Positive(counts) && NoRepeats(r)
    requires Expand(r, counts) == s && counts[|r| - 1] > 1
    ensures Distinct(s) == r
    decreases |s|, 0
  {
    var m := |r| - 1;
    var smaller := Unbump(counts);
    ExpandBump(r, smaller);
    ExpandEmpty(r, smaller);
    DistinctUnique(Expand(r, smaller), r, smaller);
    UniqueLonger(Expand(r, smaller), r, r[m]);
  }

  /** The step of `DistinctUnique` when the last run has one element. */
  lemma {:induction false} UniqueLastRunSingle<V>(s: seq<V>, r: seq<V>, counts: seq<nat>)
    requires |counts| == |r| > 0 && Positive(counts) && NoRepeats(r)
    requires Expand(r, counts) == s && counts[|r| - 1] == 1
    ensures Distinct(s) == r
    decreases |s|, 0
  {
    var m := |r| - 1;
    assert Positive(counts[..m]) && NoRepeats(r[..m]);
    ExpandSplit(r, counts);
    ExpandEmpty(r[..m], counts[..m]);
    DistinctUnique(Expand(r[..m], counts[..m]), r[..m], counts[..m]);
    assert m == 0 || r[m - 1] != r[m];
    UniqueNewRun(Expand(r[..m], counts[..m]), r[..m], r[m]);
    assert r[..m] + [r[m]] == r;
  }

  /** The key's value in each snapshot, in snapshot order. */
  function Values<V>(snapshots: seq<FlagStore<V>>, key: FlagKey<V>): (r: seq<V>)
    ensures |r| == |snapshots|
    ensures forall i :: 0 <= i < |r| ==> r[i] == Get(snapshots[i], key)
  {
    seq(|snapshots|, i requires 0 <= i < |snapshots| => Get(snapshots[i], key))
  }

  /**
   * `observe(key)` over a sequence of store snapshots: the key's value in
   * each, with repeats of the previous value dropped.  The last value seen is
   * always the current one.
   */
  function Observe<V(==)>(snapshots: seq<FlagStore<V>>, key: FlagKey<V>): (r: seq<V>)
    ensures |snapshots| > 0 ==> |r| > 0 && r[|r| - 1] == Get(snapshots[|snapshots| - 1], key)
    ensures NoRepeats(r)
  {
    Distinct(Values(snapshots, key))
  }

  /** The observed values, each repeated over the run of snapshots that hold it, are the snapshots' values in order. */
  lemma ObserveFollowsSnapshots<V>(snapshots: seq<FlagStore<V>>, key: FlagKey<V>)
    ensures Expand(Observe(snapshots, key), RunLengths(Values(snapshots, key))) == Values(snapshots, key)
  {
    DistinctExpands(Values(snapshots, key));
  }
}

=== FILE: hello_data_sources.dfy ===
/**
 * The two `HelloNetworkDataSource` implementations of the Hello feature: the
 * simulated network one and the one backed by a JSON mock configuration.
 * Delays are left out; the clock reading (`now`) and the random choice
 * (`pick`) are parameters.
 */
module HelloNetworkSource {
  import opened Decimal
  import opened Text
  import opened DataResults
  import opened HelloModel

  /** The greeting words a random greeting is built from. */
  const Greetings: seq<string> :=
    ["Hello", "Hi", "Hey", "Greetings", "Welcome", "Good day", "Howdy", "Salutations"]

  /** The greeting text for a language; languages other than es, fr and de get English. */
  function Greeting(language: string, name: string): (r: string)
    ensures Contains(r, name)
    ensures language == "es" ==> r == "¡Hola, " + name + "! ¡Bienvenido a KMP!"
    ensures language == "fr" ==> r == "Bonjour, " + name + "! Bienvenue à KMP!"
    ensures language == "de" ==> r == "Hallo, " + name + "! Willkommen bei KMP!"
    ensures language !in ["es", "fr", "de"] ==> r == "Hello, " + name + "! Welcome to KMP!"
  {
    var (before, after) :=
      if language == "es" then ("¡Hola, ", "! ¡Bienvenido a KMP!")
      else if language == "fr" then ("Bonjour, ", "! Bienvenue à KMP!")
      else if language == "de" then ("Hallo, ", "! Willkommen bei KMP!")
      else ("Hello, ", "! Welcome to KMP!");
    var r := before + name + after;
    assert InfixAt(r, name, |before|);
    r
  }

  /** Within one language, the greeting tells names apart: the name is what sits between the fixed opening and closing. */
  lemma GreetingInjective(language: string, a: string, b: string)
    ensures Greeting(language, a) == Greeting(language, b) <==> a == b
  {
    var before := if language == "es" then "¡Hola, " else if language == "fr" then "Bonjour, "
                  else if language == "de" then "Hallo, " else "Hello, ";
    var ra, rb := Greeting(language, a), Greeting(language, b);
    if ra == rb {
      assert |a| == |b|;
      assert ra[|before|..|before| + |a|] == a;
      assert rb[|before|..|before| + |b|] == b;
    }
  }

  /** For the same name, the four greeting texts differ: each language keeps its own opening. */
  lemma GreetingsDifferByLanguage(name: string)
    ensures Greeting("es", name) != Greeting("fr", name)
    ensures Greeting("es", name) != Greeting("de", name)
    ensures Greeting("fr", name) != Greeting("de", name)
    ensures Greeting("es", name) != Greeting("en", name)
    ensures Greeting("fr", name) != Greeting("en", name)
    ensures Greeting("de", name) != Greeting("en", name)
  {
    assert Greeting("es", name)[0] == '¡';
    assert Greeting("fr", name)[0] == 'B';
    assert Greeting("de", name)[..2] == "Ha";
    assert Greeting("en", name)[..2] == "He";
  }

  /** `getHelloMessageDto`: the name "error" in any letter case simulates a connection failure. */
  function GetHelloMessageDto(name: string, language: string, now: Int64): (r: DataResult<HelloMessageDto>)
    ensures r.Error? <==> Lower(name) == "error"
    ensures r.Error? ==> r.error == ConnectionError("Failed to connect to greeting service")
    ensures r.Success? ==> r.data.language == language && r.data.timestamp == now
    ensures r.Success? ==> Contains(r.data.message, name)
    ensures r.Success? && language == "es" ==> r.data.message == "¡Hola, " + name + "! ¡Bienvenido a KMP!"
    ensures r.Success? && language == "fr" ==> r.data.message == "Bonjour, " + name + "! Bienvenue à KMP!"
    ensures r.Success? && language == "de" ==> r.data.message == "Hallo, " + name + "! Willkommen bei KMP!"
    ensures r.Success? && language !in ["es", "fr", "de"] ==>
              r.data.message == "Hello, " + name + "! Welcome to KMP!"
  {
    if Lower(name) == "error" then
      Error(ConnectionError("Failed to connect to greeting service"))
    else
      Success(HelloMessageDto(Greeting(language, name), now, language))
  }

  /** `getRandomGreetingDto`: one of the listed words followed by " from KMP!", in English. */
  function GetRandomGreetingDto(pick: nat, now: Int64): (r: DataResult<HelloMessageDto>)
    requires pick < |Greetings|
    ensures r.Success?
    ensures exists i :: 0 <= i < |Greetings| && r.data.message == Greetings[i] + " from KMP!"
    ensures r.data.language == "en" && r.data.timestamp == now
    ensures !IsBlank(r.data.message)
  {
    var message := Greetings[pick] + " from KMP!";
    assert !IsWhitespace(message[|message| - 1]);
    Success(HelloMessageDto(message, now, "en"))
  }

  /**
   * `postHelloMessage`: fewer than 3 characters is a 400; otherwise text containing
   * "servererror" in any letter case is a 500; otherwise the message is echoed with
   * a fresh timestamp.
   */
  function PostHelloMessage(dto: HelloMessageDto, now: Int64): (r: DataResult<HelloMessageDto>)
    ensures |dto.message| < 3 ==> r.Error? && r.error.HttpError? && r.error.code == 400
    ensures |dto.message| >= 3 && Contains(Lower(dto.message), "servererror") ==>
              r.Error? && r.error.HttpError? && r.error.code == 500
    ensures r.Success? <==> |dto.message| >= 3 && !Contains(Lower(dto.message), "servererror")
    ensures r.Success? ==> r.data == dto.(timestamp := now)
  {
    if |dto.message| < 3 then
      Error(HttpError(400, "Bad Request: Message is too short. Minimum 3 characters required."))
    else if Contains(Lower(dto.message), "servererror") then
      Error(HttpError(500, "Internal Server Error: Failed to process hello message"))
    else
      Success(dto.(timestamp := now))
  }
}

module MockHelloSource {
  import opened Optional
  import opened Decimal
  import opened Text
  import opened DataResults
  import opened HelloModel

  /** One entry of the mock configuration's `helloMessages`. */
  datatype HelloMessageTemplate = HelloMessageTemplate(language: string, messageTemplate: string, responses: seq<string>)

  /** The decoded `mock_hello_messages.json`. */
  datatype MockDataConfig = MockDataConfig(helloMessages: seq<HelloMessageTemplate>, randomGreetings: seq<string>)

  /** Kotlin's `find { it.language == language }`: the index of the first template in that language. */
  function FindLanguage(templates: seq<HelloMessageTemplate>, language: string): (r: Option<nat>)
    ensures r.Some? ==> r.value < |templates| && templates[r.value].language == language
    ensures r.Some? ==> forall j :: 0 <= j < r.value ==> templates[j].language != language
    ensures r.None? ==> forall j :: 0 <= j < |templates| ==> templates[j].language != language
  {
    if |templates| == 0 then None
    else if templates[0].language == language then Some(0)
    else match FindLanguage(templates[1..], language)
      case Some(i) => Some(i + 1)
      case None => None
  }

  /**
   * The template `getHelloMessageDto` uses: the first one in the requested
   * language, else the first English one, else the first one. `first()` throws
   * on an empty list, so the configuration must list at least one template.
   */
  function SelectTemplate(templates: seq<HelloMessageTemplate>, language: string): (t: HelloMessageTemplate)
    requires |templates| > 0
    ensures t in templates
    ensures (exists j :: 0 <= j < |templates| && templates[j].language == language) ==> t.language == language
    ensures ((forall j :: 0 <= j < |templates| ==> templates[j].language != language) &&
             (exists j :: 0 <= j < |templates| && templates[j].language == "en")) ==> t.language == "en"
    ensures FindLanguage(templates, language).None? && FindLanguage(templates, "en").Some? ==>
              t == templates[FindLanguage(templates, "en").value]
    ensures (forall j :: 0 <= j < |templates| ==> templates[j].language != language && templates[j].language != "en") ==>
              t == templates[0]
  {
    match FindLanguage(templates, language)
    case Some(i) => templates[i]
    case None =>
      match FindLanguage(templates, "en")
      case Some(i) => templates[i]
      case None => templates[0]
  }

  /** A language present in the configuration selects the first template in that language. */
  lemma SelectsFirstMatch(templates: seq<HelloMessageTemplate>, language: string, k: nat)
    requires k < |templates| && templates[k].language == language
    requires forall j :: 0 <= j < k ==> templates[j].language != language
    ensures SelectTemplate(templates, language) == templates[k]
  {
  }

  /** With no template in the requested language, the first English template is the one chosen. */
  lemma SelectsFirstEnglish(templates: seq<HelloMessageTemplate>, language: string, k: nat)
    requires forall j :: 0 <= j < |templates| ==> templates[j].language != language
    requires k < |templates| && templates[k].language == "en"
    requires forall j :: 0 <= j < k ==> templates[j].language != "en"
    ensures SelectTemplate(templates, language) == templates[k]
  {
  }

  const NamePlaceholder := "{name}"

  /** `getHelloMessageDto`: always a success; every "{name}" in the template becomes the name, and the requested language is reported. */
  function GetHelloMessageDto(config: MockDataConfig, name: string, language: string, now: Int64): (r: DataResult<HelloMessageDto>)
    requires |config.helloMessages| > 0
    ensures r.Success?
    ensures r.data.message == ReplaceAll(SelectTemplate(config.helloMessages, language).messageTemplate, NamePlaceholder, name)
    ensures r.data.language == language && r.data.timestamp == now
  {
    var template := SelectTemplate(config.helloMessages, language);
    Success(HelloMessageDto(ReplaceAll(template.messageTemplate, NamePlaceholder, name), now, language))
  }

  /** A template with a single placeholder and no brace before it yields the name between its two halves. */
  lemma SinglePlaceholder(before: string, after: string, name: string)
    requires '{' !in before && !Contains(after, NamePlaceholder)
    ensures ReplaceAll(before + NamePlaceholder + after, NamePlaceholder, name) == before + name + after
  {
    ReplaceAfterLiteral(before, NamePlaceholder + after, NamePlaceholder, name);
    ReplaceLeading(NamePlaceholder, after, name);
    ReplaceAbsent(after, NamePlaceholder, name);
    assert before + NamePlaceholder + after == before + (NamePlaceholder + after);
  }

  /** `getRandomGreetingDto`: an element of `randomGreetings` verbatim, in English; `random()` throws on an empty list. */
  function GetRandomGreetingDto(config: MockDataConfig, pick: nat, now: Int64): (r: DataResult<HelloMessageDto>)
    requires pick < |config.randomGreetings|
    ensures r.Success? && r.data.message in config.randomGreetings
    ensures r.data.language == "en" && r.data.timestamp == now
  {
    Success(HelloMessageDto(config.randomGreetings[pick], now, "en"))
  }

  /** `postHelloMessage`: always a success, the input with only its timestamp replaced. */
  function PostHelloMessage(dto: HelloMessageDto, now: Int64): (r: DataResult<HelloMessageDto>)
    ensures r.Success?
    ensures r.data.message == dto.message && r.data.language == dto.language && r.data.timestamp == now
  {
    Success(dto.(timestamp := now))
  }
}

=== FILE: hello_flows.dfy ===
/**
 * The Hello feature's two emission sequences, with their delays removed:
 * the endless periodic greetings and the two-value session flow.
 */
module PeriodicGreetings {
  import opened Decimal
  import opened HelloModel

  const Greetings: seq<string> := [
    "Welcome to Hello World KMP!",
    "Hope you're having a great day!",
    "Keep coding and stay awesome!",
    "Kotlin Multiplatform is amazing!",
    "Thanks for using our app!"
  ]

  /** The emission with index `n`, counting from 0, stamped with the clock reading `now`. */
  function Emission(n: nat, now: Int64): (m: HelloMessage)
    ensures m.text == Greetings[n % |Greetings|] && m.text in Greetings
    ensures m.language == "en" && m.timestamp == now
  {
    HelloMessage(Greetings[n % |Greetings|], now, "en")
  }

  /** The first `|clock|` emissions, the i-th stamped with `clock[i]`. */
  function Emissions(clock: seq<Int64>): (r: seq<HelloMessage>)
    ensures |r| == |clock|
    ensures forall i :: 0 <= i < |r| ==> r[i] == Emission(i, clock[i])
  {
    seq(|clock|, i requires 0 <= i < |clock| => Emission(i, clock[i]))
  }

  /** The texts repeat with period 5, and no shorter: consecutive emissions differ. */
  lemma Periodic(n: nat, a: Int64, b: Int64)
    ensures Emission(n + 5, a).text == Emission(n, b).text
    ensures Emission(n + 1, a).text != Emission(n, b).text
  {
    assert (n + 5) % 5 == n % 5;
    var k := n % 5;
    if k == 4 {
      assert (n + 1) % 5 == 0;
    } else {
      assert (n + 1) % 5 == k + 1;
    }
  }

  /** Any five consecutive emissions show every greeting exactly once. */
  lemma FiveInARowCoverAll(n: nat, clock: seq<Int64>)
    requires |clock| == 5
    ensures forall g :: g in Greetings ==> exists j :: 0 <= j < 5 && Emission(n + j, clock[j]).text == g
  {
    forall g | g in Greetings
      ensures exists j :: 0 <= j < 5 && Emission(n + j, clock[j]).text == g
    {
      var k :| 0 <= k < 5 && Greetings[k] == g;
      var j := (k - n % 5 + 5) % 5;
      assert (n + j) % 5 == k;
      assert Emission(n + j, clock[j]).text == g;
    }
  }

  lemma FirstEmission(now: Int64)
    ensures Emission(0, now) == HelloMessage("Welcome to Hello World KMP!", now, "en")
  {
  }
}

module SessionFlow {
  import opened Optional

  /** `HelloSessionIds`; the default value has no ids and is not authenticated. */
  datatype HelloSessionIds = HelloSessionIds(
    userId: Option<string>,
    sessionId: Option<string>,
    userName: Option<string>,
    isAuthenticated: bool)

  const DefaultSession := HelloSessionIds(None, None, None, false)

  const ReadinessFailedMessage := "Session not ready - please wait for authentication"

  /** The hello view models' readiness test: a user id is present and the session is authenticated. */
  predicate IsReady(s: HelloSessionIds) {
    s.userId.Some? && s.isAuthenticated
  }

  /** Everything the session flow emits, in order. */
  function Emissions(): (r: seq<HelloSessionIds>)
    ensures |r| == 2
    ensures r[0] == DefaultSession
    ensures r[1].userId == Some("user_123") && r[1].sessionId == Some("session_abc_456")
    ensures r[1].userName == Some("Hello User") && r[1].isAuthenticated
  {
    [DefaultSession, HelloSessionIds(Some("user_123"), Some("session_abc_456"), Some("Hello User"), true)]
  }

  /**
   * `sessionState.first { ready }` over the values the state flow has held so
   * far: the index of the first ready one, or `None` while none is ready, in
   * which case the wait has not resolved yet (a state flow never completes, so
   * `first` keeps suspending).
   */
  function FirstReady(sessions: seq<HelloSessionIds>): (r: Option<nat>)
    ensures r.Some? ==> r.value < |sessions| && IsReady(sessions[r.value])
    ensures r.Some? ==> forall j :: 0 <= j < r.value ==> !IsReady(sessions[j])
    ensures r.None? <==> forall j :: 0 <= j < |sessions| ==> !IsReady(sessions[j])
  {
    if sessions == [] then None
    else if IsReady(sessions[0]) then Some(0)
    else match FirstReady(sessions[1..])
      case None => None
      case Some(k) => Some(k + 1)
  }

  /** The flow's first value is rejected and its second accepted, so readiness resolves on the second emission. */
  lemma ReadyOnSecondEmission()
    ensures !IsReady(Emissions()[0]) && IsReady(Emissions()[1])
    ensures FirstReady(Emissions()) == Some(1)
  {
  }
}

=== FILE: hello_model.dfy ===
/**
 * The Hello feature's domain model and transfer object, and the data-layer
 * mappers between them (`HelloMessageDto.toDomain`, `HelloMessage.toDto`).
 */
module HelloModel {
  import opened Decimal

  /** Domain greeting: `text`, epoch-millisecond `timestamp`, `language` code. */
  datatype HelloMessage = HelloMessage(text: string, timestamp: Int64, language: string)

  /** Wire form: the domain `text` travels as `message`. */
  datatype HelloMessageDto = HelloMessageDto(message: string, timestamp: Int64, language: string)

  /** `HelloMessageDto.toDomain()`: the message becomes the text; timestamp and language are copied. */
  function ToDomain(d: HelloMessageDto): (m: HelloMessage)
    ensures m.text == d.message
    ensures m.timestamp == d.timestamp && m.language == d.language
  {
    HelloMessage(d.message, d.timestamp, d.language)
  }

  /** `HelloMessage.toDto()`: the inverse of `ToDomain`. */
  function ToDto(m: HelloMessage): (d: HelloMessageDto)
    ensures ToDomain(d) == m
  {
    HelloMessageDto(m.text, m.timestamp, m.language)
  }

  /** Converting a transfer object to the domain and back gives the same object. */
  lemma DtoRoundTrip(d: HelloMessageDto)
    ensures ToDto(ToDomain(d)) == d
  {
  }

  /** Both mappers are injective, so no two distinct values are conflated. */
  lemma MappersInjective(d1: HelloMessageDto, d2: HelloMessageDto, m1: HelloMessage, m2: HelloMessage)
    ensures ToDomain(d1) == ToDomain(d2) ==> d1 == d2
    ensures ToDto(m1) == ToDto(m2) ==> m1 == m2
  {
    DtoRoundTrip(d1);
    DtoRoundTrip(d2);
  }
}

=== FILE: hello_pipeline.dfy ===
/**
 * The Hello feature end to end: the shared use cases over the repository
 * over the simulated network data source (or the mock one), for one clock
 * reading `now` and one random choice `pick`.
 */
module HelloPipeline {
  import opened Text
  import opened Decimal
  import opened DataResults
  import opened HelloModel
  import HelloNetworkSource
  import MockHelloSource
  import opened HelloRepository
  import PostUseCase = PostHelloMessageUseCase
  import GetUseCase = GetHelloMessageUseCase
  import RandomUseCase = GetRandomGreetingUseCase

  /** The simulated network data source at one moment. */
  function NetworkSource(pick: nat, now: Int64): (source: HelloDataSource)
    requires pick < |HelloNetworkSource.Greetings|
    ensures forall name, language :: source.getHelloMessageDto(name, language) == HelloNetworkSource.GetHelloMessageDto(name, language, now)
    ensures source.getRandomGreetingDto == HelloNetworkSource.GetRandomGreetingDto(pick, now)
    ensures forall dto :: source.postHelloMessage(dto) == HelloNetworkSource.PostHelloMessage(dto, now)
  {
    HelloDataSource(
      (name, language) => HelloNetworkSource.GetHelloMessageDto(name, language, now),
      HelloNetworkSource.GetRandomGreetingDto(pick, now),
      dto => HelloNetworkSource.PostHelloMessage(dto, now))
  }

  /** The mock-configuration data source at one moment. */
  function MockSource(config: MockHelloSource.MockDataConfig, pick: nat, now: Int64): (source: HelloDataSource)
    requires |config.helloMessages| > 0 && pick < |config.randomGreetings|
    ensures forall name, language :: source.getHelloMessageDto(name, language) == MockHelloSource.GetHelloMessageDto(config, name, language, now)
    ensures source.getRandomGreetingDto == MockHelloSource.GetRandomGreetingDto(config, pick, now)
    ensures forall dto :: source.postHelloMessage(dto) == MockHelloSource.PostHelloMessage(dto, now)
  {
    HelloDataSource(
      (name, language) => MockHelloSource.GetHelloMessageDto(config, name, language, now),
      MockHelloSource.GetRandomGreetingDto(config, pick, now),
      dto => MockHelloSource.PostHelloMessage(dto, now))
  }

  /** Posting through the network stack: what the user sees for each kind of input. */
  lemma PostOverNetwork(message: HelloMessage, pick: nat, now: Int64)
    requires pick < |HelloNetworkSource.Greetings|
    ensures var r := PostUseCase.Invoke(message, Over(NetworkSource(pick, now)).postHelloMessage);
            var t := Trim(message.text);
            && (|t| < 3 ==> r == PostUseCase.EmptyMessage)
            && (|t| > PostUseCase.MaxLength ==> r == PostUseCase.MessageTooLong)
            && (3 <= |t| <= PostUseCase.MaxLength && Contains(Lower(t), "servererror") ==> r == PostUseCase.ServiceUnavailable)
            && (3 <= |t| <= PostUseCase.MaxLength && !Contains(Lower(t), "servererror") ==>
                  r == PostUseCase.UseCaseResult.Success(message.(text := t, timestamp := now)))
  {
    var source := NetworkSource(pick, now);
    var t := Trim(message.text);
    if 0 < |t| <= PostUseCase.MaxLength {
      var sent := message.(text := t);
      assert ToDto(sent).message == t;
      if 3 <= |t| && !Contains(Lower(t), "servererror") {
        assert PostHelloMessage(source, sent) == Success(sent.(timestamp := now));
        TrimmedBlankIsEmpty(message.text);
      }
    }
  }

  /** What the repository over the network source answers for a name in English. */
  lemma NetworkFetch(name: string, pick: nat, now: Int64)
    requires pick < |HelloNetworkSource.Greetings|
    ensures Lower(name) == "error" ==>
              FetchHelloMessage(NetworkSource(pick, now), name, "en") == Error(ConnectionError("Failed to connect to greeting service"))
    ensures Lower(name) != "error" ==>
              FetchHelloMessage(NetworkSource(pick, now), name, "en") == Success(HelloMessage("Hello, " + name + "! Welcome to KMP!", now, "en"))
  {
  }

  /** Fetching a greeting through the network stack, with the use case's default language. */
  lemma GreetOverNetwork(name: string, pick: nat, now: Int64)
    requires pick < |HelloNetworkSource.Greetings|
    ensures var r := GetUseCase.Invoke(name, Over(NetworkSource(pick, now)).fetchHelloMessage);
            var clean := GetUseCase.CleanName(name);
            && (|clean| > GetUseCase.MaxNameLength ==> r == GetUseCase.InvalidName)
            && (|clean| <= GetUseCase.MaxNameLength && Lower(clean) == "error" ==> r == GetUseCase.ServiceUnavailable)
            && (|clean| <= GetUseCase.MaxNameLength && Lower(clean) != "error" ==>
                  r == GetUseCase.UseCaseResult.Success(HelloMessage("Hello, " + clean + "! Welcome to KMP!", now, "en")))
  {
    var source := NetworkSource(pick, now);
    var clean := GetUseCase.CleanName(name);
    if |clean| <= GetUseCase.MaxNameLength {
      var reply := FetchHelloMessage(source, clean, "en");
      assert GetUseCase.Invoke(name, Over(source).fetchHelloMessage) == GetUseCase.Classify(reply);
      NetworkFetch(clean, pick, now);
      if Lower(clean) != "error" {
        var text := "Hello, " + clean + "! Welcome to KMP!";
        assert text[0] == 'H' && !IsWhitespace(text[0]);
      }
    }
  }

  /** A random greeting through the network stack always succeeds, in English. */
  lemma RandomOverNetwork(pick: nat, now: Int64)
    requires pick < |HelloNetworkSource.Greetings|
    ensures RandomUseCase.Invoke(FetchRandomGreeting(NetworkSource(pick, now)))
            == RandomUseCase.UseCaseResult.Success(HelloMessage(HelloNetworkSource.Greetings[pick] + " from KMP!", now, "en"))
  {
  }

  /** Posting through the mock stack: only the use case's own limits can refuse a message. */
  lemma PostOverMock(config: MockHelloSource.MockDataConfig, message: HelloMessage, pick: nat, now: Int64)
    requires |config.helloMessages| > 0 && pick < |config.randomGreetings|
    ensures var r := PostUseCase.Invoke(message, Over(MockSource(config, pick, now)).postHelloMessage);
            var t := Trim(message.text);
            && (t == [] ==> r == PostUseCase.EmptyMessage)
            && (|t| > PostUseCase.MaxLength ==> r == PostUseCase.MessageTooLong)
            && (0 < |t| <= PostUseCase.MaxLength ==> r == PostUseCase.UseCaseResult.Success(message.(text := t, timestamp := now)))
  {
    var source := MockSource(config, pick, now);
    var t := Trim(message.text);
    if 0 < |t| <= PostUseCase.MaxLength {
      var sent := message.(text := t);
      assert PostHelloMessage(source, sent) == Success(sent.(timestamp := now));
      TrimmedBlankIsEmpty(message.text);
    }
  }

  /** The two data sources disagree on short posts: one or two characters are refused over the network but accepted by the mock. */
  lemma ShortPostsDiffer(config: MockHelloSource.MockDataConfig, pick: nat, now: Int64)
    requires |config.helloMessages| > 0 && pick < |config.randomGreetings| && pick < |HelloNetworkSource.Greetings|
    ensures PostUseCase.Invoke(HelloMessage("Hi", 0, "en"), Over(NetworkSource(pick, now)).postHelloMessage) == PostUseCase.EmptyMessage
    ensures PostUseCase.Invoke(HelloMessage("Hi", 0, "en"), Over(MockSource(config, pick, now)).postHelloMessage).Success?
  {
    var hi := HelloMessage("Hi", 0, "en");
    TrimFixed("Hi");
    PostOverNetwork(hi, pick, now);
    PostOverMock(config, hi, pick, now);
  }
}

=== FILE: hello_presentation_mappers.dfy ===
/**
 * The Hello presentation mappers: domain message to screen state, and
 * screen state to card parameters with a `msg_<timestamp>` id.  The local
 * hour and minute come in as inputs; time-zone conversion is not modelled.
 */
module HelloPresentationMappers {
  import opened Optional
  import opened Text
  import opened Decimal
  import opened HelloModel

  datatype HelloMessageState = HelloMessageState(text: string, language: string, formattedTimestamp: string)

  datatype HelloMessageParams = HelloMessageParams(
    text: string,
    language: string,
    formattedTimestamp: string,
    messageId: string,
    isFromCurrentUser: bool)

  /** The feature tree's `DetailedMessageParams`, field for field the same as `HelloMessageParams`. */
  datatype DetailedMessageParams = DetailedMessageParams(
    text: string,
    language: string,
    formattedTimestamp: string,
    messageId: string,
    isFromCurrentUser: bool)

  /** `"msg_$timestamp"`: the prefix, then the timestamp's canonical decimal text. */
  function MessageId(timestamp: Int64): (r: string)
    ensures |r| > 4 && r[..4] == "msg_" && Canonical(r[4..]) && ParseSigned(r[4..]) == Some(timestamp as int)
  {
    var r := "msg_" + IntToString(timestamp);
    assert r[4..] == IntToString(timestamp);
    r
  }

  /** Distinct timestamps give distinct message ids. */
  lemma MessageIdInjective(a: Int64, b: Int64)
    ensures MessageId(a) == MessageId(b) <==> a == b
  {
    if MessageId(a) == MessageId(b) {
      assert MessageId(a)[4..] == MessageId(b)[4..];
    }
  }

  /** The shared `HelloMessageState.toParams(timestamp)`. */
  function ToParams(state: HelloMessageState, timestamp: Int64): (p: HelloMessageParams)
    ensures p.text == state.text && p.language == state.language && p.formattedTimestamp == state.formattedTimestamp
    ensures p.messageId == MessageId(timestamp) && !p.isFromCurrentUser
  {
    HelloMessageParams(state.text, state.language, state.formattedTimestamp, MessageId(timestamp), false)
  }

  /** `toString().padStart(2, '0')` for a number below 100. */
  function Pad2(n: nat): (r: string)
    requires n < 100
    ensures |r| == 2 && AllDigits(r) && DigitsValue(r) == n
  {
    var r := [DigitChar(n / 10), DigitChar(n % 10)];
    var high := [DigitChar(n / 10)];
    assert r[..1] == high && high[..0] == [];
    assert DigitsValue(high) == n / 10;
    assert DigitsValue(r) == (n / 10) * 10 + n % 10;
    r
  }

  /** Below 100, the padded text is the plain decimal text with a '0' in front of a single digit. */
  lemma Pad2AgreesWithToString(n: nat)
    requires n < 100
    ensures n < 10 ==> Pad2(n) == "0" + NatToString(n)
    ensures n >= 10 ==> Pad2(n) == NatToString(n)
  {
  }

  /** `HH:MM` of a local hour and minute. */
  function FormatTime(hour: nat, minute: nat): (r: string)
    requires hour < 24 && minute < 60
    ensures |r| == 5 && r[2] == ':'
    ensures AllDigits(r[..2]) && DigitsValue(r[..2]) == hour
    ensures AllDigits(r[3..]) && DigitsValue(r[3..]) == minute
  {
    var r := Pad2(hour) + ":" + Pad2(minute);
    assert r[..2] == Pad2(hour) && r[3..] == Pad2(minute);
    r
  }

  /** Different times of day format differently. */
  lemma FormatTimeInjective(h1: nat, m1: nat, h2: nat, m2: nat)
    requires h1 < 24 && m1 < 60 && h2 < 24 && m2 < 60
    ensures FormatTime(h1, m1) == FormatTime(h2, m2) <==> h1 == h2 && m1 == m2
  {
  }

  /** `HelloMessage.toMessageState()` for a message whose timestamp falls at `hour:minute` local time. */
  function ToMessageState(message: HelloMessage, hour: nat, minute: nat): (s: HelloMessageState)
    requires hour < 24 && minute < 60
    ensures s.text == message.text
    ensures s.language == Upper(message.language)
    ensures s.formattedTimestamp == FormatTime(hour, minute)
  {
    HelloMessageState(message.text, Upper(message.language), FormatTime(hour, minute))
  }

  /** `HelloMessageState.toDetailedParams(timestamp)`. */
  function ToDetailedParams(state: HelloMessageState, timestamp: Int64): (p: DetailedMessageParams)
    ensures p.text == state.text && p.language == state.language && p.formattedTimestamp == state.formattedTimestamp
    ensures p.messageId == MessageId(timestamp) && !p.isFromCurrentUser
  {
    DetailedMessageParams(state.text, state.language, state.formattedTimestamp, MessageId(timestamp), false)
  }

  /** `HelloMessage.toDetailedParams()`: the message's own timestamp supplies the id. */
  function MessageToDetailedParams(message: HelloMessage, hour: nat, minute: nat): (p: DetailedMessageParams)
    requires hour < 24 && minute < 60
    ensures p == ToDetailedParams(ToMessageState(message, hour, minute), message.timestamp)
    ensures p.text == message.text && p.language == Upper(message.language)
    ensures p.messageId == MessageId(message.timestamp)
  {
    ToDetailedParams(ToMessageState(message, hour, minute), message.timestamp)
  }

  /** `toSimpleState()`: the same three fields as `toMessageState()`. */
  function ToSimpleState(message: HelloMessage, hour: nat, minute: nat): (s: HelloMessageState)
    requires hour < 24 && minute < 60
    ensures s.text == message.text
    ensures s.language == Upper(message.language)
    ensures s.formattedTimestamp == FormatTime(hour, minute)
  {
    ToMessageState(message, hour, minute)
  }

  /** `toSimpleParams()`: the triple of the state's three fields. */
  function ToSimpleParams(message: HelloMessage, hour: nat, minute: nat): (r: (string, string, string))
    requires hour < 24 && minute < 60
    ensures r.0 == message.text && r.1 == Upper(message.language) && r.2 == FormatTime(hour, minute)
  {
    var state := ToMessageState(message, hour, minute);
    (state.text, state.language, state.formattedTimestamp)
  }

  /** The shared and the feature parameter builders agree field for field. */
  lemma ParamsAgree(state: HelloMessageState, timestamp: Int64)
    ensures var p := ToParams(state, timestamp);
            var d := ToDetailedParams(state, timestamp);
            p.text == d.text && p.language == d.language && p.formattedTimestamp == d.formattedTimestamp
            && p.messageId == d.messageId && p.isFromCurrentUser == d.isFromCurrentUser
  {
  }

  /** Upper-casing the language is idempotent, so mapping an already-mapped language changes nothing further. */
  lemma UpperIdempotent(s: string)
    ensures Upper(Upper(s)) == Upper(s)
  {
    var u := Upper(s);
    forall i | 0 <= i < |s| ensures Upper(u)[i] == u[i] {
      assert !('a' <= u[i] <= 'z');
    }
  }
}

=== FILE: hello_repository.dfy ===
/**
 * `HelloRepositoryImpl`: converts data-source successes to the domain with
 * `toDomain` and passes data-source errors through unchanged. The data source
 * is a record of functions standing for the `HelloNetworkDataSource` calls.
 */
module HelloRepository {
  import opened DataResults
  import opened HelloModel
  import opened Decimal

  /** A `HelloNetworkDataSource`: what each of its three calls answers. */
  datatype HelloDataSource = HelloDataSource(
    getHelloMessageDto: (string, string) -> DataResult<HelloMessageDto>,
    getRandomGreetingDto: DataResult<HelloMessageDto>,
    postHelloMessage: HelloMessageDto -> DataResult<HelloMessageDto>)

  /** A `HelloRepository`, as the use cases see it. */
  datatype Repository = Repository(
    fetchHelloMessage: (string, string) -> DataResult<HelloMessage>,
    fetchRandomGreeting: DataResult<HelloMessage>,
    postHelloMessage: HelloMessage -> DataResult<HelloMessage>)

  /** `fetchHelloMessage(name, language)` */
  function FetchHelloMessage(source: HelloDataSource, name: string, language: string): (r: DataResult<HelloMessage>)
    ensures var reply := source.getHelloMessageDto(name, language);
            && (r.Success? <==> reply.Success?)
            && (r.Success? ==> ToDto(r.data) == reply.data)
            && (r.Error? ==> r.error == reply.error)
  {
    source.getHelloMessageDto(name, language).Map(ToDomain)
  }

  /** `fetchRandomGreeting()` */
  function FetchRandomGreeting(source: HelloDataSource): (r: DataResult<HelloMessage>)
    ensures var reply := source.getRandomGreetingDto;
            && (r.Success? <==> reply.Success?)
            && (r.Success? ==> ToDto(r.data) == reply.data)
            && (r.Error? ==> r.error == reply.error)
  {
    source.getRandomGreetingDto.Map(ToDomain)
  }

  /** `postHelloMessage(message)`: the data source receives exactly `toDto(message)`. */
  function PostHelloMessage(source: HelloDataSource, message: HelloMessage): (r: DataResult<HelloMessage>)
    ensures var reply := source.postHelloMessage(ToDto(message));
            && (r.Success? <==> reply.Success?)
            && (r.Success? ==> ToDto(r.data) == reply.data)
            && (r.Error? ==> r.error == reply.error)
  {
    source.postHelloMessage(ToDto(message)).Map(ToDomain)
  }

  /** The repository `HelloRepositoryImpl(source)` builds. */
  function Over(source: HelloDataSource): (repo: Repository)
    ensures forall name, language :: repo.fetchHelloMessage(name, language) == FetchHelloMessage(source, name, language)
    ensures repo.fetchRandomGreeting == FetchRandomGreeting(source)
    ensures forall m :: repo.postHelloMessage(m) == PostHelloMessage(source, m)
  {
    Repository(
      (name, language) => FetchHelloMessage(source, name, language),
      FetchRandomGreeting(source),
      m => PostHelloMessage(source, m))
  }

  /** Posting through a data source that echoes its input with a new timestamp returns the message with that timestamp. */
  lemma PostThroughEchoingSource(source: HelloDataSource, message: HelloMessage, now: Int64)
    requires source.postHelloMessage(ToDto(message)) == Success(ToDto(message).(timestamp := now))
    ensures PostHelloMessage(source, message) == Success(message.(timestamp := now))
  {
  }
}

=== FILE: hello_screen_view_model.dfy ===
/**
 * The Hello screen's view model (the `hello_screen` iteration): user events,
 * the periodic greetings it collects on start, and the session-readiness
 * failure, as pure transitions over the MVI base.  The use cases' answers
 * and the domain-to-screen mapping `toState` are parameters.
 */
module HelloScreenViewModel {
  import opened Optional
  import opened Mvi
  import opened HelloModel
  import HelloPresentationMappers
  import GetHelloMessageUseCase
  import GetRandomGreetingUseCase
  import SessionFlow

  type HelloMessageState = HelloPresentationMappers.HelloMessageState

  datatype State = State(name: string, helloMessageState: Option<HelloMessageState>, isLoading: bool, error: Option<string>)

  datatype Event = UpdateName(name: string) | GenerateMessage | GenerateRandomGreeting | ClearMessage

  datatype Effect = ShowToast(message: string) | ShowError(error: string)

  type HelloViewModel = ViewModel<State, Effect>

  /** What the view model consults while handling one input. */
  datatype Collaborators = Collaborators(
    getHelloMessage: string -> GetHelloMessageUseCase.UseCaseResult,
    getRandomGreeting: GetRandomGreetingUseCase.UseCaseResult,
    toState: HelloMessage -> HelloMessageState)

  /** Everything that reaches the view model: a user event or a greeting from the periodic flow. */
  datatype Input = FromUser(event: Event) | PeriodicGreeting(message: HelloMessage)

  const GeneratedToast := "Message generated successfully!"
  const RandomToast := "Random greeting generated!"
  const PeriodicToast := "New greeting received!"

  function Initial(): (vm: HelloViewModel)
    ensures vm.state == State("", None, false, None) && vm.effects == []
  {
    Create(State("", None, false, None))
  }

  /** `handleReadinessFailed`: only the error changes, to the session message. */
  function OnReadinessFailed(vm: HelloViewModel): (r: HelloViewModel)
    ensures r.state == vm.state.(error := Some(SessionFlow.ReadinessFailedMessage))
    ensures r.effects == vm.effects
  {
    SetState(vm, (s: State) => s.(error := Some(SessionFlow.ReadinessFailedMessage)))
  }

  /** `updateName`: the name is set and the error cleared; the message and loading flag stay. */
  function OnUpdateName(vm: HelloViewModel, name: string): (r: HelloViewModel)
    ensures r.state == vm.state.(name := name, error := None)
    ensures r.effects == vm.effects
  {
    SetState(vm, (s: State) => s.(name := name, error := None))
  }

  /** The common start of both generate actions: loading on, error cleared. */
  function BeginLoading(vm: HelloViewModel): (r: HelloViewModel)
    ensures r.state == vm.state.(isLoading := true, error := None)
    ensures r.effects == vm.effects
  {
    SetState(vm, (s: State) => s.(isLoading := true, error := None))
  }

  /** A successful generate: the mapped message is shown, loading off, error cleared, then a toast. */
  function Succeed(vm: HelloViewModel, message: HelloMessage, toState: HelloMessage -> HelloMessageState, toast: string): (r: HelloViewModel)
    ensures r.state == vm.state.(helloMessageState := Some(toState(message)), isLoading := false, error := None)
    ensures r.effects == vm.effects + [ShowToast(toast)]
  {
    var shown := SetState(vm, (s: State) => s.(helloMessageState := Some(toState(message)), isLoading := false, error := None));
    SetEffect(shown, ShowToast(toast))
  }

  /** A failed generate: loading off, the error set, the previous message kept, then the same text as an error effect. */
  function Fail(vm: HelloViewModel, message: string): (r: HelloViewModel)
    ensures r.state == vm.state.(isLoading := false, error := Some(message))
    ensures r.effects == vm.effects + [ShowError(message)]
  {
    var failed := SetState(vm, (s: State) => s.(isLoading := false, error := Some(message)));
    SetEffect(failed, ShowError(message))
  }

  /** `GenerateMessage`: the use case is asked with the current name. */
  function OnGenerateMessage(vm: HelloViewModel, c: Collaborators): (r: HelloViewModel)
    ensures var answer := c.getHelloMessage(vm.state.name);
            && r.state.name == vm.state.name && !r.state.isLoading
            && (answer.Success? ==>
                  r.state.helloMessageState == Some(c.toState(answer.helloMessage)) && r.state.error == None
                  && r.effects == vm.effects + [ShowToast(GeneratedToast)])
            && (!answer.Success? ==>
                  r.state.helloMessageState == vm.state.helloMessageState && r.state.error == Some(answer.Message())
                  && r.effects == vm.effects + [ShowError(answer.Message())])
  {
    var started := BeginLoading(vm);
    var answer := c.getHelloMessage(started.state.name);
    if answer.Success? then Succeed(started, answer.helloMessage, c.toState, GeneratedToast)
    else Fail(started, answer.Message())
  }

  /** `GenerateRandomGreeting`: the same transitions with the random-greeting use case and its own toast. */
  function OnGenerateRandomGreeting(vm: HelloViewModel, c: Collaborators): (r: HelloViewModel)
    ensures var answer := c.getRandomGreeting;
            && r.state.name == vm.state.name && !r.state.isLoading
            && (answer.Success? ==>
                  r.state.helloMessageState == Some(c.toState(answer.helloMessage)) && r.state.error == None
                  && r.effects == vm.effects + [ShowToast(RandomToast)])
            && (!answer.Success? ==>
                  r.state.helloMessageState == vm.state.helloMessageState && r.state.error == Some(answer.Message())
                  && r.effects == vm.effects + [ShowError(answer.Message())])
  {
    var started := BeginLoading(vm);
    var answer := c.getRandomGreeting;
    if answer.Success? then Succeed(started, answer.helloMessage, c.toState, RandomToast)
    else Fail(started, answer.Message())
  }

  /** `clearMessage`: the message and the error are cleared; the name and loading flag stay. */
  function OnClearMessage(vm: HelloViewModel): (r: HelloViewModel)
    ensures r.state == vm.state.(helloMessageState := None, error := None)
    ensures r.effects == vm.effects
  {
    SetState(vm, (s: State) => s.(helloMessageState := None, error := None))
  }

  /** One collected periodic greeting: shown, error cleared, announced with a toast. */
  function OnPeriodicGreeting(vm: HelloViewModel, message: HelloMessage, toState: HelloMessage -> HelloMessageState): (r: HelloViewModel)
    ensures r.state == vm.state.(helloMessageState := Some(toState(message)), error := None)
    ensures r.effects == vm.effects + [ShowToast(PeriodicToast)]
  {
    var shown := SetState(vm, (s: State) => s.(helloMessageState := Some(toState(message)), error := None));
    SetEffect(shown, ShowToast(PeriodicToast))
  }

  /**
   * The screen is consistent when it is not loading and an error in the
   * state is exactly the last error effect sent.
   */
  predicate Consistent(vm: HelloViewModel) {
    && !vm.state.isLoading
    && (vm.state.error.Some? ==> |vm.effects| > 0 && vm.effects[|vm.effects| - 1] == ShowError(vm.state.error.value))
  }

  /** `handleEvents` plus the periodic collector: every input keeps the screen consistent and only appends effects. */
  function Step(vm: HelloViewModel, input: Input, c: Collaborators): (r: HelloViewModel)
    ensures Consistent(vm) ==> Consistent(r)
    ensures vm.effects <= r.effects
  {
    match input
    case PeriodicGreeting(message) => OnPeriodicGreeting(vm, message, c.toState)
    case FromUser(event) =>
      match event
      case UpdateName(name) => OnUpdateName(vm, name)
      case GenerateMessage => OnGenerateMessage(vm, c)
      case GenerateRandomGreeting => OnGenerateRandomGreeting(vm, c)
      case ClearMessage => OnClearMessage(vm)
  }

  /**
   * However the inputs interleave and whatever the use cases answer, a
   * screen reached from the initial state is never stuck loading, and any
   * error it shows was the last error announced.
   */
  lemma {:induction false} ReachableScreensConsistent(inputs: seq<(Input, Collaborators)>)
    ensures Consistent(Run(Initial(), inputs, (v, p: (Input, Collaborators)) => Step(v, p.0, p.1)))
  {
    var handle := (v, p: (Input, Collaborators)) => Step(v, p.0, p.1);
    forall v: HelloViewModel, p: (Input, Collaborators) | Consistent(v)
      ensures Consistent(handle(v, p))
    {
    }
    RunPreserves(Initial(), inputs, handle, (v: HelloViewModel) => Consistent(v));
  }
}

=== FILE: hello_use_cases.dfy ===
/**
 * The Hello feature's use cases: they clean the input, call the repository
 * (unless validation already decided the outcome) and classify the
 * repository's `DataResult` into user-facing outcomes.
 */
module PostHelloMessageUseCase {
  import opened Text
  import opened DataResults
  import opened HelloModel

  const MaxLength := 500

  datatype UseCaseResult =
    | Success(helloMessage: HelloMessage)
    | EmptyMessage
    | MessageTooLong
    | MessagePostFailed
    | ServiceUnavailable
  {
    /** The user-facing text of an error outcome. */
    function Message(): string
      requires !Success?
    {
      match this
      case EmptyMessage => "Message cannot be empty. Please enter a message."
      case MessageTooLong => "Message is too long. Please use fewer than 500 characters."
      case MessagePostFailed => "Failed to post hello message. Please try again."
      case ServiceUnavailable => "Message posting service is currently unavailable. Please try again later."
    }
  }

  /** What validation decides: an outcome without a repository call, or the message to post. */
  datatype Validated = Reject(result: UseCaseResult) | Forward(request: HelloMessage)

  /** The input checks: the trimmed text must be non-empty and at most 500 characters long. */
  function Validate(message: HelloMessage): (v: Validated)
    ensures Trim(message.text) == [] <==> v == Reject(EmptyMessage)
    ensures |Trim(message.text)| > MaxLength <==> v == Reject(MessageTooLong)
    ensures v.Forward? <==> 0 < |Trim(message.text)| <= MaxLength
    ensures v.Forward? ==> v.request == message.(text := Trim(message.text))
  {
    var clean := Trim(message.text);
    if clean == [] then Reject(EmptyMessage)
    else if |clean| > MaxLength then Reject(MessageTooLong)
    else Forward(message.(text := clean))
  }

  /** Classification of the repository's answer; each outcome listed with exactly the answers that produce it. */
  function Classify(reply: DataResult<HelloMessage>): (r: UseCaseResult)
    ensures r.Success? <==> reply.Success? && !IsBlank(reply.data.text)
    ensures r.Success? ==> r.helloMessage == reply.data
    ensures r == MessagePostFailed <==>
              (reply.Success? && IsBlank(reply.data.text)) || (reply.Error? && (reply.error.Database? || reply.error.Mapping?))
    ensures r == EmptyMessage <==> reply.Error? && reply.error.HttpError? && reply.error.code == 400
    ensures r == MessageTooLong <==> reply.Error? && reply.error.HttpError? && reply.error.code == 413
    ensures r == ServiceUnavailable <==>
              reply.Error? && (reply.error.ConnectionError? || reply.error.UnknownError? || reply.error.UnexpectedError?
                               || (reply.error.HttpError? && reply.error.code != 400 && reply.error.code != 413))
  {
    match reply
    case Success(m) => if IsBlank(m.text) then MessagePostFailed else UseCaseResult.Success(m)
    case Error(e) =>
      match e
      case Database(_) => MessagePostFailed
      case Mapping(_) => MessagePostFailed
      case ConnectionError(_) => ServiceUnavailable
      case HttpError(code, _) =>
        if code == 400 then EmptyMessage
        else if code == 413 then MessageTooLong
        else ServiceUnavailable
      case _ => ServiceUnavailable
  }

  /** `invoke(helloMessage)` against a repository's `postHelloMessage`. */
  function Invoke(message: HelloMessage, post: HelloMessage -> DataResult<HelloMessage>): (r: UseCaseResult)
    ensures Trim(message.text) == [] ==> r == EmptyMessage
    ensures |Trim(message.text)| > MaxLength ==> r == MessageTooLong
    ensures 0 < |Trim(message.text)| <= MaxLength ==> r == Classify(post(message.(text := Trim(message.text))))
    ensures r.Success? ==> !IsBlank(r.helloMessage.text)
  {
    match Validate(message)
    case Reject(result) => result
    case Forward(request) => Classify(post(request))
  }
}

module GetHelloMessageUseCase {
  import opened Text
  import opened DataResults
  import opened HelloModel

  const MaxNameLength := 100

  /** The language `fetchHelloMessage` is called with when none is given. */
  const DefaultLanguage := "en"

  datatype UseCaseResult =
    | Success(helloMessage: HelloMessage)
    | InvalidName
    | MessageGenerationFailed
    | MessageUnavailable
    | ServiceUnavailable
  {
    function Message(): string
      requires !Success?
    {
      match this
      case InvalidName => "Name is too long or contains invalid characters. Please use a shorter name."
      case MessageGenerationFailed => "Failed to generate hello message. Please try again."
      case MessageUnavailable => "Unable to access message data. Please try again."
      case ServiceUnavailable => "Hello message service is currently unavailable. Please try again later."
    }
  }

  /** `name.trim().ifEmpty { "World" }`: never empty and never padded with whitespace. */
  function CleanName(name: string): (r: string)
    ensures Trim(name) != [] ==> r == Trim(name)
    ensures Trim(name) == [] ==> r == "World"
    ensures r != [] && !IsWhitespace(r[0]) && !IsWhitespace(r[|r| - 1])
  {
    var trimmed := Trim(name);
    if trimmed == [] then "World" else trimmed
  }

  /** Cleaning is idempotent: a cleaned name is forwarded as it is. */
  lemma CleanNameIdempotent(name: string)
    ensures CleanName(CleanName(name)) == CleanName(name)
  {
    if Trim(name) == [] {
      TrimFixed("World");
    } else {
      TrimIdempotent(name);
    }
  }

  datatype Validated = Reject(result: UseCaseResult) | Forward(name: string)

  /** A cleaned name longer than 100 characters is rejected without a repository call. */
  function Validate(name: string): (v: Validated)
    ensures v.Reject? <==> |CleanName(name)| > MaxNameLength
    ensures v.Reject? ==> v.result == InvalidName
    ensures v.Forward? ==> v.name == CleanName(name)
  {
    var clean := CleanName(name);
    if |clean| > MaxNameLength then Reject(InvalidName) else Forward(clean)
  }

  function Classify(reply: DataResult<HelloMessage>): (r: UseCaseResult)
    ensures r.Success? <==> reply.Success? && !IsBlank(reply.data.text)
    ensures r.Success? ==> r.helloMessage == reply.data
    ensures r == MessageGenerationFailed <==> reply.Success? && IsBlank(reply.data.text)
    ensures r == MessageUnavailable <==>
              reply.Error? && (reply.error.Database? || reply.error.Mapping? || (reply.error.HttpError? && reply.error.code == 404))
    ensures r == InvalidName <==> reply.Error? && reply.error.HttpError? && reply.error.code == 400
    ensures r == ServiceUnavailable <==>
              reply.Error? && (reply.error.ConnectionError? || reply.error.UnknownError? || reply.error.UnexpectedError?
                               || (reply.error.HttpError? && reply.error.code != 400 && reply.error.code != 404))
  {
    match reply
    case Success(m) => if IsBlank(m.text) then MessageGenerationFailed else UseCaseResult.Success(m)
    case Error(e) =>
      match e
      case Database(_) => MessageUnavailable
      case Mapping(_) => MessageUnavailable
      case ConnectionError(_) => ServiceUnavailable
      case HttpError(code, _) =>
        if code == 400 then InvalidName
        else if code == 404 then MessageUnavailable
        else ServiceUnavailable
      case _ => ServiceUnavailable
  }

  /** `invoke(name)` against a repository's `fetchHelloMessage(name, language)`. */
  function Invoke(name: string, fetch: (string, string) -> DataResult<HelloMessage>): (r: UseCaseResult)
    ensures |CleanName(name)| > MaxNameLength ==> r == InvalidName
    ensures |CleanName(name)| <= MaxNameLength ==> r == Classify(fetch(CleanName(name), DefaultLanguage))
    ensures r.Success? ==> !IsBlank(r.helloMessage.text)
  {
    match Validate(name)
    case Reject(result) => result
    case Forward(clean) => Classify(fetch(clean, DefaultLanguage))
  }
}

module GetRandomGreetingUseCase {
  import opened Text
  import opened DataResults
  import opened HelloModel

  datatype UseCaseResult =
    | Success(helloMessage: HelloMessage)
    | EmptyGreeting
    | NoGreetingsFound
    | GreetingUnavailable
    | ServiceUnavailable
  {
    function Message(): string
      requires !Success?
    {
      match this
      case EmptyGreeting => "Received an empty greeting. Please try again."
      case NoGreetingsFound => "No greetings are available at the moment."
      case GreetingUnavailable => "Unable to access greeting data. Please try again."
      case ServiceUnavailable => "Greeting service is currently unavailable. Please try again later."
    }
  }

  /** `invoke()` on the repository's `fetchRandomGreeting()` answer. */
  function Invoke(reply: DataResult<HelloMessage>): (r: UseCaseResult)
    ensures r.Success? <==> reply.Success? && !IsBlank(reply.data.text)
    ensures r.Success? ==> r.helloMessage == reply.data
    ensures r == EmptyGreeting <==> reply.Success? && IsBlank(reply.data.text)
    ensures r == GreetingUnavailable <==> reply.Error? && (reply.error.Database? || reply.error.Mapping?)
    ensures r == NoGreetingsFound <==> reply.Error? && reply.error.HttpError? && reply.error.code == 404
    ensures r == ServiceUnavailable <==>
              reply.Error? && (reply.error.ConnectionError? || reply.error.UnknownError? || reply.error.UnexpectedError?
                               || (reply.error.HttpError? && reply.error.code != 404))
  {
    match reply
    case Success(m) => if IsBlank(m.text) then EmptyGreeting else UseCaseResult.Success(m)
    case Error(e) =>
      match e
      case Database(_) => GreetingUnavailable
      case Mapping(_) => GreetingUnavailable
      case ConnectionError(_) => ServiceUnavailable
      case HttpError(code, _) => if code == 404 then NoGreetingsFound else ServiceUnavailable
      case _ => ServiceUnavailable
  }
}

=== FILE: legacy_hello_use_cases.dfy ===
/**
 * The earlier iteration of the Hello use cases (the `feature/hello` tree):
 * posting only rejects empty text and maps errors by group; fetching a
 * greeting only cleans the name and passes the repository's answer on.
 */
module LegacyPostHelloMessageUseCase {
  import opened Text
  import opened DataResults
  import opened HelloModel

  datatype UseCaseResult =
    | Success(helloMessage: HelloMessage)
    | ClientError
    | NetworkError
    | Validation(validationMessage: string)
  {
    /** `Error.message`; a validation error carries its own text. */
    function Message(): (m: string)
      requires !Success?
      ensures Validation? ==> m == validationMessage
    {
      match this
      case ClientError => "Client error occurred"
      case NetworkError => "Network error occurred"
      case Validation(v) => v
    }
  }

  const EmptyMessageText := "Message cannot be empty"

  datatype Validated = Reject(result: UseCaseResult) | Forward(request: HelloMessage)

  function Validate(message: HelloMessage): (v: Validated)
    ensures v.Reject? <==> Trim(message.text) == []
    ensures v.Reject? ==> v.result == Validation(EmptyMessageText) && v.result.Message() == EmptyMessageText
    ensures v.Forward? ==> v.request == message.(text := Trim(message.text))
  {
    var clean := Trim(message.text);
    if clean == [] then Reject(Validation(EmptyMessageText)) else Forward(message.(text := clean))
  }

  /** No blank check and no length limit: a success is returned as it is; errors collapse to their group. */
  function Classify(reply: DataResult<HelloMessage>): (r: UseCaseResult)
    ensures reply.Success? ==> r == UseCaseResult.Success(reply.data)
    ensures r == ClientError <==> reply.Error? && reply.error.IsClient()
    ensures r == NetworkError <==> reply.Error? && reply.error.IsNetwork()
    ensures !r.Validation?
  {
    match reply
    case Success(m) => UseCaseResult.Success(m)
    case Error(e) => if e.IsClient() then ClientError else NetworkError
  }

  function Invoke(message: HelloMessage, post: HelloMessage -> DataResult<HelloMessage>): (r: UseCaseResult)
    ensures Trim(message.text) == [] ==> r == Validation(EmptyMessageText)
    ensures Trim(message.text) != [] ==> r == Classify(post(message.(text := Trim(message.text))))
  {
    match Validate(message)
    case Reject(result) => result
    case Forward(request) => Classify(post(request))
  }
}

module LegacyGetHelloMessageUseCase {
  import opened Text
  import opened DataResults
  import opened HelloModel
  import GetHelloMessageUseCase

  /** `invoke(name)`: the repository's `getHelloMessage(cleanName)` answer, unchanged. */
  function Invoke(name: string, getHelloMessage: string -> DataResult<HelloMessage>): (r: DataResult<HelloMessage>)
    ensures Trim(name) != [] ==> r == getHelloMessage(Trim(name))
    ensures Trim(name) == [] ==> r == getHelloMessage("World")
  {
    getHelloMessage(GetHelloMessageUseCase.CleanName(name))
  }

  /** The forwarded name is never empty and has no whitespace at either end. */
  lemma ForwardedNameIsClean(name: string)
    ensures var forwarded := GetHelloMessageUseCase.CleanName(name);
            forwarded != [] && !IsWhitespace(forwarded[0]) && !IsWhitespace(forwarded[|forwarded| - 1])
            && Trim(forwarded) == forwarded
  {
    GetHelloMessageUseCase.CleanNameIdempotent(name);
    var forwarded := GetHelloMessageUseCase.CleanName(name);
    TrimFixed(forwarded);
  }
}

=== FILE: legacy_hello_view_model.dfy ===
/**
 * The earlier Hello view model (the `presentation` iteration): the same
 * events and transitions as the `hello_screen` one, but the state holds the
 * domain message itself and there are no periodic greetings.
 */
module LegacyHelloViewModel {
  import opened Optional
  import opened Mvi
  import opened HelloModel
  import GetHelloMessageUseCase
  import GetRandomGreetingUseCase
  import SessionFlow
  import Screen = HelloScreenViewModel

  /** `HelloState()`; every field has a default. */
  datatype HelloState = HelloState(name: string, message: Option<HelloMessage>, isLoading: bool, error: Option<string>)

  datatype HelloEvent = UpdateName(name: string) | GenerateMessage | GenerateRandomGreeting | ClearMessage

  datatype HelloEffect = ShowToast(message: string) | ShowError(error: string)

  type LegacyViewModel = ViewModel<HelloState, HelloEffect>

  datatype Collaborators = Collaborators(
    getHelloMessage: string -> GetHelloMessageUseCase.UseCaseResult,
    getRandomGreeting: GetRandomGreetingUseCase.UseCaseResult)

  const DefaultState := HelloState("", None, false, None)

  function Initial(): (vm: LegacyViewModel)
    ensures vm.state.name == "" && vm.state.message.None? && !vm.state.isLoading && vm.state.error.None?
    ensures vm.effects == []
  {
    Create(DefaultState)
  }

  /** `handleReadinessFailed`: only the error changes. */
  function OnReadinessFailed(vm: LegacyViewModel): (r: LegacyViewModel)
    ensures r.state == vm.state.(error := Some(SessionFlow.ReadinessFailedMessage)) && r.effects == vm.effects
  {
    SetState(vm, (s: HelloState) => s.(error := Some(SessionFlow.ReadinessFailedMessage)))
  }

  function OnUpdateName(vm: LegacyViewModel, name: string): (r: LegacyViewModel)
    ensures r.state == vm.state.(name := name, error := None) && r.effects == vm.effects
  {
    SetState(vm, (s: HelloState) => s.(name := name, error := None))
  }

  function BeginLoading(vm: LegacyViewModel): (r: LegacyViewModel)
    ensures r.state == vm.state.(isLoading := true, error := None) && r.effects == vm.effects
  {
    SetState(vm, (s: HelloState) => s.(isLoading := true, error := None))
  }

  /** The `onSuccess` callback: the domain message is stored, loading off, error cleared, then a toast. */
  function Succeed(vm: LegacyViewModel, message: HelloMessage, toast: string): (r: LegacyViewModel)
    ensures r.state == vm.state.(message := Some(message), isLoading := false, error := None)
    ensures r.effects == vm.effects + [ShowToast(toast)]
  {
    var shown := SetState(vm, (s: HelloState) => s.(message := Some(message), isLoading := false, error := None));
    SetEffect(shown, ShowToast(toast))
  }

  /** The `onError` callback: loading off, the error set, the old message kept, then the same text as an effect. */
  function Fail(vm: LegacyViewModel, error: string): (r: LegacyViewModel)
    ensures r.state == vm.state.(isLoading := false, error := Some(error))
    ensures r.effects == vm.effects + [ShowError(error)]
  {
    var failed := SetState(vm, (s: HelloState) => s.(isLoading := false, error := Some(error)));
    SetEffect(failed, ShowError(error))
  }

  function OnGenerateMessage(vm: LegacyViewModel, c: Collaborators): (r: LegacyViewModel)
    ensures var answer := c.getHelloMessage(vm.state.name);
            && r.state.name == vm.state.name && !r.state.isLoading
            && (answer.Success? ==>
                  r.state.message == Some(answer.helloMessage) && r.state.error == None
                  && r.effects == vm.effects + [ShowToast(Screen.GeneratedToast)])
            && (!answer.Success? ==>
                  r.state.message == vm.state.message && r.state.error == Some(answer.Message())
                  && r.effects == vm.effects + [ShowError(answer.Message())])
  {
    var started := BeginLoading(vm);
    var answer := c.getHelloMessage(started.state.name);
    if answer.Success? then Succeed(started, answer.helloMessage, Screen.GeneratedToast)
    else Fail(started, answer.Message())
  }

  function OnGenerateRandomGreeting(vm: LegacyViewModel, c: Collaborators): (r: LegacyViewModel)
    ensures var answer := c.getRandomGreeting;
            && r.state.name == vm.state.name && !r.state.isLoading
            && (answer.Success? ==>
                  r.state.message == Some(answer.helloMessage) && r.state.error == None
                  && r.effects == vm.effects + [ShowToast(Screen.RandomToast)])
            && (!answer.Success? ==>
                  r.state.message == vm.state.message && r.state.error == Some(answer.Message())
                  && r.effects == vm.effects + [ShowError(answer.Message())])
  {
    var started := BeginLoading(vm);
    var answer := c.getRandomGreeting;
    if answer.Success? then Succeed(started, answer.helloMessage, Screen.RandomToast)
    else Fail(started, answer.Message())
  }

  function OnClearMessage(vm: LegacyViewModel): (r: LegacyViewModel)
    ensures r.state == vm.state.(message := None, error := None) && r.effects == vm.effects
  {
    SetState(vm, (s: HelloState) => s.(message := None, error := None))
  }

  /**
   * `handleEvents`: only `UpdateName` changes the name; a generate event ends
   * loading and emits exactly one effect, a clearing event none; an emitted
   * error effect carries the error the state now shows, a toast comes with
   * no error.
   */
  function Handle(vm: LegacyViewModel, event: HelloEvent, c: Collaborators): (r: LegacyViewModel)
    ensures vm.effects <= r.effects
    ensures r.state.name == (if event.UpdateName? then event.name else vm.state.name)
    ensures event.UpdateName? || event.ClearMessage? ==> r.effects == vm.effects
    ensures event.GenerateMessage? || event.GenerateRandomGreeting? ==>
              |r.effects| == |vm.effects| + 1 && !r.state.isLoading
    ensures |r.effects| > |vm.effects| ==>
              (r.effects[|vm.effects|].ShowError? <==> r.state.error.Some?)
              && (r.effects[|vm.effects|].ShowError? ==> r.state.error == Some(r.effects[|vm.effects|].error))
    ensures event.ClearMessage? ==> r.state.message.None? && r.state.error.None?
  {
    match event
    case UpdateName(name) => OnUpdateName(vm, name)
    case GenerateMessage => OnGenerateMessage(vm, c)
    case GenerateRandomGreeting => OnGenerateRandomGreeting(vm, c)
    case ClearMessage => OnClearMessage(vm)
  }

  /** The `hello_screen` view of a legacy view model: the stored message mapped by `toState`. */
  function Project(vm: LegacyViewModel, toState: HelloMessage -> Screen.HelloMessageState): (r: Screen.HelloViewModel)
    ensures r.state.name == vm.state.name && r.state.isLoading == vm.state.isLoading && r.state.error == vm.state.error
    ensures r.state.helloMessageState.Some? <==> vm.state.message.Some?
    ensures |r.effects| == |vm.effects|
  {
    var shown := match vm.state.message
      case None => None
      case Some(m) => Some(toState(m));
    ViewModel(Screen.State(vm.state.name, shown, vm.state.isLoading, vm.state.error),
              seq(|vm.effects|, i requires 0 <= i < |vm.effects| => ProjectEffect(vm.effects[i])))
  }

  function ProjectEffect(e: HelloEffect): Screen.Effect {
    match e
    case ShowToast(message) => Screen.ShowToast(message)
    case ShowError(error) => Screen.ShowError(error)
  }

  function ProjectEvent(e: HelloEvent): Screen.Event {
    match e
    case UpdateName(name) => Screen.UpdateName(name)
    case GenerateMessage => Screen.GenerateMessage
    case GenerateRandomGreeting => Screen.GenerateRandomGreeting
    case ClearMessage => Screen.ClearMessage
  }

  lemma ProjectAppend(vm: LegacyViewModel, toState: HelloMessage -> Screen.HelloMessageState, e: HelloEffect)
    ensures Project(vm.(effects := vm.effects + [e]), toState).effects == Project(vm, toState).effects + [ProjectEffect(e)]
  {
  }

  /** On every user event, the two iterations move in lockstep: the legacy step, projected, is the `hello_screen` step. */
  lemma StepsAgree(vm: LegacyViewModel, event: HelloEvent, c: Collaborators, toState: HelloMessage -> Screen.HelloMessageState)
    ensures Project(Handle(vm, event, c), toState)
            == Screen.Step(Project(vm, toState), Screen.FromUser(ProjectEvent(event)),
                           Screen.Collaborators(c.getHelloMessage, c.getRandomGreeting, toState))
  {
    var r := Handle(vm, event, c);
    match event
    case GenerateMessage =>
      var answer := c.getHelloMessage(vm.state.name);
      if answer.Success? {
        ProjectAppend(vm.(state := r.state), toState, ShowToast(Screen.GeneratedToast));
      } else {
        ProjectAppend(vm.(state := r.state), toState, ShowError(answer.Message()));
      }
    case GenerateRandomGreeting =>
      var answer := c.getRandomGreeting;
      if answer.Success? {
        ProjectAppend(vm.(state := r.state), toState, ShowToast(Screen.RandomToast));
      } else {
        ProjectAppend(vm.(state := r.state), toState, ShowError(answer.Message()));
      }
    case _ =>
  }

  /** From their initial states, both iterations agree after any run of user events. */
  lemma {:induction false} RunsAgree(vm: LegacyViewModel, events: seq<HelloEvent>, c: Collaborators,
                                     toState: HelloMessage -> Screen.HelloMessageState)
    ensures var screenC := Screen.Collaborators(c.getHelloMessage, c.getRandomGreeting, toState);
            Project(Run(vm, events, (v, e) => Handle(v, e, c)), toState)
            == Run(Project(vm, toState), seq(|events|, i requires 0 <= i < |events| => Screen.FromUser(ProjectEvent(events[i]))),
                   (v, e) => Screen.Step(v, e, screenC))
    decreases |events|
  {
    var screenC := Screen.Collaborators(c.getHelloMessage, c.getRandomGreeting, toState);
    var inputs := seq(|events|, i requires 0 <= i < |events| => Screen.FromUser(ProjectEvent(events[i])));
    if events != [] {
      StepsAgree(vm, events[0], c, toState);
      RunsAgree(Handle(vm, events[0], c), events[1..], c, toState);
      var rest := seq(|events[1..]|, i requires 0 <= i < |events[1..]| => Screen.FromUser(ProjectEvent(events[1..][i])));
      assert inputs[1..] == rest;
    }
  }

  lemma InitialsAgree(toState: HelloMessage -> Screen.HelloMessageState)
    ensures Project(Initial(), toState) == Screen.Initial()
  {
  }
}

=== FILE: login_mappers.dfy ===
/**
 * Login data-layer mappers: `UserDto.toDomain`/`User.toDto` and
 * `TokenDto.toDomain`/`Token.toDto`. The four classes' declarations are not
 * part of this model; the field types below are assumed.
 */
module LoginMappers {
  import opened Optional
  import opened Decimal

  datatype User = User(
    id: string, username: string, email: string,
    firstName: Option<string>, lastName: Option<string>,
    isActive: bool, createdAt: Int64, lastLoginAt: Option<Int64>)

  datatype UserDto = UserDto(
    id: string, username: string, email: string,
    firstName: Option<string>, lastName: Option<string>,
    isActive: bool, createdAt: Int64, lastLoginAt: Option<Int64>)

  datatype Token = Token(
    accessToken: string, refreshToken: string, tokenType: string,
    expiresIn: Int64, issuedAt: Int64, scope: Option<string>)

  datatype TokenDto = TokenDto(
    accessToken: string, refreshToken: string, tokenType: string,
    expiresIn: Int64, issuedAt: Int64, scope: Option<string>)

  /** `UserDto.toDomain()`: all eight fields, one for one. */
  function UserToDomain(d: UserDto): (u: User)
    ensures u.id == d.id && u.username == d.username && u.email == d.email
    ensures u.firstName == d.firstName && u.lastName == d.lastName
    ensures u.isActive == d.isActive && u.createdAt == d.createdAt && u.lastLoginAt == d.lastLoginAt
  {
    User(d.id, d.username, d.email, d.firstName, d.lastName, d.isActive, d.createdAt, d.lastLoginAt)
  }

  /** `User.toDto()`: the inverse of `UserToDomain`. */
  function UserToDto(u: User): (d: UserDto)
    ensures UserToDomain(d) == u
  {
    UserDto(u.id, u.username, u.email, u.firstName, u.lastName, u.isActive, u.createdAt, u.lastLoginAt)
  }

  lemma UserDtoRoundTrip(d: UserDto)
    ensures UserToDto(UserToDomain(d)) == d
  {
  }

  /** `TokenDto.toDomain()`: all six fields, one for one. */
  function TokenToDomain(d: TokenDto): (t: Token)
    ensures t.accessToken == d.accessToken && t.refreshToken == d.refreshToken
    ensures t.tokenType == d.tokenType && t.expiresIn == d.expiresIn
    ensures t.issuedAt == d.issuedAt && t.scope == d.scope
  {
    Token(d.accessToken, d.refreshToken, d.tokenType, d.expiresIn, d.issuedAt, d.scope)
  }

  /** `Token.toDto()`: the inverse of `TokenToDomain`. */
  function TokenToDto(t: Token): (d: TokenDto)
    ensures TokenToDomain(d) == t
  {
    TokenDto(t.accessToken, t.refreshToken, t.tokenType, t.expiresIn, t.issuedAt, t.scope)
  }

  lemma TokenDtoRoundTrip(d: TokenDto)
    ensures TokenToDto(TokenToDomain(d)) == d
  {
  }
}

=== FILE: login_view_model.dfy ===
/**
 * The Login screen's view model as pure transitions over the MVI base.
 * The login service is a parameter; its answer is either a success or an
 * error carrying the message to show.
 */
module LoginViewModel {
  import opened Optional
  import opened Text
  import opened Mvi

  datatype LoginState = LoginState(username: string, password: string, isLoading: bool, isLoginEnabled: bool)

  /** `LoginState.initial()`. */
  const InitialLoginState := LoginState("", "", false, false)

  datatype State = State(loginState: LoginState, error: Option<string>)

  datatype Event = UpdateUsername(username: string) | UpdatePassword(password: string) | Login | ClearError

  datatype Effect = ShowToast(message: string) | ShowError(error: string) | NavigateToHome

  /** What `loginService.login(username, password)` answers. */
  datatype LoginReply = Succeeded | Failed(message: string)

  type LoginService = (string, string) -> LoginReply

  type LoginViewModel = ViewModel<State, Effect>

  const SuccessToast := "Login successful!"

  /** The login button is enabled exactly when both credentials have non-whitespace content. */
  predicate EnabledMatches(s: State) {
    s.loginState.isLoginEnabled <==> !IsBlank(s.loginState.username) && !IsBlank(s.loginState.password)
  }

  function Initial(): (vm: LoginViewModel)
    ensures vm.state.loginState == InitialLoginState && vm.state.error == None && vm.effects == []
    ensures EnabledMatches(vm.state)
  {
    Create(State(InitialLoginState, None))
  }

  function WithUsername(s: State, username: string): State {
    s.(loginState := s.loginState.(username := username,
                                   isLoginEnabled := !IsBlank(username) && !IsBlank(s.loginState.password)),
       error := None)
  }

  function WithPassword(s: State, password: string): State {
    s.(loginState := s.loginState.(password := password,
                                   isLoginEnabled := !IsBlank(s.loginState.username) && !IsBlank(password)),
       error := None)
  }

  /** `updateUsername`: the new username, the enabled flag recomputed, the error cleared. */
  function OnUpdateUsername(vm: LoginViewModel, username: string): (r: LoginViewModel)
    ensures r.state.loginState.username == username
    ensures r.state.loginState.password == vm.state.loginState.password
    ensures r.state.loginState.isLoading == vm.state.loginState.isLoading
    ensures r.state.error == None && r.effects == vm.effects
    ensures EnabledMatches(r.state)
  {
    SetState(vm, s => WithUsername(s, username))
  }

  /** `updatePassword`: the new password, the enabled flag recomputed, the error cleared. */
  function OnUpdatePassword(vm: LoginViewModel, password: string): (r: LoginViewModel)
    ensures r.state.loginState.password == password
    ensures r.state.loginState.username == vm.state.loginState.username
    ensures r.state.loginState.isLoading == vm.state.loginState.isLoading
    ensures r.state.error == None && r.effects == vm.effects
    ensures EnabledMatches(r.state)
  {
    SetState(vm, s => WithPassword(s, password))
  }

  /** The first half of `performLogin`: loading on, error cleared, before the service is asked. */
  function BeginLogin(vm: LoginViewModel): (r: LoginViewModel)
    ensures r.state.loginState == vm.state.loginState.(isLoading := true)
    ensures r.state.error == None && r.effects == vm.effects
  {
    SetState(vm, (s: State) => s.(loginState := s.loginState.(isLoading := true), error := None))
  }

  /** The second half of `performLogin`, given the service's answer. */
  function FinishLogin(vm: LoginViewModel, reply: LoginReply): (r: LoginViewModel)
    ensures r.state.loginState == vm.state.loginState.(isLoading := false)
    ensures reply.Succeeded? ==> r.state.error == None && r.effects == vm.effects + [ShowToast(SuccessToast), NavigateToHome]
    ensures reply.Failed? ==> r.state.error == Some(reply.message) && r.effects == vm.effects + [ShowError(reply.message)]
  {
    match reply
    case Succeeded =>
      var done := SetState(vm, (s: State) => s.(loginState := s.loginState.(isLoading := false), error := None));
      SetEffect(SetEffect(done, ShowToast(SuccessToast)), NavigateToHome)
    case Failed(message) =>
      var done := SetState(vm, (s: State) => s.(loginState := s.loginState.(isLoading := false), error := Some(message)));
      SetEffect(done, ShowError(message))
  }

  /**
   * `Login`: the service is asked with the current credentials, which stay
   * untouched; loading ends off; success navigates home after a toast,
   * failure shows the service's message both in the state and as an effect.
   */
  function OnLogin(vm: LoginViewModel, service: LoginService): (r: LoginViewModel)
    ensures var reply := service(vm.state.loginState.username, vm.state.loginState.password);
            && r.state.loginState == vm.state.loginState.(isLoading := false)
            && (reply.Succeeded? ==> r.state.error == None && r.effects == vm.effects + [ShowToast(SuccessToast), NavigateToHome])
            && (reply.Failed? ==> r.state.error == Some(reply.message) && r.effects == vm.effects + [ShowError(reply.message)])
  {
    var started := BeginLogin(vm);
    FinishLogin(started, service(started.state.loginState.username, started.state.loginState.password))
  }

  /** `clearError`: only the error changes. */
  function OnClearError(vm: LoginViewModel): (r: LoginViewModel)
    ensures r.state == vm.state.(error := None) && r.effects == vm.effects
  {
    SetState(vm, (s: State) => s.(error := None))
  }

  /** `handleEvents`: every step keeps the enabled-flag invariant and only appends effects. */
  function Handle(vm: LoginViewModel, event: Event, service: LoginService): (r: LoginViewModel)
    ensures EnabledMatches(vm.state) ==> EnabledMatches(r.state)
    ensures vm.effects <= r.effects
  {
    match event
    case UpdateUsername(username) => OnUpdateUsername(vm, username)
    case UpdatePassword(password) => OnUpdatePassword(vm, password)
    case Login => OnLogin(vm, service)
    case ClearError => OnClearError(vm)
  }

  /** In every state reachable from the initial one, the login button is enabled exactly when both fields are non-blank. */
  lemma {:induction false} ReachableStatesEnabledMatch(events: seq<Event>, service: LoginService)
    ensures EnabledMatches(Run(Initial(), events, (v, e) => Handle(v, e, service)).state)
  {
    var handle := (v, e) => Handle(v, e, service);
    forall v: LoginViewModel, e: Event
      ensures EnabledMatches(v.state) ==> EnabledMatches(handle(v, e).state)
    {
    }
    RunPreserves(Initial(), events, handle, (v: LoginViewModel) => EnabledMatches(v.state));
  }

  /** A successful login is announced by exactly one toast followed by one navigation, and nothing else. */
  lemma SuccessfulLoginEffects(vm: LoginViewModel, service: LoginService)
    requires service(vm.state.loginState.username, vm.state.loginState.password).Succeeded?
    ensures var r := Handle(vm, Login, service);
            r.effects[|vm.effects|..] == [ShowToast(SuccessToast), NavigateToHome]
            && !r.state.loginState.isLoading && r.state.error == None
  {
    var r := Handle(vm, Login, service);
    assert r.effects == vm.effects + [ShowToast(SuccessToast), NavigateToHome];
  }
}

=== FILE: mvi.dfy ===
/**
 * The MVI base view model: one current state (which is also the published
 * UI state) and the log of side effects sent so far, in sending order.
 * Coroutine launching and channel delivery are not modelled: every handler
 * runs to completion, one after another.
 */
module Mvi {

  datatype ViewModel<S, E> = ViewModel(state: S, effects: seq<E>)

  /** A freshly created view model: the initial state and no effects yet. */
  function Create<S, E>(initial: S): (vm: ViewModel<S, E>)
    ensures vm.state == initial && |vm.effects| == 0
  {
    ViewModel(initial, [])
  }

  /** `setState(reducer)`: the state becomes `reducer(state)`; the effect log is untouched. */
  function SetState<S, E>(vm: ViewModel<S, E>, reducer: S -> S): (r: ViewModel<S, E>)
    ensures r.state == reducer(vm.state)
    ensures r.effects == vm.effects
  {
    vm.(state := reducer(vm.state))
  }

  /** `setEffect { effect }`: the builder's value, taken once, is queued after every earlier effect. */
  function SetEffect<S, E>(vm: ViewModel<S, E>, effect: E): (r: ViewModel<S, E>)
    ensures r.state == vm.state
    ensures |r.effects| == |vm.effects| + 1 && vm.effects <= r.effects && r.effects[|vm.effects|] == effect
  {
    vm.(effects := vm.effects + [effect])
  }

  /** Two state updates in a row are one update by the composed reducer. */
  lemma SetStateCompose<S, E>(vm: ViewModel<S, E>, f: S -> S, g: S -> S)
    ensures SetState(SetState(vm, f), g) == SetState(vm, s => g(f(s)))
  {
  }

  /** Updating the state and queueing an effect commute. */
  lemma SetStateSetEffectCommute<S, E>(vm: ViewModel<S, E>, f: S -> S, effect: E)
    ensures SetEffect(SetState(vm, f), effect) == SetState(SetEffect(vm, effect), f)
  {
  }

  /** A run of `setEvent` calls, each handed unchanged to `handleEvents`. */
  function Run<S, E, V>(vm: ViewModel<S, E>, events: seq<V>, handle: (ViewModel<S, E>, V) -> ViewModel<S, E>): ViewModel<S, E>
    decreases |events|
  {
    if events == [] then vm else Run(handle(vm, events[0]), events[1..], handle)
  }

  /** Running two batches of events is running their concatenation; a single event is one `handleEvents` call. */
  lemma {:induction false} RunAppend<S, E, V>(vm: ViewModel<S, E>, a: seq<V>, b: seq<V>,
                                              handle: (ViewModel<S, E>, V) -> ViewModel<S, E>)
    ensures Run(vm, a + b, handle) == Run(Run(vm, a, handle), b, handle)
    ensures |a| == 1 ==> Run(vm, a, handle) == handle(vm, a[0])
    decreases |a|
  {
    if a == [] {
      assert a + b == b;
    } else {
      assert (a + b)[0] == a[0];
      assert (a + b)[1..] == a[1..] + b;
      RunAppend(handle(vm, a[0]), a[1..], b, handle);
      if |a| == 1 {
        assert a[1..] == [];
      }
    }
  }

  /** A property of state and effect log that every handler step keeps holds after any run of events. */
  lemma {:induction false} RunPreserves<S, E, V>(vm: ViewModel<S, E>, events: seq<V>,
                                                 handle: (ViewModel<S, E>, V) -> ViewModel<S, E>,
                                                 inv: ViewModel<S, E> -> bool)
    requires inv(vm)
    requires forall v: ViewModel<S, E>, e: V :: inv(v) ==> inv(handle(v, e))
    ensures inv(Run(vm, events, handle))
    decreases |events|
  {
    if events != [] {
      RunPreserves(handle(vm, events[0]), events[1..], handle, inv);
    }
  }

  /** When no handler withdraws an effect, the log only ever grows: earlier effects stay, in order. */
  lemma {:induction false} RunExtendsEffects<S, E, V>(vm: ViewModel<S, E>, events: seq<V>,
                                                      handle: (ViewModel<S, E>, V) -> ViewModel<S, E>)
    requires forall v: ViewModel<S, E>, e: V :: v.effects <= handle(v, e).effects
    ensures vm.effects <= Run(vm, events, handle).effects
    decreases |events|
  {
    if events != [] {
      var next := handle(vm, events[0]);
      RunExtendsEffects(next, events[1..], handle);
      assert vm.effects <= next.effects;
    }
  }
}

=== FILE: optional.dfy ===
/** Kotlin's nullable values and the build script's thrown exceptions, as plain datatypes. */
module Optional {

  /** A Kotlin `T?`: `None` stands for `null`. */
  datatype Option<+T> = None | Some(value: T) {

    /** Kotlin's elvis operator `this ?: default`. */
    function OrElse(default: T): (r: T)
      ensures Some? ==> r == value
      ensures None? ==> r == default
    {
      match this
      case Some(v) => v
      case None => default
    }
  }

  /** A computation that either yields a value or stops with an error. */
  datatype Result<+T, +E> = Ok(value: T) | Err(error: E)
}

=== FILE: text.dfy ===
/**
 * The Kotlin string operations the core relies on: `trim`, `isBlank`,
 * `lowercase`/`uppercase`, `contains`, `replace` and `equals(ignoreCase = true)`.
 * Whitespace is Kotlin's `Char.isWhitespace`; case mapping covers ASCII letters only.
 */
module Text {

  /** Kotlin's `Char.isWhitespace` on the JVM: Java whitespace or a Unicode space character. */
  predicate IsWhitespace(c: char) {
    var n := c as int;
    || (9 <= n <= 13)
    || (28 <= n <= 32)
    || n == 0xA0 || n == 0x1680
    || (0x2000 <= n <= 0x200A)
    || n == 0x2028 || n == 0x2029 || n == 0x202F || n == 0x205F || n == 0x3000
  }

  /** Kotlin's `isBlank`: empty or whitespace only. */
  predicate IsBlank(s: string) {
    forall i :: 0 <= i < |s| ==> IsWhitespace(s[i])
  }

  /** `r` occurs in `s` starting at index `a`. */
  predicate InfixAt(s: string, r: string, a: int) {
    0 <= a <= |s| - |r| && s[a..a + |r|] == r
  }

  /** Every character of `s` outside the index range `lo..hi` is whitespace. */
  predicate BlankOutside(s: string, lo: int, hi: int) {
    (forall i :: 0 <= i < lo && i < |s| ==> IsWhitespace(s[i]))
    && (forall i :: hi <= i < |s| && 0 <= i ==> IsWhitespace(s[i]))
  }

  /** Drops leading whitespace. */
  function TrimStart(s: string): (r: string)
    ensures |r| <= |s| && r == s[|s| - |r|..]
    ensures r == [] || !IsWhitespace(r[0])
    ensures forall i :: 0 <= i < |s| - |r| ==> IsWhitespace(s[i])
  {
    if |s| > 0 && IsWhitespace(s[0]) then TrimStart(s[1..]) else s
  }

  /** Drops trailing whitespace. */
  function TrimEnd(s: string): (r: string)
    ensures |r| <= |s| && r == s[..|r|]
    ensures r == [] || !IsWhitespace(r[|r| - 1])
    ensures forall i :: |r| <= i < |s| ==> IsWhitespace(s[i])
  {
    if |s| > 0 && IsWhitespace(s[|s| - 1]) then TrimEnd(s[..|s| - 1]) else s
  }

  /**
   * Kotlin's `trim()`: the longest infix of `s` that neither starts nor ends
   * with whitespace; everything cut off on either side is whitespace.
   */
  function Trim(s: string): (r: string)
    ensures |r| <= |s|
    ensures r == [] || (!IsWhitespace(r[0]) && !IsWhitespace(r[|r| - 1]))
    ensures exists a :: InfixAt(s, r, a) && BlankOutside(s, a, a + |r|)
  {
    var t := TrimStart(s);
    var r := TrimEnd(t);
    var a := |s| - |t|;
    assert forall i :: a <= i < |s| ==> s[i] == t[i - a];
    assert s[a..a + |r|] == r;
    assert InfixAt(s, r, a) && BlankOutside(s, a, a + |r|);
    r
  }

  /** Trimming yields the empty string exactly for blank input. */
  lemma TrimEmptyIffBlank(s: string)
    ensures Trim(s) == [] <==> IsBlank(s)
  {
    var r := Trim(s);
    var a :| InfixAt(s, r, a) && BlankOutside(s, a, a + |r|);
    if r != [] {
      assert s[a] == r[0];
    }
  }

  /** A trimmed string is blank only when it is empty. */
  lemma TrimmedBlankIsEmpty(s: string)
    ensures IsBlank(Trim(s)) <==> Trim(s) == []
  {
    var r := Trim(s);
    if r != [] {
      assert !IsWhitespace(r[0]);
    }
  }

  /** A string that neither starts nor ends with whitespace is its own trim. */
  lemma TrimFixed(s: string)
    requires s == [] || (!IsWhitespace(s[0]) && !IsWhitespace(s[|s| - 1]))
    ensures Trim(s) == s
  {
    assert TrimStart(s) == s;
    assert TrimEnd(s) == s;
  }

  /** Trimming twice is trimming once. */
  lemma TrimIdempotent(s: string)
    ensures Trim(Trim(s)) == Trim(s)
  {
    TrimFixed(Trim(s));
  }

  function LowerChar(c: char): char {
    if 'A' <= c <= 'Z' then (c as int + 32) as char else c
  }

  function UpperChar(c: char): char {
    if 'a' <= c <= 'z' then (c as int - 32) as char else c
  }

  /** Kotlin's `lowercase()` (ASCII letters). */
  function Lower(s: string): (r: string)
    ensures |r| == |s|
    ensures forall i :: 0 <= i < |s| ==> !('A' <= r[i] <= 'Z')
    ensures forall i :: 0 <= i < |s| ==> UpperChar(r[i]) == UpperChar(s[i])
  {
    seq(|s|, i requires 0 <= i < |s| => LowerChar(s[i]))
  }

  /** Kotlin's `uppercase()` (ASCII letters). */
  function Upper(s: string): (r: string)
    ensures |r| == |s|
    ensures forall i :: 0 <= i < |s| ==> !('a' <= r[i] <= 'z')
    ensures forall i :: 0 <= i < |s| ==> LowerChar(r[i]) == LowerChar(s[i])
  {
    seq(|s|, i requires 0 <= i < |s| => UpperChar(s[i]))
  }

  /** Kotlin's `a.equals(b, ignoreCase = true)` on ASCII letters. */
  predicate EqualsIgnoreCase(a: string, b: string) {
    |a| == |b| && forall i :: 0 <= i < |a| ==> UpperChar(a[i]) == UpperChar(b[i])
  }

  /** Case-insensitive equality is an equivalence that identifies a string with its upper-cased form. */
  lemma EqualsIgnoreCaseProperties(a: string, b: string, c: string)
    ensures EqualsIgnoreCase(a, a)
    ensures EqualsIgnoreCase(a, b) ==> EqualsIgnoreCase(b, a)
    ensures EqualsIgnoreCase(a, b) && EqualsIgnoreCase(b, c) ==> EqualsIgnoreCase(a, c)
    ensures EqualsIgnoreCase(Upper(a), a) && EqualsIgnoreCase(Lower(a), a)
  {
    var u := Upper(a);
    forall i | 0 <= i < |a| ensures UpperChar(u[i]) == UpperChar(a[i]) {
      assert u[i] == UpperChar(a[i]);
    }
  }

  /** Kotlin's `s.contains(p)`: `p` occurs somewhere in `s`. */
  predicate Contains(s: string, p: string) {
    exists i | 0 <= i <= |s| - |p| :: InfixAt(s, p, i)
  }

  /** Kotlin's `s.replace(pat, rep)` for a non-empty pattern: every non-overlapping occurrence, left to right. */
  function ReplaceAll(s: string, pat: string, rep: string): (r: string)
    requires |pat| > 0
    ensures |rep| == |pat| ==> |r| == |s|
    decreases |s|
  {
    if |s| < |pat| then s
    else if s[..|pat|] == pat then rep + ReplaceAll(s[|pat|..], pat, rep)
    else [s[0]] + ReplaceAll(s[1..], pat, rep)
  }

  /**
   * One pass only: a replacement can join with the text around it to form
   * the pattern again, even when the replacement itself does not contain it.
   */
  lemma ReplaceCanFormPattern()
    ensures !Contains("a", "ab")
    ensures ReplaceAll("aabb", "ab", "a") == "aab" && InfixAt("aab", "ab", 1)
  {
    assert "aabb"[..2][1] != "ab"[1];
    assert "aabb"[1..] == "abb";
    assert "abb"[..2] == "ab" && "abb"[2..] == "b";
    assert ReplaceAll("b", "ab", "a") == "b";
  }

  /** Text without an occurrence of the pattern is left as it is. */
  lemma {:induction false} ReplaceAbsent(s: string, pat: string, rep: string)
    requires |pat| > 0 && !Contains(s, pat)
    ensures ReplaceAll(s, pat, rep) == s
    decreases |s|
  {
    if |s| >= |pat| {
      assert !InfixAt(s, pat, 0);
      NotContainsTail(s, pat);
      ReplaceAbsent(s[1..], pat, rep);
      assert s == [s[0]] + s[1..];
    }
  }

  lemma NotContainsTail(s: string, p: string)
    requires |s| > 0
    ensures !Contains(s, p) ==> !Contains(s[1..], p)
  {
    if Contains(s[1..], p) {
      var t := s[1..];
      assert Contains(t, p);
      var i :| 0 <= i <= |t| - |p| && InfixAt(t, p, i);
      assert s[i + 1..i + 1 + |p|] == t[i..i + |p|];
      assert InfixAt(s, p, i + 1);
    }
  }

  /** Replacing a pattern by itself changes nothing. */
  lemma {:induction false} ReplaceBySelf(s: string, pat: string)
    requires |pat| > 0
    ensures ReplaceAll(s, pat, pat) == s
    decreases |s|
  {
    if |s| < |pat| {
    } else if s[..|pat|] == pat {
      ReplaceBySelf(s[|pat|..], pat);
      assert s == s[..|pat|] + s[|pat|..];
    } else {
      ReplaceBySelf(s[1..], pat);
      assert s == [s[0]] + s[1..];
    }
  }

  /** Text that does not contain the pattern's first character passes through replacement unchanged. */
  lemma {:induction false} ReplaceAfterLiteral(lit: string, rest: string, pat: string, rep: string)
    requires |pat| > 0
    requires pat[0] !in lit
    ensures ReplaceAll(lit + rest, pat, rep) == lit + ReplaceAll(rest, pat, rep)
    decreases |lit|
  {
    if lit == [] {
      assert lit + rest == rest;
    } else {
      var tail := lit[1..];
      var s := lit + rest;
      assert lit == [lit[0]] + tail;
      assert pat[0] !in tail;
      assert s[1..] == tail + rest;
      ReplaceAfterLiteral(tail, rest, pat, rep);
      ReplaceNoMatchAtHead(s, pat, rep);
      var r := ReplaceAll(rest, pat, rep);
      assert [lit[0]] + (tail + r) == lit + r;
    }
  }

  /** When the pattern does not start at the head, the head character is kept. */
  lemma ReplaceNoMatchAtHead(s: string, pat: string, rep: string)
    requires |pat| > 0 && |s| > 0 && s[0] != pat[0]
    ensures ReplaceAll(s, pat, rep) == [s[0]] + ReplaceAll(s[1..], pat, rep)
  {
    if |s| < |pat| {
      assert s == [s[0]] + s[1..];
    } else {
      assert s[..|pat|][0] != pat[0];
    }
  }

  /** A leading occurrence of the pattern becomes the replacement. */
  lemma ReplaceLeading(pat: string, rest: string, rep: string)
    requires |pat| > 0
    ensures ReplaceAll(pat + rest, pat, rep) == rep + ReplaceAll(rest, pat, rep)
  {
    var s := pat + rest;
    assert s[..|pat|] == pat;
    assert s[|pat|..] == rest;
  }
}
